=== FILE: README.md ===
# pyrofs in Dafny

pyrofs is an in-memory filesystem. A Rust core is exposed to Python and can
be mounted through FUSE. This project models its three core layers as pure
functions on immutable data and proves properties about them:

- **Inode table** (`src/tree.rs`). This is a map from inode number to a node
  (file, directory or symlink) plus a monotonic allocation counter. The root
  is inode 1, is its own parent, and the counter starts at 2. The table
  supports insert, remove, lookup, rename and attribute synthesis
  (`getattr`), and the file-buffer operations `truncate` and `write`. The
  model is in `tree.dfy`, with byte handling in `bytes.dfy` and UTF-8 lengths
  in `utf8.dfy`.
- **FUSE adapter** (`src/fs.rs`). Each callback is a function
  `(table, arguments) -> Step(reply, table')`. The reply is either a value or
  an errno (`ENOENT`, `EEXIST`, `EINVAL`, `EISDIR`, `ENOTDIR`, `ENOTEMPTY`).
  The model is in `fuse.dfy`.
- **Path layer** (`src/pytypes.rs`, without mounting). Slash paths are
  trimmed, split and stripped of empty components, then resolved one
  `lookup` at a time from the root. Each path operation is a function
  `(table, arguments) -> Outcome(result, table')` whose error is a
  `PathError`. The model is in `paths.dfy`.

`invariants.dfy` defines what a healthy table is, as `Valid`. It holds when:

- the root is a self-parented directory;
- inode numbers lie below the counter;
- every directory entry names a live node that records that directory and
  that name;
- every non-root node is registered in its parent;
- the parent links are acyclic. A rank map witnesses this: every parent
  ranks strictly below its child.

`Valid` is proved preserved by every mutating step, under exactly the
preconditions the source leaves to its callers. Four hazards in the source
are modelled faithfully and shown to happen:

- Inserting under a non-directory orphans the new node
  (`Invariants.InsertUnderNonDirOrphans`,
  `FuseProps.CreateUnderNonDirectoryOrphans`).
- Renaming an entry onto itself deletes the node and then fails
  (`FuseProps.RenameOntoItselfLosesNode`,
  `PathProps.RenameOntoItselfLosesNode`).
- Renaming a directory into its own subtree is accepted and breaks
  acyclicity (`Invariants.RenameIntoOwnSubtreeBreaksValid`).
- Renaming into a live file is accepted: the file has no entries, so the
  destination name counts as free, and the moved node ends up registered
  nowhere (`FuseProps.RenameUnderNonDirectoryOrphans`).

A fifth follows from the code. `remove_dir` on the root path of a table
whose root is empty deletes the root (`PathProps.RemoveDirOfRootRemovesRoot`).

`fuse_props.dfy` and `path_props.dfy` relate operations to each other. They
cover invariant preservation, lookups after creation, readdir pagination,
`makedirs` idempotence, and agreement between path rename and FUSE rename.
`scenario.dfy` walks a concrete session: mkdir, create, write, extend past a
gap, rename, rmdir refused, unlink, rmdir.

Time is an abstract integer `now` passed to every mutating operation. The
iteration order of a directory's hash map is a parameter.

## Model

| member | source | states |
|---|---|---|
| Bytes.Truncate | src/tree.rs:159-172 | `truncate(n)` gives content of length exactly n; the old bytes are kept below the old length and the extension reads as zeros |
| Bytes.ReadSlice | src/fs.rs:202-229 | a read returns at most `size` bytes; it is empty when the offset is negative or at or past the end; otherwise it has exactly min(size, len - offset) bytes, each equal to the content at offset + i |
| Bytes.WriteAt | src/fs.rs:243-269 | after a write the length is max(old, offset + data); the written range equals the data; old bytes outside it are unchanged; the gap between the old end and the offset is zero |
| Bytes.TruncateToLengthIsIdentity | src/tree.rs:159-172 | truncating to the current size leaves the content unchanged |
| Bytes.ReadAfterWrite | src/fs.rs:202-269 | reading back the range just written returns exactly the data written |
| Bytes.GapReadsAsZeros | src/fs.rs:243-269 | writing at an offset into an empty file makes every byte before the offset read as zero |
| Utf8.EncodeChar | src/tree.rs:492-509 | a character encodes to 1 to 4 bytes with the UTF-8 lead and continuation bit patterns, and ASCII encodes to itself |
| Utf8.Encode | src/fs.rs:645-655 | the byte string `readlink` replies with is exactly as long as the UTF-8 length that `getattr` reports as a symlink's size |
| Utf8.AsciiByteLen | src/tree.rs:492-509 | an ASCII target's reported size equals its character count |
| Tree.FileWrite | src/tree.rs:151-156 | `PyFile::write` replaces the whole content; the new size is the data length; name, mode and identity are kept; mtime and ctime become now |
| Tree.FileTruncate | src/tree.rs:159-172 | the new size is exactly the requested size; the content is the prefix when shrinking and the old content followed by zeros when growing; mtime and ctime become now |
| Tree.New | src/tree.rs:271-278 | a fresh table is empty and its counter is 2 |
| Tree.InitRoot | src/tree.rs:281-289 | inode 1 becomes an empty, unnamed directory with mode 0o755 that is its own parent, all three times set to now; the counter and all other nodes are untouched |
| Tree.AllocIno | src/tree.rs:291-295 | returns the current counter, advances it by one, and touches nothing else |
| Tree.Get | src/tree.rs:297-299 | finds exactly the live nodes |
| Tree.GetFile | src/tree.rs:301-306 | finds exactly the live files |
| Tree.GetDir | src/tree.rs:308-313 | finds exactly the live directories |
| Tree.GetSymlink | src/tree.rs:315-320 | finds exactly the live symlinks |
| Tree.Lookup | src/tree.rs:446-451 | a name resolves exactly when the parent is a live directory holding that entry; it is None for an absent or non-directory parent |
| Tree.Insert | src/tree.rs:323-409 | the node gets the counter as its number and the given parent; exactly one key is added; under a directory parent that parent becomes `AddChild` of its old self: it gains the name, mapped to the new number, keeps every other entry, name, mode and atime, and has mtime and ctime set to now; under a non-directory no entry is added and no other node changes; every node other than the parent and the new one is unchanged |
| Tree.Remove | src/tree.rs:413-443 | an absent number gives None and no change; otherwise the node is returned and deleted; a live directory parent becomes `DropChild` of its old self: it loses exactly that name, keeps every other entry, and has mtime and ctime set to now; when the parent is not a live directory the table is the old one minus that key; every node other than the node and its parent is unchanged |
| Tree.Blocks | src/tree.rs:454-511 | the block count is the least number of 512-byte blocks covering the size |
| Tree.GetAttr | src/tree.rs:454-511 | attributes of a live node: a file has its content length, blocks = ceil(size/512), nlink 1 and its mode; a directory has size 0, blocks 0 and nlink 2 + entries; a symlink has the UTF-8 target length and perm 0o777; crtime equals ctime; uid and gid come from the table |
| Tree.Rename | src/tree.rs:514-571 | a missing source entry fails with no change; a dangling entry fails with NodeNotFound after the old parent lost it; otherwise the inode number is kept and lands under the new name in a directory destination; the moved node becomes `Relocate` of itself: new name and parent and ctime now, with kind, mode, content, target, atime and mtime kept, and a moved directory keeps its entries; the old parent loses the old name and the new parent gains the new one, each with mtime and ctime set to now (both steps on one node when the parents coincide); the old entry is gone whenever the locations differ; unrelated nodes are unchanged; every other entry of the old and new parents is unchanged; the key set and counter are unchanged |
| Tree.Attach | src/tree.rs:536-570 | the second half of a rename: the node takes its new name and parent with everything else kept, a directory destination gains exactly the new entry with its stamps set, every other lookup in the table is unchanged, and no other node changes |
| Invariants.FreshTableValid | src/tree.rs:271-289 | a new table with its root is valid, holds only the root, and will hand out 2 next |
| Invariants.InsertAllocatesFresh | src/tree.rs:291-295 | the number an insert hands out is not live, is not the root and is above every live number, and all numbers stay below the counter |
| Invariants.NoReuseAfterRemove | src/tree.rs:291-295 | after a node is removed, the next insert gets a number strictly greater than the removed one, so numbers are never reused |
| Invariants.InsertPreservesValid | src/tree.rs:323-409 | inserting a fresh empty node under a free name of a live directory keeps the table valid |
| Invariants.RemovePreservesValid | src/tree.rs:413-443 | removing a live non-root file, symlink or empty directory keeps the table valid |
| Invariants.RenamePreservesValid | src/tree.rs:514-571 | moving an entry to a free name in a live directory outside the moved subtree keeps the table valid |
| Invariants.InsertUnderNonDirOrphans | src/tree.rs:341-348 | inserting under a number that is not a live directory leaves a live node that no directory lists, so the table is no longer well formed |
| Invariants.RenameIntoOwnSubtreeBreaksValid | src/tree.rs:514-571 | moving a directory under one of its own descendants is accepted and leaves a table with no valid ranking, i.e. a parent cycle |
| Fuse.MaskMode | src/fs.rs:336-342 | a kernel mode keeps only its low twelve bits |
| Fuse.Lookup | src/fs.rs:63-82 | attributes exactly when the name is text and names a live entry of the parent; ENOENT otherwise |
| Fuse.GetAttr | src/fs.rs:84-93 | the table's attributes for a live inode; ENOENT otherwise |
| Fuse.SetAttr | src/fs.rs:95-200 | ENOENT with no change for an absent inode; otherwise truncation applies only to files; the mode is masked to 0o7777 and stored for files and directories but never for symlinks; atime and mtime are set as given or to now, and an explicit mtime overrides the truncation stamp; ctime becomes now when a time is given or a file is truncated, and a mode-only change keeps ctime; every other node is unchanged |
| Fuse.Read | src/fs.rs:202-229 | ENOENT unless the inode is a file; otherwise at most `size` bytes from the offset, empty at or past the end, exactly min(size, len - offset) bytes otherwise, each matching the content |
| Fuse.Write | src/fs.rs:231-271 | ENOENT with no change unless the inode is a file; otherwise the reply is the data length; the content is zero-extended and overwritten pointwise; mtime and ctime are now; every other node is unchanged |
| FuseProps.FileWriteLastWins | src/tree.rs:151-156 | a later `PyFile::write` replaces an earlier one entirely: only the last content and stamp survive |
| FuseProps.WriteCoveringIsFileWrite | src/fs.rs:243-265 | a FUSE write at offset 0 whose data covers the whole content stores exactly what `PyFile::write` of that data stores |
| Fuse.ChildRows | src/fs.rs:273-312 | the child rows name exactly the entries of the directory whose inode is live, each with its number and kind; for a distinct iteration order each name appears once, at strictly increasing positions of the order (`Follows`); when every listed name is a live entry there is one row per name |
| Fuse.Listing | src/fs.rs:273-312 | a listing starts with `.` for the directory and `..` for its parent |
| Fuse.Page | src/fs.rs:273-312 | a page holds the rows from the offset on, as many as fit, and entry j carries position offset + j + 1 |
| Fuse.Readdir | src/fs.rs:273-312 | ENOTDIR unless the inode is a directory; otherwise the listing skips the first `offset` rows and never returns more than fit; each entry carries its 1-based position |
| Fuse.InsertAndStat | src/fs.rs:336-359 | the reply carries the inserted node's attributes |
| Fuse.Create | src/fs.rs:314-359 | EINVAL for a non-text name and EEXIST for a taken name, both with no change; otherwise an empty file with mode & 0o7777 at the next inode number, registered under the parent; the table is exactly the insert's result, so the counter, the other nodes and the parent's other entries are as before |
| Fuse.Mkdir | src/fs.rs:361-403 | the same policy as create, for an empty directory with nlink 2; the table is exactly the insert's result |
| Fuse.Symlink | src/fs.rs:595-643 | the same policy as create; the target is stored verbatim and the size is its UTF-8 length; the table is exactly the insert's result |
| Fuse.Unlink | src/fs.rs:405-432 | ENOENT for an absent or vanished entry and EISDIR for a directory, both with no change; otherwise a file or symlink is removed |
| Fuse.Rmdir | src/fs.rs:434-473 | ENOENT for absent, ENOTDIR for a file or symlink, ENOTEMPTY for a directory with entries, all with no change; otherwise the empty directory is removed |
| Fuse.Open | src/fs.rs:475-484 | succeeds exactly for live files |
| Fuse.OpenDir | src/fs.rs:499-508 | succeeds exactly for live directories |
| Fuse.Rename | src/fs.rs:521-593 | ENOENT for a missing source; EISDIR or ENOTDIR for a kind mismatch, by the destination's kind; ENOTEMPTY for a non-empty destination directory; all with no change; otherwise an existing destination is removed and then the entry is moved, and a failed move replies EINVAL with the removal kept |
| Fuse.Readlink | src/fs.rs:645-655 | the UTF-8 bytes of a symlink's target; ENOENT for anything else |
| FuseProps.SymlinkSizeIsReadlinkLength | src/tree.rs:492-509 | the size `getattr` reports for a symlink equals the length of the bytes `readlink` replies with |
| Fuse.Access | src/fs.rs:695-705 | succeeds exactly for live inodes, with no permission check |
| FuseProps.CreatePreservesValid | src/fs.rs:314-359 | `create` under a live directory keeps the table valid |
| FuseProps.MkdirPreservesValid | src/fs.rs:361-403 | `mkdir` under a live directory keeps the table valid |
| FuseProps.SymlinkPreservesValid | src/fs.rs:595-643 | `symlink` under a live directory keeps the table valid |
| FuseProps.CreateUnderNonDirectoryOrphans | src/tree.rs:341-348 | `create` with a parent that is not a directory still succeeds, and the table is no longer well formed |
| FuseProps.EntryIsLiveChild | src/tree.rs:446-451 | in a well-formed table every entry names a live non-root node other than its directory |
| FuseProps.UnlinkPreservesValid | src/fs.rs:405-432 | `unlink` keeps a valid table valid, whatever its arguments |
| FuseProps.RmdirPreservesValid | src/fs.rs:434-473 | `rmdir` keeps a valid table valid, whatever its arguments |
| FuseProps.WritePreservesValid | src/fs.rs:231-271 | `write` keeps a valid table valid |
| FuseProps.SetAttrPreservesValid | src/fs.rs:95-200 | `setattr` keeps a valid table valid |
| FuseProps.DestinationRemoved | src/fs.rs:559-589 | after an overwriting rename removes the destination, the source entry, the free destination name and the acyclicity condition all still hold |
| FuseProps.RenamePreservesValid | src/fs.rs:521-593 | `rename` keeps the table valid when the destination parent is a directory outside the moved subtree, including a rename of an entry onto itself |
| FuseProps.RenameOverwrites | src/fs.rs:559-589 | renaming onto an entry of the same kind removes the destination node; the destination name then gives the source node with its kind and content; the old name is gone |
| FuseProps.RenameOntoItselfLosesNode | src/fs.rs:559-589 | renaming an entry onto itself replies EINVAL after deleting the node, and the name no longer resolves |
| FuseProps.SelfRenamePreservesValid | src/fs.rs:546-589 | renaming an entry onto itself keeps a valid table valid: it either changes nothing (a non-empty directory) or removes one leaf |
| FuseProps.RenameUnderNonDirectoryOrphans | src/tree.rs:514-571 | `rename` into a live file replies success, points the node at the file, and leaves the table not well formed |
| FuseProps.ReaddirResume | src/fs.rs:273-312 | reading a directory in two pages, resuming at the position the first page ends, gives the same entries as one large page |
| FuseProps.ReaddirListsEveryEntry | src/fs.rs:273-312 | in a valid table a page with room for everything lists exactly `.`, `..` and the names of the entries: 2 + the entry count rows, each entry once, in iteration order |
| FuseProps.WholeReaddirInOrder | src/fs.rs:284-305 | in a well-formed table a page with room for everything has 2 + the entry count rows, and after `.` and `..` it names the iteration order position by position, so each entry appears once |
| Paths.TrimStart | src/pytypes.rs:381-390 | exactly the leading slashes are dropped |
| Paths.TrimEnd | src/pytypes.rs:381-390 | exactly the trailing slashes are dropped |
| Paths.Trim | src/pytypes.rs:381-390 | the result is the slice of the path after its leading slashes, everything outside it is a slash, and it neither starts nor ends with a slash (which fixes it uniquely) |
| Paths.Split | src/pytypes.rs:381-390 | splitting gives at least one piece, no piece contains a slash, and joining the pieces with slashes gives the input back |
| Paths.DropEmpty | src/pytypes.rs:381-390 | the kept pieces are non-empty pieces of the input, and every non-empty piece of the input is kept |
| Paths.DropEmptyAppend | src/pytypes.rs:381-390 | the filter distributes over concatenation, so it keeps the non-empty pieces in their order |
| Paths.Components | src/pytypes.rs:381-390 | every component is non-empty and slash-free; how they relate to the raw path is Paths.ComponentsArePieces |
| Paths.ComponentsArePieces | src/pytypes.rs:381-390 | the components of a path are exactly the non-empty pieces between its slashes, in order: trimming first changes nothing |
| Paths.ComponentsOfJoin | src/pytypes.rs:381-390 | joining components with slashes and normalising gives the same components back |
| Paths.ResolvePath | src/pytypes.rs:381-405 | a path without components is inode 1; otherwise it succeeds exactly when every component resolves in turn through lookup, and fails with "not found" otherwise |
| Paths.ResolveParent | src/pytypes.rs:408-432 | the root path is refused; one component gives exactly Ok((1, name)), unchecked; otherwise the prefix must resolve, or "not found", and must be a directory, or "parent not a directory", and when it does the result is exactly Ok((prefix inode, last component)) |
| Paths.CreateAt | src/pytypes.rs:86-132 | a parent-resolution error and a taken name both leave the table unchanged; otherwise the node is inserted under the final component at the next inode number |
| Paths.CreateFile | src/pytypes.rs:86-110 | failure changes nothing; success stores a file with the given content and mode at the next number under the resolved parent |
| Paths.CreateDir | src/pytypes.rs:114-132 | failure changes nothing; success stores an empty directory at the next number |
| Paths.Symlink | src/pytypes.rs:211-229 | failure changes nothing; success stores the target verbatim at the next number |
| Paths.MakedirsWalk | src/pytypes.rs:136-190 | an entry naming a vanished inode fails with "dangling" and a file or symlink component fails with "not a directory", both with no change |
| Paths.Makedirs | src/pytypes.rs:136-190 | a path without components returns the root and creates nothing |
| Paths.GetPath | src/pytypes.rs:193-203 | the node exactly when the path resolves to a live inode; "not found" otherwise |
| Paths.Exists | src/pytypes.rs:206-208 | true exactly when the path resolves, even to a vanished inode |
| Paths.Readlink | src/pytypes.rs:232-240 | the stored target of a symlink path; "not found" or "not a symlink" otherwise |
| Paths.IsSymlink | src/pytypes.rs:243-250 | true exactly when the path names a live symlink, in which case `readlink` succeeds |
| Paths.Listdir | src/pytypes.rs:288-296 | exactly the key set of the directory's entries; "not a directory" for anything else |
| Paths.RemoveFile | src/pytypes.rs:253-265 | directories are refused and unresolved paths fail, with no change; otherwise the node is removed |
| Paths.RemoveDir | src/pytypes.rs:268-285 | non-directories and non-empty directories are refused, with no change; otherwise the empty directory is removed |
| Paths.Rename | src/pytypes.rs:333-371 | parent errors, a missing source, a kind mismatch and a non-empty destination all fail with no change; otherwise the destination is removed and the table's rename moves the entry |
| PathProps.ComponentsEmptyIffTrimmedEmpty | src/pytypes.rs:381-390 | a path has no components exactly when trimming its slashes leaves nothing |
| PathProps.ResolveParentNeverInvalid | src/pytypes.rs:408-432 | `resolve_parent` never reports an invalid path, because a path that passes the root check always has a last component |
| PathProps.ResolveAppend | src/pytypes.rs:392-404 | resolving a concatenation resolves the first part, then the rest from where it ended |
| PathProps.ResolveParentThenLookup | src/pytypes.rs:381-432 | the full path resolves to the parent's entry for the final name |
| PathProps.ResolvesToChild | src/pytypes.rs:392-404 | in a well-formed table a non-root path resolves to a live non-root node whose parent and name are the resolved prefix and the final component |
| PathProps.ResolveKept | src/pytypes.rs:392-404 | a resolving path resolves to the same node in any table that keeps the original entries |
| PathProps.InsertKeepsEntries | src/tree.rs:323-409 | inserting under a free name keeps every existing entry |
| PathProps.MakedirsErrorLeavesTableUnchanged | src/pytypes.rs:136-190 | a failing `makedirs` has created nothing, since every failure precedes the first creation |
| PathProps.MakedirsWalkFailsIffBlocked | src/pytypes.rs:136-190 | from a directory, the walk fails exactly when some component, reached through directories only, names a file, a symlink or a vanished inode; missing components never cause a failure |
| PathProps.MakedirsFailsIffBlocked | src/pytypes.rs:136-190 | `makedirs` fails exactly when some component of the path, reached through directories from the root, names a file, a symlink or a vanished inode; existing directories are walked through and missing ones created |
| PathProps.MakedirsWalkFromEmpty | src/pytypes.rs:160-187 | once the walk has created a directory, the rest of the walk cannot fail |
| PathProps.MakedirsCreatesEveryPrefix | src/pytypes.rs:136-190 | after success every prefix of the path resolves to a directory, and the whole path resolves to the directory returned |
| PathProps.MakedirsIdempotent | src/pytypes.rs:136-190 | repeating a successful `makedirs` creates nothing and returns the same directory |
| PathProps.MakedirsPreservesValid | src/pytypes.rs:136-190 | `makedirs` keeps a valid table valid |
| PathProps.CreateFilePreservesValid | src/pytypes.rs:86-110 | `create_file` keeps a valid table valid |
| PathProps.CreateDirPreservesValid | src/pytypes.rs:114-132 | `create_dir` keeps a valid table valid |
| PathProps.SymlinkPreservesValid | src/pytypes.rs:211-229 | `symlink` keeps a valid table valid |
| PathProps.InsertedResolves | src/pytypes.rs:86-132 | after an insert under the final name, the path resolves to the new node |
| PathProps.CreateFileThenGet | src/pytypes.rs:86-110 | `get` on a path just created by `create_file` returns a file with the given content |
| PathProps.CreateDirThenListdir | src/pytypes.rs:114-132 | `listdir` on a directory just created is empty |
| PathProps.SymlinkThenReadlink | src/pytypes.rs:211-240 | `readlink` on a symlink just created returns its target, and `is_symlink` holds |
| PathProps.ListedNameIsChild | src/pytypes.rs:288-296 | every name `listdir` reports resolves, from the listed directory, to a live node of that name whose parent is that directory |
| PathProps.ListdirNamesResolve | src/pytypes.rs:288-296 | every listed name appended to the path resolves to a live node inside the listed directory |
| PathProps.RemoveResolvedGone | src/pytypes.rs:253-285 | removing the node a non-root path resolves to makes the path stop resolving |
| PathProps.RemoveFileThenGone | src/pytypes.rs:253-265 | after a successful `remove_file` the path no longer exists |
| PathProps.RemoveFilePreservesValid | src/pytypes.rs:253-265 | `remove_file` keeps a valid table valid |
| PathProps.RemoveDirThenGone | src/pytypes.rs:268-285 | after a successful `remove_dir` of a non-root path the path no longer exists |
| PathProps.RemoveDirPreservesValid | src/pytypes.rs:268-285 | `remove_dir` of a non-root path keeps a valid table valid |
| PathProps.RemoveDirOfRootRemovesRoot | src/pytypes.rs:268-285 | `remove_dir` on the root path of an empty root succeeds and deletes inode 1; the table is no longer well formed, yet the root path still exists |
| PathProps.RenameAgreesWithFuse | src/pytypes.rs:333-371 | once both parents resolve, the path rename leaves the same table as the FUSE rename on the resolved parents and names, and succeeds exactly when that replies Ok |
| PathProps.RenamePreservesValid | src/pytypes.rs:333-371 | path rename keeps the table valid when the destination parent is outside the moved subtree, including a rename of a path onto itself |
| PathProps.RenameMovesNode | src/pytypes.rs:333-371 | a successful rename to a free name puts the node under the new name in the new parent, keeps its kind and content, and removes the old entry |
| PathProps.RenameOntoItselfLosesNode | src/pytypes.rs:348-370 | renaming a path onto itself fails with the table's "source not found" after deleting the node, and the path no longer exists |
| Scenario.Mounted | src/pytypes.rs:65-76 | a fresh mount holds only the empty root, and the counter is 2 |
| Scenario.CreateAndWrite | src/fs.rs:231-403 | mkdir `/a` gives inode 2; create `b.txt` gives inode 3; writing "hi" replies 2, and `getattr` then reports a file of size 2 in one block |
| Scenario.WritePastEnd | src/fs.rs:202-271 | writing "!!!" at offset 5 of a two-byte file replies 3 and makes the size 8, with bytes 2 to 4 reading as zeros and bytes 5 to 7 as the data |
| Scenario.RenameWithinDirectory | src/fs.rs:521-593 | renaming `b.txt` to `c.txt` succeeds; the old name then gives ENOENT and the new name gives the same inode |
| Scenario.RmdirAfterUnlink | src/fs.rs:405-473 | rmdir of a directory holding one file gives ENOTEMPTY with no change; after unlinking the file, rmdir succeeds |

## Left out

- PyO3 glue is not modelled. This covers the `Py<>` handles, `borrow`/`borrow_mut`, `PyBytes`, getters and setters, `__repr__` and module registration. Nodes are plain values, and path operations return inode numbers instead of Python objects.
- The `parking_lot::Mutex` and `Arc` sharing are not modelled. Each call is one atomic step.
- Mounting is not modelled. This covers `mount`, `PyMountHandle`, `spawn_mount2` and the `Reply*` objects. Replies are `Result` values with an errno.
- `statfs`, `release`, `releasedir`, `flush`, `fsync` and `fsyncdir` are not modelled. They only return constants.
- `SystemTime` and its conversion to FUSE timestamps are not modelled. Time is an integer parameter, and one `now` serves each call even though the source reads the clock several times per call.
- Integer widths are not modelled: inode numbers and sizes are unbounded. This leaves out overflow of the 64-bit counter and the truncating casts of `nlink` to 32 bits and of sizes to `u64`. The write offset is a `nat`. The source casts its `i64` offset to `usize` (src/fs.rs:250-261), so a negative offset wraps to a huge value and the write aborts: the sum `offset + data.len()` overflows or the resize and slice run out of range. The `nat` offset leaves this crash path out.
- The iteration order of a directory's `HashMap` is left unspecified. `readdir` takes it as an `order` parameter that enumerates the entries once each. `listdir` returns the key set instead of a vector.
- `Fuse.Readdir`: the kernel buffer filling up (`ReplyDirectory::add` returning true) is modelled as a `room` count of entries.
- Kernel names are modelled as either text or not UTF-8. A name that is not UTF-8 gives ENOENT in `lookup` and EINVAL elsewhere.
- The truncate error path in `setattr` is not modelled because it cannot happen. `PyFile::truncate` only fails when the Python object cannot be borrowed.
- The `PyResult` error path of `InodeTable::remove` is not modelled for the same reason. The path layer's `remove_file` and `remove_dir` therefore always succeed once their checks pass.
- The `Fuse.Mkdir` / `Fuse.Create` umask argument is ignored, as in the source.
- `Paths.Rename`: a successful rename is described by the entry under the resolved new parent and name (`PathProps.RenameMovesNode`), not by resolving the new path string afterwards. The moved node could lie on that path's own prefix.
- `PathProps.RenameMovesNode`: stated for a free destination name. The overwriting case is stated on the FUSE side (`FuseProps.RenameOverwrites`), and `PathProps.RenameAgreesWithFuse` shows that both layers leave the same table.
- `PathProps.RemoveDirPreservesValid`: stated only for paths with at least one component, because `remove_dir` on the root path can delete the root (`PathProps.RemoveDirOfRootRemovesRoot`).
- The tests under `tests/` need a FUSE mount and are not modelled. Their assertions informed the scenario lemmas.

=== FILE: bytes.dfy ===
/** Byte-buffer handling of a file's content: `PyFile::truncate` and the
    offset arithmetic of the FUSE `read` and `write` callbacks. */
module Bytes {
  import opened Common

  /** `PyFile::truncate`: keep a prefix when shrinking, pad with zero bytes when growing. */
  function Truncate(content: seq<byte>, size: nat): (r: seq<byte>)
    ensures |r| == size
    ensures forall i :: 0 <= i < size && i < |content| ==> r[i] == content[i]
    ensures forall i :: |content| <= i < size ==> r[i] == 0
  {
    if size <= |content| then content[..size] else content + Zeros(size - |content|)
  }

  /** The slice a FUSE `read` replies with. `offset` is the kernel's signed
      64-bit offset; the source casts it to `usize`, so a negative offset
      becomes a huge index past the end and the reply is empty. */
  function ReadSlice(content: seq<byte>, offset: int, size: nat): (r: seq<byte>)
    ensures |r| <= size
    ensures offset < 0 || offset >= |content| ==> r == []
    ensures 0 <= offset < |content| ==> |r| == Min(size, |content| - offset)
    ensures forall i :: 0 <= i < |r| ==> 0 <= offset && offset + i < |content| && r[i] == content[offset + i]
  {
    if offset < 0 || offset >= |content| then []
    else content[offset..Min(offset + size, |content|)]
  }

  /** The buffer a FUSE `write` of `data` at `offset` leaves behind: zero-extend
      to `offset + |data|` when that is past the end, then overwrite the range. */
  function WriteAt(content: seq<byte>, offset: nat, data: seq<byte>): (r: seq<byte>)
    ensures |r| == Max(|content|, offset + |data|)
    ensures forall i :: 0 <= i < |data| ==> r[offset + i] == data[i]
    ensures forall i :: 0 <= i < offset && i < |content| ==> r[i] == content[i]
    ensures forall i :: offset + |data| <= i < |content| ==> r[i] == content[i]
    ensures forall i :: |content| <= i < offset ==> r[i] == 0
  {
    var needed := offset + |data|;
    var extended := if needed > |content| then content + Zeros(needed - |content|) else content;
    extended[..offset] + data + extended[needed..]
  }

  /** Truncating to the current length changes nothing. */
  lemma TruncateToLengthIsIdentity(content: seq<byte>)
    ensures Truncate(content, |content|) == content
  {
    assert content[..|content|] == content;
  }

  /** Shrinking and then growing back gives the kept prefix followed by zeros. */
  lemma ShrinkThenGrow(content: seq<byte>, small: nat)
    requires small <= |content|
    ensures Truncate(Truncate(content, small), |content|) == content[..small] + Zeros(|content| - small)
  {
  }

  /** Reading back the range just written returns exactly the data written. */
  lemma ReadAfterWrite(content: seq<byte>, offset: nat, data: seq<byte>)
    ensures ReadSlice(WriteAt(content, offset, data), offset, |data|) == data
  {
    var w := WriteAt(content, offset, data);
    var r := ReadSlice(w, offset, |data|);
    if |data| > 0 {
      assert |r| == |data|;
      forall i | 0 <= i < |data| ensures r[i] == data[i] {
        assert r[i] == w[offset + i];
      }
    }
  }

  /** Writing into an empty file leaves the gap before `offset` as zeros:
      reading it returns `offset` zero bytes. */
  lemma GapReadsAsZeros(offset: nat, data: seq<byte>)
    requires |data| > 0
    ensures ReadSlice(WriteAt([], offset, data), 0, offset) == Zeros(offset)
  {
    var w := WriteAt([], offset, data);
    var r := ReadSlice(w, 0, offset);
    assert |r| == offset;
    forall i | 0 <= i < offset ensures r[i] == Zeros(offset)[i] {
      assert r[i] == w[i];
    }
  }
}

=== FILE: common.dfy ===
/** Shared vocabulary of the model: optional values, results, and the
    fixed-width integers of the Rust source written as subset types. */
module Common {

  /** Rust's `Option`. */
  datatype Option<+T> = None | Some(value: T)

  /** Rust's `Result`; also stands for a FUSE reply that is either data or an errno. */
  datatype Result<+T, +E> = Ok(value: T) | Err(error: E)

  /** One byte of file content. */
  newtype byte = b: int | 0 <= b < 0x100

  /** `u16`: the width of a stored permission mode. */
  type U16 = x: nat | x < 0x1_0000

  /** `u32`: the width of a mode as the kernel passes it, of uid/gid and of read sizes. */
  type U32 = x: nat | x < 0x1_0000_0000

  /** A run of `n` zero bytes, the fill of `Vec::resize(n, 0)`. */
  function Zeros(n: nat): (z: seq<byte>)
    ensures |z| == n
    ensures forall i :: 0 <= i < n ==> z[i] == 0
  {
    seq(n, _ => 0)
  }

  function Min(a: int, b: int): int { if a <= b then a else b }

  function Max(a: int, b: int): int { if a >= b then a else b }
}

=== FILE: fuse.dfy ===
/** The FUSE callbacks of `src/fs.rs` (`impl Filesystem for MemFs`). Each
    callback is one atomic step on the table: read-only callbacks return a
    reply, mutating ones return the reply together with the table after the
    step. A reply is either its payload or a POSIX errno. */
module Fuse {
  import opened Common
  import opened Tree
  import Bytes
  import Utf8

  /** The errnos the adapter replies with. */
  datatype Errno = ENOENT | EEXIST | EINVAL | EISDIR | ENOTDIR | ENOTEMPTY

  /** The Linux numeric value of each errno. */
  function Code(e: Errno): nat
  {
    match e
    case ENOENT => 2
    case EEXIST => 17
    case ENOTDIR => 20
    case EISDIR => 21
    case EINVAL => 22
    case ENOTEMPTY => 39
  }

  /** A name as the kernel passes it: either valid UTF-8 text or not. */
  datatype OsStr = Text(text: string) | NotUtf8

  /** A reply together with the table after the step. */
  datatype Step<+T> = Step(reply: Result<T, Errno>, table: Table)

  /** A timestamp argument of `setattr`: an explicit time or "now". */
  datatype TimeOrNow = SpecificTime(time: Time) | Now

  /** One `readdir` entry: inode, position to resume after it, kind, name. */
  datatype DirEntry = DirEntry(ino: Ino, offset: int, kind: FileKind, name: string)

  /** A listing row before positions are assigned. */
  datatype Row = Row(ino: Ino, kind: FileKind, name: string)

  /** `mode & 0o7777`: the permission and set-id bits of a kernel mode. */
  function MaskMode(mode: U32): (m: U16)
    ensures m < 0x1000
  {
    mode % 0x1000
  }

  /** Store a node at its number. */
  function Put(t: Table, ino: Ino, n: Node): Table
  {
    t.(inodes := t.inodes[ino := n])
  }

  // ---------------------------------------------------------------------------
  // Attribute callbacks

  /** `lookup`: the attributes of the entry `name` of `parent`; ENOENT when the
      name is not text, the entry is absent, or it names a vanished inode. */
  function Lookup(t: Table, parent: Ino, name: OsStr): (r: Result<FileAttr, Errno>)
    ensures r.Err? ==> r.error == ENOENT
    ensures r.Ok? <==>
      name.Text? && Tree.Lookup(t, parent, name.text).Some? && Tree.Lookup(t, parent, name.text).value in t.inodes
    ensures r.Ok? ==> Tree.GetAttr(t, Tree.Lookup(t, parent, name.text).value) == Some(r.value)
  {
    match name
    case NotUtf8 => Err(ENOENT)
    case Text(n) =>
      match Tree.Lookup(t, parent, n)
      case None => Err(ENOENT)
      case Some(ino) =>
        match Tree.GetAttr(t, ino)
        case Some(a) => Ok(a)
        case None => Err(ENOENT)
  }

  /** `getattr`: ENOENT for an absent inode. */
  function GetAttr(t: Table, ino: Ino): (r: Result<FileAttr, Errno>)
    ensures r.Ok? <==> ino in t.inodes
    ensures r.Err? ==> r.error == ENOENT
    ensures r.Ok? ==> Tree.GetAttr(t, ino) == Some(r.value) && r.value.ino == ino
  {
    match Tree.GetAttr(t, ino)
    case Some(a) => Ok(a)
    case None => Err(ENOENT)
  }

  function ResolveTime(x: TimeOrNow, now: Time): Time
  {
    match x
    case SpecificTime(time) => time
    case Now => now
  }

  /** The mode change of `setattr`: files and directories store the masked
      mode; symlinks have no adjustable mode and are left alone. */
  function WithMode(n: Node, mode: U16): Node
  {
    match n
    case FileNode(name, content, _, ino, parent, times) => FileNode(name, content, mode, ino, parent, times)
    case DirNode(name, _, ino, parent, children, times) => DirNode(name, mode, ino, parent, children, times)
    case SymlinkNode(_, _, _, _, _) => n
  }

  /** The utimens part of `setattr`: explicit or "now" access and modification
      times, and ctime bumped to now. */
  function Touch(n: Node, atime: Option<TimeOrNow>, mtime: Option<TimeOrNow>, now: Time): Node
  {
    var a := if atime.Some? then ResolveTime(atime.value, now) else n.times.atime;
    var m := if mtime.Some? then ResolveTime(mtime.value, now) else n.times.mtime;
    n.(times := Times(a, m, now))
  }

  /** `setattr`, in the source's order: truncate (files only), then change the
      mode (files and directories), then set the times; reply with the
      resulting attributes. An absent inode gets ENOENT and nothing changes.
      Because truncation runs first, an explicit mtime overrides the mtime the
      truncation stamped. */
  function SetAttr(t: Table, ino: Ino, mode: Option<U32>, size: Option<nat>,
                   atime: Option<TimeOrNow>, mtime: Option<TimeOrNow>, now: Time): (r: Step<FileAttr>)
    ensures ino !in t.inodes ==> r == Step(Err(ENOENT), t)
    ensures ino in t.inodes ==>
      var n := t.inodes[ino];
      var t' := r.table;
      var truncated := size.Some? && n.FileNode?;
      var touched := atime.Some? || mtime.Some?;
      && r.reply.Ok? && Tree.GetAttr(t', ino) == Some(r.reply.value)
      && t'.inodes.Keys == t.inodes.Keys && t'.nextIno == t.nextIno && t'.uid == t.uid && t'.gid == t.gid
      && (forall j :: j in t.inodes && j != ino ==> t'.inodes[j] == t.inodes[j])
      && var n' := t'.inodes[ino];
      && Kind(n') == Kind(n) && n'.ino == n.ino && n'.name == n.name && n'.parentIno == n.parentIno
      && (n.DirNode? ==> n'.children == n.children)
      && (n.SymlinkNode? ==> n'.target == n.target)
      && (n.FileNode? && size.Some? ==> n'.content == Bytes.Truncate(n.content, size.value))
      && (n.FileNode? && size.None? ==> n'.content == n.content)
      && (!n.SymlinkNode? && mode.Some? ==> n'.mode == mode.value % 0x1000)
      && (!n.SymlinkNode? && mode.None? ==> n'.mode == n.mode)
      && n'.times.atime == (if atime.Some? then ResolveTime(atime.value, now) else n.times.atime)
      && n'.times.mtime == (if mtime.Some? then ResolveTime(mtime.value, now)
                            else if truncated then now else n.times.mtime)
      && n'.times.ctime == (if touched || truncated then now else n.times.ctime)
  {
    var t1 := if size.Some? && GetFile(t, ino).Some? then Put(t, ino, FileTruncate(t.inodes[ino], size.value, now)) else t;
    if mode.Some? && ino !in t1.inodes then Step(Err(ENOENT), t1)
    else
      var t2 := if mode.Some? then Put(t1, ino, WithMode(t1.inodes[ino], MaskMode(mode.value))) else t1;
      if (atime.Some? || mtime.Some?) && ino !in t2.inodes then Step(Err(ENOENT), t2)
      else
        var t3 := if atime.Some? || mtime.Some? then Put(t2, ino, Touch(t2.inodes[ino], atime, mtime, now)) else t2;
        match Tree.GetAttr(t3, ino)
        case Some(a) => Step(Ok(a), t3)
        case None => Step(Err(ENOENT), t3)
  }

  // ---------------------------------------------------------------------------
  // Data callbacks

  /** `read`: ENOENT unless the inode is a file; otherwise at most `size` bytes
      from `offset`, cut at the end of the content, and nothing at all when
      the offset is at or past the end. */
  function Read(t: Table, ino: Ino, offset: int, size: U32): (r: Result<seq<byte>, Errno>)
    ensures GetFile(t, ino).None? ==> r == Err(ENOENT)
    ensures GetFile(t, ino).Some? ==>
      var content := t.inodes[ino].content;
      && r.Ok? && |r.value| <= size
      && (offset < 0 || offset >= |content| ==> r.value == [])
      && (0 <= offset < |content| ==> |r.value| == Min(size, |content| - offset))
      && (forall i :: 0 <= i < |r.value| ==> offset + i < |content| && r.value[i] == content[offset + i])
  {
    match GetFile(t, ino)
    case None => Err(ENOENT)
    case Some(f) => Ok(Bytes.ReadSlice(f.content, offset, size))
  }

  /** `write`: ENOENT (and no change) unless the inode is a file; otherwise the
      content is zero-extended to `offset + |data|` when shorter, the range is
      overwritten with `data`, mtime and ctime become now, and the reply is
      the number of bytes written. */
  function Write(t: Table, ino: Ino, offset: nat, data: seq<byte>, now: Time): (r: Step<nat>)
    ensures GetFile(t, ino).None? ==> r == Step(Err(ENOENT), t)
    ensures GetFile(t, ino).Some? ==>
      var old_ := t.inodes[ino].content;
      var t' := r.table;
      && r.reply == Ok(|data|)
      && t'.inodes.Keys == t.inodes.Keys && t'.nextIno == t.nextIno && t'.uid == t.uid && t'.gid == t.gid
      && (forall j :: j in t.inodes && j != ino ==> t'.inodes[j] == t.inodes[j])
      && var f := t'.inodes[ino];
      && f.FileNode? && f.name == t.inodes[ino].name && f.parentIno == t.inodes[ino].parentIno
      && f.ino == t.inodes[ino].ino && f.mode == t.inodes[ino].mode
      && f.times == Times(t.inodes[ino].times.atime, now, now)
      && |f.content| == Max(|old_|, offset + |data|)
      && (forall i :: 0 <= i < |data| ==> f.content[offset + i] == data[i])
      && (forall i :: 0 <= i < offset && i < |old_| ==> f.content[i] == old_[i])
      && (forall i :: offset + |data| <= i < |old_| ==> f.content[i] == old_[i])
      && (forall i :: |old_| <= i < offset ==> f.content[i] == 0)
  {
    match GetFile(t, ino)
    case None => Step(Err(ENOENT), t)
    case Some(f) =>
      var f' := FileWrite(f, Bytes.WriteAt(f.content, offset, data), now);
      Step(Ok(|data|), Put(t, ino, f'))
  }

  // ---------------------------------------------------------------------------
  // Directory listing

  /** `order` lists every key of `children` exactly once: the iteration order
      of the source's hash map, which the model takes as given. */
  ghost predicate Enumerates(order: seq<string>, children: map<string, Ino>)
  {
    && (forall n :: n in order <==> n in children)
    && Distinct(order)
  }

  /** No name occurs twice. */
  predicate Distinct(order: seq<string>)
  {
    forall i, j :: 0 <= i < j < |order| ==> order[i] != order[j]
  }

  /** The first position of `n` in `order`. */
  function IndexOf(order: seq<string>, n: string): (k: nat)
    requires n in order
    ensures k < |order| && order[k] == n
    ensures forall i :: 0 <= i < k ==> order[i] != n
  {
    if order[0] == n then 0 else 1 + IndexOf(order[1..], n)
  }

  /** Past the first name of a distinct order, every name sits one position
      further on than in the tail. */
  lemma TailIndices(order: seq<string>)
    requires |order| > 0
    ensures Distinct(order) ==> Distinct(order[1..])
    ensures Distinct(order) ==>
      forall m :: m in order[1..] ==> m != order[0] && IndexOf(order, m) == 1 + IndexOf(order[1..], m)
  {
    if Distinct(order) {
      forall m | m in order[1..]
        ensures m != order[0] && IndexOf(order, m) == 1 + IndexOf(order[1..], m)
      {
        var k := IndexOf(order[1..], m);
        assert order[k + 1] == m;
      }
    }
  }

  /** The names a sequence of rows carries. */
  function RowNames(rows: seq<Row>): set<string>
  {
    if |rows| == 0 then {} else {rows[0].name} + RowNames(rows[1..])
  }

  /** The rows for the entries of a directory, in iteration order, skipping
      entries whose inode is no longer live. */
  function ChildRows(t: Table, children: map<string, Ino>, order: seq<string>): (rows: seq<Row>)
    ensures |rows| <= |order|
    ensures forall j :: 0 <= j < |rows| ==>
      && rows[j].name in children && rows[j].ino == children[rows[j].name]
      && rows[j].ino in t.inodes && rows[j].kind == Kind(t.inodes[rows[j].ino])
    ensures RowNames(rows) == (set n | n in order && n in children && children[n] in t.inodes)
    ensures (forall k :: 0 <= k < |order| ==> order[k] in children && children[order[k]] in t.inodes) ==>
      |rows| == |order|
    ensures Distinct(order) ==> Follows(rows, order)
  {
    if |order| == 0 then []
    else
      var rest := ChildRows(t, children, order[1..]);
      var n := order[0];
      assert forall m :: m in order <==> m == n || m in order[1..];
      TailIndices(order);
      if n in children && children[n] in t.inodes
      then
        var rows := [Row(children[n], Kind(t.inodes[children[n]]), n)] + rest;
        assert rows[1..] == rest;
        assert Distinct(order) ==> Follows(rows, order) by {
          if Distinct(order) { FollowsCons(rest, order, true, rows[0]); }
        }
        rows
      else
        assert Distinct(order) ==> Follows(rest, order) by {
          if Distinct(order) { FollowsCons(rest, order, false, Row(0, File, n)); }
        }
        rest
  }

  /** The rows' names all come from `order`, at strictly increasing first
      positions: each name once, in iteration order. */
  ghost predicate Follows(rows: seq<Row>, order: seq<string>)
  {
    && (forall j :: 0 <= j < |rows| ==> rows[j].name in order)
    && (forall i, j :: 0 <= i < j < |rows| ==> IndexOf(order, rows[i].name) < IndexOf(order, rows[j].name))
  }

  /** Rows following the tail of a distinct order still follow the whole
      order, with or without a row for its first name in front. */
  lemma FollowsCons(rest: seq<Row>, order: seq<string>, keep: bool, row: Row)
    requires |order| > 0 && Distinct(order) && Follows(rest, order[1..]) && row.name == order[0]
    ensures Follows(if keep then [row] + rest else rest, order)
  {
    TailIndices(order);
    var rows := if keep then [row] + rest else rest;
    forall i, j | 0 <= i < j < |rows|
      ensures IndexOf(order, rows[i].name) < IndexOf(order, rows[j].name)
    {
      if keep && i == 0 {
        assert rows[j] == rest[j - 1];
      } else if keep {
        assert rows[i] == rest[i - 1] && rows[j] == rest[j - 1];
      }
    }
  }

  /** The whole listing of a directory: itself as `.`, its parent as `..`,
      then its live entries. */
  function Listing(t: Table, ino: Ino, order: seq<string>): (rows: seq<Row>)
    requires IsDir(t, ino)
    ensures |rows| >= 2
    ensures rows[0] == Row(ino, Directory, ".")
    ensures rows[1] == Row(t.inodes[ino].parentIno, Directory, "..")
  {
    [Row(ino, Directory, "."), Row(t.inodes[ino].parentIno, Directory, "..")]
      + ChildRows(t, t.inodes[ino].children, order)
  }

  /** The rows from `offset` on, at most `room` of them, each tagged with its
      1-based position in the whole listing. */
  function Page(rows: seq<Row>, offset: nat, room: nat): (page: seq<DirEntry>)
    ensures |page| == if offset >= |rows| then 0 else Min(room, |rows| - offset)
    ensures forall j :: 0 <= j < |page| ==>
      offset + j < |rows|
      && page[j] == DirEntry(rows[offset + j].ino, offset + j + 1, rows[offset + j].kind, rows[offset + j].name)
  {
    var count := if offset >= |rows| then 0 else Min(room, |rows| - offset);
    seq(count, j requires 0 <= j < count =>
      DirEntry(rows[offset + j].ino, offset + j + 1, rows[offset + j].kind, rows[offset + j].name))
  }

  /** `readdir`: ENOTDIR unless the inode is a directory; otherwise the
      listing from position `offset` on. `room` is how many entries the
      kernel's reply buffer takes before `ReplyDirectory::add` reports it
      full. A negative offset, cast to `usize` in the source, skips every row. */
  function Readdir(t: Table, ino: Ino, offset: int, order: seq<string>, room: nat): (r: Result<seq<DirEntry>, Errno>)
    requires IsDir(t, ino) ==> Enumerates(order, t.inodes[ino].children)
    ensures !IsDir(t, ino) ==> r == Err(ENOTDIR)
    ensures IsDir(t, ino) ==> r.Ok? && |r.value| <= room
    ensures IsDir(t, ino) && offset < 0 ==> r == Ok([])
    ensures IsDir(t, ino) && offset >= 0 ==>
      var rows := Listing(t, ino, order);
      && |r.value| == (if offset >= |rows| then 0 else Min(room, |rows| - offset))
      && forall j :: 0 <= j < |r.value| ==>
           r.value[j].offset == offset + j + 1
           && Row(r.value[j].ino, r.value[j].kind, r.value[j].name) == rows[offset + j]
  {
    if !IsDir(t, ino) then Err(ENOTDIR)
    else if offset < 0 then Ok([])
    else Ok(Page(Listing(t, ino, order), offset, room))
  }

  // ---------------------------------------------------------------------------
  // Creation callbacks

  /** Insert a freshly built node and reply with its attributes. */
  function InsertAndStat(t: Table, parent: Ino, node: Node, now: Time): (r: Step<FileAttr>)
    ensures var (ino, t') := Insert(t, parent, node, now);
      r.table == t' && r.reply.Ok? && Tree.GetAttr(t', ino) == Some(r.reply.value)
  {
    var (ino, t') := Insert(t, parent, node, now);
    match Tree.GetAttr(t', ino)
    case Some(a) => Step(Ok(a), t')
    case None => Step(Err(ENOENT), t')
  }

  /** `create`: EINVAL for a non-text name, EEXIST when the name is already
      an entry of `parent` (no change in either case); otherwise a new empty
      file with the low twelve bits of `mode`, under the next inode number. */
  function Create(t: Table, parent: Ino, name: OsStr, mode: U32, now: Time): (r: Step<FileAttr>)
    ensures name.NotUtf8? ==> r == Step(Err(EINVAL), t)
    ensures name.Text? && Tree.Lookup(t, parent, name.text).Some? ==> r == Step(Err(EEXIST), t)
    ensures name.Text? && Tree.Lookup(t, parent, name.text).None? ==>
      var t' := r.table;
      && r.reply.Ok? && r.reply.value.ino == t.nextIno
      && r.reply.value.kind == File && r.reply.value.size == 0
      && r.reply.value.perm == mode % 0x1000 && r.reply.value.nlink == 1
      && t.nextIno in t'.inodes && t'.inodes[t.nextIno] == FileNode(name.text, [], mode % 0x1000, t.nextIno, parent, Times(now, now, now))
      && t' == Insert(t, parent, NewFile(name.text, [], MaskMode(mode), now), now).1
      && (IsDir(t, parent) && parent != t.nextIno ==> Tree.Lookup(t', parent, name.text) == Some(t.nextIno))
  {
    match name
    case NotUtf8 => Step(Err(EINVAL), t)
    case Text(n) =>
      if Tree.Lookup(t, parent, n).Some? then Step(Err(EEXIST), t)
      else InsertAndStat(t, parent, NewFile(n, [], MaskMode(mode), now), now)
  }

  /** `mkdir`: like `create`, for an empty directory. */
  function Mkdir(t: Table, parent: Ino, name: OsStr, mode: U32, now: Time): (r: Step<FileAttr>)
    ensures name.NotUtf8? ==> r == Step(Err(EINVAL), t)
    ensures name.Text? && Tree.Lookup(t, parent, name.text).Some? ==> r == Step(Err(EEXIST), t)
    ensures name.Text? && Tree.Lookup(t, parent, name.text).None? ==>
      var t' := r.table;
      && r.reply.Ok? && r.reply.value.ino == t.nextIno
      && r.reply.value.kind == Directory && r.reply.value.nlink == 2
      && r.reply.value.perm == mode % 0x1000
      && t.nextIno in t'.inodes && t'.inodes[t.nextIno] == DirNode(name.text, mode % 0x1000, t.nextIno, parent, map[], Times(now, now, now))
      && t' == Insert(t, parent, NewDir(name.text, MaskMode(mode), now), now).1
      && (IsDir(t, parent) && parent != t.nextIno ==> Tree.Lookup(t', parent, name.text) == Some(t.nextIno))
  {
    match name
    case NotUtf8 => Step(Err(EINVAL), t)
    case Text(n) =>
      if Tree.Lookup(t, parent, n).Some? then Step(Err(EEXIST), t)
      else InsertAndStat(t, parent, NewDir(n, MaskMode(mode), now), now)
  }

  /** `symlink`: EINVAL for a non-text name or target, EEXIST when the name
      is taken; otherwise a new symlink whose target is stored verbatim. */
  function Symlink(t: Table, parent: Ino, name: OsStr, link: OsStr, now: Time): (r: Step<FileAttr>)
    ensures name.NotUtf8? || link.NotUtf8? ==> r == Step(Err(EINVAL), t)
    ensures name.Text? && link.Text? && Tree.Lookup(t, parent, name.text).Some? ==> r == Step(Err(EEXIST), t)
    ensures name.Text? && link.Text? && Tree.Lookup(t, parent, name.text).None? ==>
      var t' := r.table;
      && r.reply.Ok? && r.reply.value.ino == t.nextIno
      && r.reply.value.kind == FileKind.Symlink && r.reply.value.perm == SYMLINK_PERM
      && r.reply.value.size == |Utf8.Encode(link.text)|
      && t.nextIno in t'.inodes && t'.inodes[t.nextIno] == SymlinkNode(name.text, link.text, t.nextIno, parent, Times(now, now, now))
      && t' == Insert(t, parent, NewSymlink(name.text, link.text, now), now).1
      && (IsDir(t, parent) && parent != t.nextIno ==> Tree.Lookup(t', parent, name.text) == Some(t.nextIno))
  {
    match (name, link)
    case (NotUtf8, _) => Step(Err(EINVAL), t)
    case (_, NotUtf8) => Step(Err(EINVAL), t)
    case (Text(n), Text(target)) =>
      if Tree.Lookup(t, parent, n).Some? then Step(Err(EEXIST), t)
      else InsertAndStat(t, parent, NewSymlink(n, target, now), now)
  }

  // ---------------------------------------------------------------------------
  // Removal callbacks

  /** `unlink`: EINVAL for a non-text name; ENOENT when the entry is absent or
      names a vanished inode; EISDIR for a directory; otherwise the file or
      symlink is removed. Errors change nothing. */
  function Unlink(t: Table, parent: Ino, name: OsStr, now: Time): (r: Step<()>)
    ensures name.NotUtf8? ==> r == Step(Err(EINVAL), t)
    ensures name.Text? && Tree.Lookup(t, parent, name.text).None? ==> r == Step(Err(ENOENT), t)
    ensures name.Text? && Tree.Lookup(t, parent, name.text).Some? ==>
      var ino := Tree.Lookup(t, parent, name.text).value;
      && (ino !in t.inodes ==> r == Step(Err(ENOENT), t))
      && (ino in t.inodes && t.inodes[ino].DirNode? ==> r == Step(Err(EISDIR), t))
      && (ino in t.inodes && !t.inodes[ino].DirNode? ==>
            r == Step(Ok(()), Remove(t, ino, now).1) && ino !in r.table.inodes)
  {
    match name
    case NotUtf8 => Step(Err(EINVAL), t)
    case Text(n) =>
      match Tree.Lookup(t, parent, n)
      case None => Step(Err(ENOENT), t)
      case Some(ino) =>
        if Get(t, ino).Some? && Get(t, ino).value.DirNode? then Step(Err(EISDIR), t)
        else
          var (removed, t') := Remove(t, ino, now);
          if removed.Some? then Step(Ok(()), t') else Step(Err(ENOENT), t')
  }

  /** `rmdir`: EINVAL for a non-text name; ENOENT when absent or vanished;
      ENOTDIR for a file or symlink; ENOTEMPTY for a directory with entries;
      otherwise the empty directory is removed. Errors change nothing. */
  function Rmdir(t: Table, parent: Ino, name: OsStr, now: Time): (r: Step<()>)
    ensures name.NotUtf8? ==> r == Step(Err(EINVAL), t)
    ensures name.Text? && Tree.Lookup(t, parent, name.text).None? ==> r == Step(Err(ENOENT), t)
    ensures name.Text? && Tree.Lookup(t, parent, name.text).Some? ==>
      var ino := Tree.Lookup(t, parent, name.text).value;
      && (ino !in t.inodes ==> r == Step(Err(ENOENT), t))
      && (ino in t.inodes && !t.inodes[ino].DirNode? ==> r == Step(Err(ENOTDIR), t))
      && (ino in t.inodes && t.inodes[ino].DirNode? && t.inodes[ino].children != map[] ==>
            r == Step(Err(ENOTEMPTY), t))
      && (ino in t.inodes && t.inodes[ino].DirNode? && t.inodes[ino].children == map[] ==>
            r == Step(Ok(()), Remove(t, ino, now).1) && ino !in r.table.inodes)
  {
    match name
    case NotUtf8 => Step(Err(EINVAL), t)
    case Text(n) =>
      match Tree.Lookup(t, parent, n)
      case None => Step(Err(ENOENT), t)
      case Some(ino) =>
        match Get(t, ino)
        case None => Step(Err(ENOENT), t)
        case Some(node) =>
          if !node.DirNode? then Step(Err(ENOTDIR), t)
          else if node.children != map[] then Step(Err(ENOTEMPTY), t)
          else
            var (removed, t') := Remove(t, ino, now);
            if removed.Some? then Step(Ok(()), t') else Step(Err(ENOENT), t')
  }

  // ---------------------------------------------------------------------------
  // Open, rename, links, access

  /** `open`: succeeds exactly for files; there is no handle state. */
  function Open(t: Table, ino: Ino): (r: Result<(), Errno>)
    ensures r.Ok? <==> ino in t.inodes && t.inodes[ino].FileNode?
    ensures r.Err? ==> r.error == ENOENT
  {
    if GetFile(t, ino).Some? then Ok(()) else Err(ENOENT)
  }

  /** `opendir`: succeeds exactly for directories. */
  function OpenDir(t: Table, ino: Ino): (r: Result<(), Errno>)
    ensures r.Ok? <==> IsDir(t, ino)
    ensures r.Err? ==> r.error == ENOENT
  {
    if GetDir(t, ino).Some? then Ok(()) else Err(ENOENT)
  }

  /** `rename`: EINVAL for a non-text name; ENOENT when the source entry is
      absent. When the destination name is taken: EISDIR when only the
      destination is a directory, ENOTDIR when only the source is, ENOTEMPTY
      when the destination is a directory with entries; these errors change
      nothing. Otherwise the destination is removed first and the entry is
      then moved; if the move fails (the source entry vanished with the
      removal, as when source and destination are the same entry) the reply
      is EINVAL and the removal stays. */
  function Rename(t: Table, parent: Ino, name: OsStr, newParent: Ino, newName: OsStr, now: Time): (r: Step<()>)
    ensures name.NotUtf8? || newName.NotUtf8? ==> r == Step(Err(EINVAL), t)
    ensures name.Text? && newName.Text? ==>
      var src := Tree.Lookup(t, parent, name.text);
      var dst := Tree.Lookup(t, newParent, newName.text);
      && (src.None? ==> r == Step(Err(ENOENT), t))
      && (src.Some? && dst.Some? && IsDir(t, src.value) != IsDir(t, dst.value) ==>
            r == Step(Err(if IsDir(t, dst.value) then EISDIR else ENOTDIR), t))
      && (src.Some? && dst.Some? && IsDir(t, src.value) && IsDir(t, dst.value)
            && t.inodes[dst.value].children != map[] ==>
            r == Step(Err(ENOTEMPTY), t))
      && (src.Some? && dst.None? ==>
            var mv := Tree.Rename(t, parent, name.text, newParent, newName.text, now);
            r == Step(if mv.0.Ok? then Ok(()) else Err(EINVAL), mv.1))
      && (src.Some? && dst.Some? && IsDir(t, src.value) == IsDir(t, dst.value)
            && !(IsDir(t, dst.value) && t.inodes[dst.value].children != map[]) ==>
            var t1 := Remove(t, dst.value, now).1;
            var mv := Tree.Rename(t1, parent, name.text, newParent, newName.text, now);
            r == Step(if mv.0.Ok? then Ok(()) else Err(EINVAL), mv.1))
  {
    match (name, newName)
    case (NotUtf8, _) => Step(Err(EINVAL), t)
    case (_, NotUtf8) => Step(Err(EINVAL), t)
    case (Text(n), Text(nn)) =>
      match Tree.Lookup(t, parent, n)
      case None => Step(Err(ENOENT), t)
      case Some(ino) =>
        match Tree.Lookup(t, newParent, nn)
        case Some(existing) =>
          var srcIsDir := IsDir(t, ino);
          var dstIsDir := IsDir(t, existing);
          if srcIsDir != dstIsDir then Step(Err(if dstIsDir then EISDIR else ENOTDIR), t)
          else if dstIsDir && t.inodes[existing].children != map[] then Step(Err(ENOTEMPTY), t)
          else
            var t1 := Remove(t, existing, now).1;
            Move(t1, parent, n, newParent, nn, now)
        case None => Move(t, parent, n, newParent, nn, now)
  }

  /** The final move of `rename`; a table error becomes EINVAL. */
  function Move(t: Table, parent: Ino, name: string, newParent: Ino, newName: string, now: Time): Step<()>
  {
    var (res, t') := Tree.Rename(t, parent, name, newParent, newName, now);
    if res.Ok? then Step(Ok(()), t') else Step(Err(EINVAL), t')
  }

  /** `readlink`: the target's UTF-8 bytes, or ENOENT unless a symlink. */
  function Readlink(t: Table, ino: Ino): (r: Result<seq<byte>, Errno>)
    ensures r.Err? ==> r.error == ENOENT
    ensures r.Ok? <==> ino in t.inodes && t.inodes[ino].SymlinkNode?
    ensures r.Ok? ==> r.value == Utf8.Encode(t.inodes[ino].target)
  {
    match GetSymlink(t, ino)
    case Some(s) => Ok(Utf8.Encode(s.target))
    case None => Err(ENOENT)
  }

  /** `access`: succeeds exactly when the inode exists; no permission bits
      are checked. */
  function Access(t: Table, ino: Ino): (r: Result<(), Errno>)
    ensures r.Ok? <==> ino in t.inodes
    ensures r.Err? ==> r.error == ENOENT
  {
    if Tree.GetAttr(t, ino).Some? then Ok(()) else Err(ENOENT)
  }
}

=== FILE: fuse_props.dfy ===
/** Properties of the FUSE callbacks: which of them keep the table valid and
    under what preconditions, what rename does when it overwrites or when it
    is asked to move an entry onto itself, how readdir pages fit together, and
    the agreement between a symlink's reported size and its readlink reply. */
module FuseProps {
  import opened Common
  import opened Tree
  import opened Invariants
  import opened Fuse

  // ---------------------------------------------------------------------------
  // Creation

  /** `create` under a live directory keeps the table valid. */
  lemma CreatePreservesValid(t: Table, parent: Ino, name: OsStr, mode: U32, now: Time)
    requires Valid(t) && IsDir(t, parent)
    ensures Valid(Create(t, parent, name, mode, now).table)
  {
    if name.Text? && Tree.Lookup(t, parent, name.text).None? {
      InsertPreservesValid(t, parent, NewFile(name.text, [], MaskMode(mode), now), now);
    }
  }

  /** `mkdir` under a live directory keeps the table valid. */
  lemma MkdirPreservesValid(t: Table, parent: Ino, name: OsStr, mode: U32, now: Time)
    requires Valid(t) && IsDir(t, parent)
    ensures Valid(Mkdir(t, parent, name, mode, now).table)
  {
    if name.Text? && Tree.Lookup(t, parent, name.text).None? {
      InsertPreservesValid(t, parent, NewDir(name.text, MaskMode(mode), now), now);
    }
  }

  /** `symlink` under a live directory keeps the table valid. */
  lemma SymlinkPreservesValid(t: Table, parent: Ino, name: OsStr, link: OsStr, now: Time)
    requires Valid(t) && IsDir(t, parent)
    ensures Valid(Fuse.Symlink(t, parent, name, link, now).table)
  {
    if name.Text? && link.Text? && Tree.Lookup(t, parent, name.text).None? {
      InsertPreservesValid(t, parent, NewSymlink(name.text, link.text, now), now);
    }
  }

  /** The adapter does not check that `parent` is a directory either: `create`
      under a file, a symlink or a missing inode succeeds and leaves a node
      that no directory lists. */
  lemma CreateUnderNonDirectoryOrphans(t: Table, parent: Ino, name: string, mode: U32, now: Time)
    requires Wf(t) && !IsDir(t, parent)
    ensures var r := Create(t, parent, Text(name), mode, now);
      r.reply.Ok? && r.reply.value.ino == t.nextIno && !Wf(r.table)
  {
    InsertUnderNonDirOrphans(t, parent, NewFile(name, [], MaskMode(mode), now), now);
  }

  // ---------------------------------------------------------------------------
  // Removal

  /** Every directory entry of a well-formed table names a live non-root node. */
  lemma EntryIsLiveChild(t: Table, parent: Ino, name: string)
    requires Wf(t) && Tree.Lookup(t, parent, name).Some?
    ensures var c := Tree.Lookup(t, parent, name).value;
      c in t.inodes && c != ROOT_INO && t.inodes[c].parentIno == parent && t.inodes[c].name == name
  {
    assert ChildOk(t, parent, name);
  }

  /** `unlink` keeps the table valid, whatever its arguments. */
  lemma UnlinkPreservesValid(t: Table, parent: Ino, name: OsStr, now: Time)
    requires Valid(t)
    ensures Valid(Unlink(t, parent, name, now).table)
  {
    if name.Text? && Tree.Lookup(t, parent, name.text).Some? {
      EntryIsLiveChild(t, parent, name.text);
      var ino := Tree.Lookup(t, parent, name.text).value;
      if !t.inodes[ino].DirNode? {
        RemovePreservesValid(t, ino, now);
      }
    }
  }

  /** `rmdir` keeps the table valid, whatever its arguments. */
  lemma RmdirPreservesValid(t: Table, parent: Ino, name: OsStr, now: Time)
    requires Valid(t)
    ensures Valid(Rmdir(t, parent, name, now).table)
  {
    if name.Text? && Tree.Lookup(t, parent, name.text).Some? {
      EntryIsLiveChild(t, parent, name.text);
      var ino := Tree.Lookup(t, parent, name.text).value;
      if t.inodes[ino].DirNode? && t.inodes[ino].children == map[] {
        RemovePreservesValid(t, ino, now);
      }
    }
  }

  // ---------------------------------------------------------------------------
  // Steps that change one node in place

  /** A step that rewrites one node without touching its kind, number, name,
      parent or entries keeps the table valid. */
  lemma OneNodeRewritten(t: Table, t': Table, i: Ino)
    requires Valid(t) && i in t.inodes
    requires t'.inodes.Keys == t.inodes.Keys && t'.nextIno == t.nextIno && t'.uid == t.uid && t'.gid == t.gid
    requires forall j :: j in t.inodes && j != i ==> t'.inodes[j] == t.inodes[j]
    requires Kind(t'.inodes[i]) == Kind(t.inodes[i]) && t'.inodes[i].ino == t.inodes[i].ino
    requires t'.inodes[i].name == t.inodes[i].name && t'.inodes[i].parentIno == t.inodes[i].parentIno
    requires t'.inodes[i].DirNode? ==> t'.inodes[i].children == t.inodes[i].children
    ensures Valid(t')
  {
    UpdateOne(t.inodes, t'.inodes, i);
    assert t' == t.(inodes := t.inodes[i := t'.inodes[i]]);
    ReplaceNodePreservesValid(t, i, t'.inodes[i]);
  }

  /** A map with the same keys that differs at most at `i` is an update at `i`. */
  lemma UpdateOne(m: map<Ino, Node>, m': map<Ino, Node>, i: Ino)
    requires i in m && m'.Keys == m.Keys
    requires forall j :: j in m && j != i ==> m'[j] == m[j]
    ensures m' == m[i := m'[i]]
  {
  }

  /** `write` keeps the table valid. */
  lemma WritePreservesValid(t: Table, ino: Ino, offset: nat, data: seq<byte>, now: Time)
    requires Valid(t)
    ensures Valid(Write(t, ino, offset, data, now).table)
  {
    if GetFile(t, ino).Some? {
      OneNodeRewritten(t, Write(t, ino, offset, data, now).table, ino);
    }
  }

  /** A later `PyFile::write` replaces an earlier one entirely: only the last
      content and the last stamp survive. */
  lemma FileWriteLastWins(f: Node, a: seq<byte>, b: seq<byte>, now1: Time, now2: Time)
    requires f.FileNode?
    ensures FileWrite(FileWrite(f, a, now1), b, now2) == FileWrite(f, b, now2)
  {
  }

  /** A FUSE `write` at offset 0 whose data covers the whole content stores
      exactly what `PyFile::write` of that data stores. */
  lemma WriteCoveringIsFileWrite(t: Table, ino: Ino, data: seq<byte>, now: Time)
    requires GetFile(t, ino).Some? && |data| >= |t.inodes[ino].content|
    ensures Write(t, ino, 0, data, now).table.inodes[ino] == FileWrite(t.inodes[ino], data, now)
  {
  }

  /** `setattr` keeps the table valid. */
  lemma SetAttrPreservesValid(t: Table, ino: Ino, mode: Option<U32>, size: Option<nat>,
                              atime: Option<TimeOrNow>, mtime: Option<TimeOrNow>, now: Time)
    requires Valid(t)
    ensures Valid(SetAttr(t, ino, mode, size, atime, mtime, now).table)
  {
    if ino in t.inodes {
      OneNodeRewritten(t, SetAttr(t, ino, mode, size, atime, mtime, now).table, ino);
    }
  }

  // ---------------------------------------------------------------------------
  // Rename

  /** Ancestry in a table with fewer nodes and the same parents is ancestry
      in the larger table. */
  lemma {:induction false} UnderInSmaller(t: Table, t1: Table, rank: map<Ino, nat>, y: Ino, a: Ino)
    requires Ranked(t, rank) && Ranked(t1, rank)
    requires forall i :: i in t1.inodes ==> i in t.inodes && t1.inodes[i].parentIno == t.inodes[i].parentIno
    requires Under(t1, rank, y, a)
    ensures Under(t, rank, y, a)
    decreases if y in rank then rank[y] else 0
  {
    if y != a {
      UnderInSmaller(t, t1, rank, t1.inodes[y].parentIno, a);
    }
  }

  /** The destination can be overwritten: the entry exists and, when both
      sides are directories, the destination has no entries. */
  ghost predicate Overwritable(t: Table, parent: Ino, name: string, newParent: Ino, newName: string)
  {
    && Tree.Lookup(t, parent, name).Some?
    && Tree.Lookup(t, newParent, newName).Some?
    && var src := Tree.Lookup(t, parent, name).value;
    && var dst := Tree.Lookup(t, newParent, newName).value;
    && IsDir(t, src) == IsDir(t, dst)
    && !(IsDir(t, dst) && t.inodes[dst].children != map[])
  }

  /** After the destination of an overwriting rename is removed, the move
      that follows meets the preconditions of the table's rename lemma. */
  lemma DestinationRemoved(t: Table, parent: Ino, name: string, newParent: Ino, newName: string, now: Time)
    requires Valid(t) && Overwritable(t, parent, name, newParent, newName)
    requires (parent, name) != (newParent, newName)
    requires !InSubtree(t, newParent, Tree.Lookup(t, parent, name).value)
    ensures var src := Tree.Lookup(t, parent, name).value;
      var dst := Tree.Lookup(t, newParent, newName).value;
      var t1 := Remove(t, dst, now).1;
      && src != dst && dst !in t1.inodes
      && Valid(t1)
      && Tree.Lookup(t1, parent, name) == Some(src)
      && IsDir(t1, newParent) && Tree.Lookup(t1, newParent, newName).None?
      && !InSubtree(t1, newParent, src)
  {
    var src := Tree.Lookup(t, parent, name).value;
    var dst := Tree.Lookup(t, newParent, newName).value;
    DestinationRemovedEntries(t, parent, name, newParent, newName, now);
    DestinationRemovedAcyclic(t, parent, name, newParent, newName, now);
  }

  /** The entry facts of `DestinationRemoved`: removing the destination keeps
      the source entry and frees the destination name. Neither parent is the
      destination, since an overwritable directory has no entries. */
  lemma DestinationRemovedEntries(t: Table, parent: Ino, name: string, newParent: Ino, newName: string, now: Time)
    requires Wf(t) && Overwritable(t, parent, name, newParent, newName)
    requires (parent, name) != (newParent, newName)
    ensures var src := Tree.Lookup(t, parent, name).value;
      var dst := Tree.Lookup(t, newParent, newName).value;
      var t1 := Remove(t, dst, now).1;
      && src != dst && dst !in t1.inodes
      && Tree.Lookup(t1, parent, name) == Some(src)
      && IsDir(t1, newParent) && Tree.Lookup(t1, newParent, newName).None?
  {
    var src := Tree.Lookup(t, parent, name).value;
    var dst := Tree.Lookup(t, newParent, newName).value;
    var t1 := Remove(t, dst, now).1;
    EntryIsLiveChild(t, parent, name);
    EntryIsLiveChild(t, newParent, newName);
    assert src != dst;
    assert newParent != dst;
    assert parent != dst;
    assert t1.inodes[newParent].children == t.inodes[newParent].children - {newName};
    if parent != newParent {
      assert t1.inodes[parent] == t.inodes[parent];
    }
  }

  /** The structural facts of `DestinationRemoved`: the table stays valid and
      the destination parent stays outside the moved subtree. */
  lemma DestinationRemovedAcyclic(t: Table, parent: Ino, name: string, newParent: Ino, newName: string, now: Time)
    requires Valid(t) && Overwritable(t, parent, name, newParent, newName)
    requires (parent, name) != (newParent, newName)
    requires !InSubtree(t, newParent, Tree.Lookup(t, parent, name).value)
    ensures var src := Tree.Lookup(t, parent, name).value;
      var t1 := Remove(t, Tree.Lookup(t, newParent, newName).value, now).1;
      Valid(t1) && !InSubtree(t1, newParent, src)
  {
    var src := Tree.Lookup(t, parent, name).value;
    var dst := Tree.Lookup(t, newParent, newName).value;
    var t1 := Remove(t, dst, now).1;
    EntryIsLiveChild(t, newParent, newName);
    var rank := Rank(t);
    RemovePreservesValid(t, dst, now);
    RemoveKeepsNodes(t, dst, now);
    assert Ranked(t1, rank);
    if InSubtree(t1, newParent, src) {
      UnderRankIndependent(t1, Rank(t1), rank, newParent, src);
      UnderInSmaller(t, t1, rank, newParent, src);
    }
  }

  /** `rename` keeps the table valid when the destination parent is a
      directory and not inside the moved subtree. Renaming an entry onto
      itself also keeps it valid: it only removes a leaf. */
  lemma RenamePreservesValid(t: Table, parent: Ino, name: string, newParent: Ino, newName: string, now: Time)
    requires Valid(t)
    requires Tree.Lookup(t, parent, name).Some? && IsDir(t, newParent)
    requires !InSubtree(t, newParent, Tree.Lookup(t, parent, name).value)
    ensures Valid(Fuse.Rename(t, parent, Text(name), newParent, Text(newName), now).table)
  {
    var r := Fuse.Rename(t, parent, Text(name), newParent, Text(newName), now);
    if (parent, name) == (newParent, newName) {
      SelfRenamePreservesValid(t, parent, name, now);
    } else if Tree.Lookup(t, newParent, newName).None? {
      assert r.table == Tree.Rename(t, parent, name, newParent, newName, now).1;
      Invariants.RenamePreservesValid(t, parent, name, newParent, newName, now);
    } else if Overwritable(t, parent, name, newParent, newName) {
      var t1 := Remove(t, Tree.Lookup(t, newParent, newName).value, now).1;
      assert r.table == Tree.Rename(t1, parent, name, newParent, newName, now).1;
      DestinationRemoved(t, parent, name, newParent, newName, now);
      Invariants.RenamePreservesValid(t1, parent, name, newParent, newName, now);
    } else {
      assert r.table == t;
    }
  }

  /** Renaming an entry onto itself leaves either the table unchanged (a
      non-empty directory) or the table with that entry's node removed. */
  lemma SelfRenamePreservesValid(t: Table, parent: Ino, name: string, now: Time)
    requires Valid(t) && Tree.Lookup(t, parent, name).Some?
    ensures Valid(Fuse.Rename(t, parent, Text(name), parent, Text(name), now).table)
  {
    var x := Tree.Lookup(t, parent, name).value;
    var r := Fuse.Rename(t, parent, Text(name), parent, Text(name), now);
    EntryIsLiveChild(t, parent, name);
    if IsDir(t, x) && t.inodes[x].children != map[] {
      assert r.table == t;
    } else {
      var t1 := Remove(t, x, now).1;
      assert parent != x;
      assert Tree.Lookup(t1, parent, name).None?;
      assert r.table == t1;
      RemovePreservesValid(t, x, now);
    }
  }

  /** Renaming into a live file: the file has no entries, so the destination
      name is free; the table drops the old entry, points the node at the
      file, and registers it nowhere. The reply is success, and the node is
      left orphaned. */
  lemma RenameUnderNonDirectoryOrphans(t: Table, parent: Ino, name: string, f: Ino, newName: string, now: Time)
    requires Wf(t) && Tree.Lookup(t, parent, name).Some?
    requires GetFile(t, f).Some? && Tree.Lookup(t, parent, name).value != f
    ensures var x := Tree.Lookup(t, parent, name).value;
      var r := Fuse.Rename(t, parent, Text(name), f, Text(newName), now);
      && r.reply == Ok(())
      && x in r.table.inodes && r.table.inodes[x].parentIno == f
      && !Wf(r.table)
  {
    var x := Tree.Lookup(t, parent, name).value;
    var r := Fuse.Rename(t, parent, Text(name), f, Text(newName), now);
    EntryIsLiveChild(t, parent, name);
    assert r.table == Tree.Rename(t, parent, name, f, newName, now).1;
    assert !IsDir(r.table, f);
    assert !Registered(r.table, x);
  }

  /** Rename over an existing entry of the same kind: the destination node is
      gone, the source node now sits at the destination under its old number
      with its content, and the old entry is gone. */
  lemma RenameOverwrites(t: Table, parent: Ino, name: string, newParent: Ino, newName: string, now: Time)
    requires Valid(t) && Overwritable(t, parent, name, newParent, newName)
    requires (parent, name) != (newParent, newName)
    requires !InSubtree(t, newParent, Tree.Lookup(t, parent, name).value)
    ensures var src := Tree.Lookup(t, parent, name).value;
      var dst := Tree.Lookup(t, newParent, newName).value;
      var r := Fuse.Rename(t, parent, Text(name), newParent, Text(newName), now);
      && r.reply == Ok(())
      && dst !in r.table.inodes
      && Tree.Lookup(r.table, newParent, newName) == Some(src)
      && Tree.Lookup(r.table, parent, name).None?
      && Kind(r.table.inodes[src]) == Kind(t.inodes[src])
      && (t.inodes[src].FileNode? ==> r.table.inodes[src].content == t.inodes[src].content)
  {
    DestinationRemoved(t, parent, name, newParent, newName, now);
  }

  /** Renaming an entry onto itself (same parent, same name) loses the node:
      the destination, which is the source, is removed first, and the move
      then finds no source and fails with EINVAL. Directories lose it only
      when empty; a non-empty one is refused with ENOTEMPTY. */
  lemma RenameOntoItselfLosesNode(t: Table, parent: Ino, name: string, now: Time)
    requires Wf(t) && Tree.Lookup(t, parent, name).Some?
    requires var x := Tree.Lookup(t, parent, name).value;
      t.inodes[x].DirNode? ==> t.inodes[x].children == map[]
    ensures var x := Tree.Lookup(t, parent, name).value;
      var r := Fuse.Rename(t, parent, Text(name), parent, Text(name), now);
      && r.reply == Err(EINVAL)
      && x !in r.table.inodes
      && Tree.Lookup(r.table, parent, name).None?
  {
    EntryIsLiveChild(t, parent, name);
    var x := Tree.Lookup(t, parent, name).value;
    assert parent != x;
  }

  // ---------------------------------------------------------------------------
  // Readdir

  /** Reading a directory in two pages gives the same entries as reading it
      in one page as large as both, whatever the sizes: the position carried
      by each entry is where the next call resumes. */
  lemma ReaddirResume(t: Table, ino: Ino, offset: nat, order: seq<string>, a: nat, b: nat)
    requires IsDir(t, ino) && Enumerates(order, t.inodes[ino].children)
    ensures var first := Readdir(t, ino, offset, order, a).value;
      first + Readdir(t, ino, offset + |first|, order, b).value == Readdir(t, ino, offset, order, a + b).value
  {
    var first := Readdir(t, ino, offset, order, a).value;
    var second := Readdir(t, ino, offset + |first|, order, b).value;
    var whole := Readdir(t, ino, offset, order, a + b).value;
    var rows := Listing(t, ino, order);
    assert |first + second| == |whole|;
    forall j | 0 <= j < |whole| ensures (first + second)[j] == whole[j] {
      if j >= |first| {
        assert second[j - |first|].offset == offset + j + 1;
      }
    }
  }

  /** The names of a sequence of rows are the names at its positions. */
  lemma {:induction false} RowNamesAtPositions(rows: seq<Row>)
    ensures RowNames(rows) == (set j | 0 <= j < |rows| :: rows[j].name)
  {
    if |rows| > 0 {
      RowNamesAtPositions(rows[1..]);
      assert forall j :: 1 <= j < |rows| ==> rows[j].name == rows[1..][j - 1].name;
      assert forall j :: 0 <= j < |rows| - 1 ==> rows[1..][j].name == rows[j + 1].name;
    }
  }

  /** In a valid table, a `readdir` from position 0 with room for everything
      reports exactly `.`, `..` and the names of the directory's entries,
      each entry once and in iteration order. */
  lemma ReaddirListsEveryEntry(t: Table, ino: Ino, order: seq<string>, room: nat)
    requires Valid(t) && IsDir(t, ino) && Enumerates(order, t.inodes[ino].children)
    requires room >= 2 + |order|
    ensures var r := Readdir(t, ino, 0, order, room).value;
      (set j | 0 <= j < |r| :: r[j].name) == {".", ".."} + t.inodes[ino].children.Keys
    ensures var r := Readdir(t, ino, 0, order, room).value;
      |r| == 2 + |t.inodes[ino].children|
    ensures var r := Readdir(t, ino, 0, order, room).value;
      forall i, j :: 2 <= i < j < |r| ==> r[i].name != r[j].name
    ensures var r := Readdir(t, ino, 0, order, room).value;
      forall j :: 2 <= j < |r| ==> r[j].name == order[j - 2]
  {
    var rows := Listing(t, ino, order);
    ListingNames(t, ino, order);
    RowNamesAtPositions(rows);
    WholePageNames(t, ino, order, room);
    WholeReaddirInOrder(t, ino, order, room);
  }

  /** With every entry live, the child rows are the order itself, so a
      whole readdir lists each entry once. */
  lemma WholeReaddirInOrder(t: Table, ino: Ino, order: seq<string>, room: nat)
    requires Wf(t) && IsDir(t, ino) && Enumerates(order, t.inodes[ino].children)
    requires room >= 2 + |order|
    ensures var r := Readdir(t, ino, 0, order, room).value;
      && |r| == 2 + |t.inodes[ino].children|
      && (forall i, j :: 2 <= i < j < |r| ==> r[i].name != r[j].name)
      && (forall j :: 2 <= j < |r| ==> r[j].name == order[j - 2])
  {
    var children := t.inodes[ino].children;
    var r := Readdir(t, ino, 0, order, room).value;
    var rows := Listing(t, ino, order);
    KidsAreOrder(t, ino, order);
    DistinctCard(order, children.Keys);
    assert rows[2..] == ChildRows(t, children, order);
    assert |r| == |rows|;
    assert forall j :: 0 <= j < |r| ==> r[j].name == rows[j].name;
    PageNamesOrder(r, rows, order);
  }

  /** A page carrying the names of `.`, `..` and a distinct order, position
      by position, names each entry once. */
  lemma PageNamesOrder(r: seq<DirEntry>, rows: seq<Row>, order: seq<string>)
    requires |r| == |rows| == 2 + |order| && Distinct(order)
    requires forall j :: 0 <= j < |r| ==> r[j].name == rows[j].name
    requires forall j :: 0 <= j < |order| ==> rows[2..][j].name == order[j]
    ensures forall i, j :: 2 <= i < j < |r| ==> r[i].name != r[j].name
    ensures forall j :: 2 <= j < |r| ==> r[j].name == order[j - 2]
  {
    forall j | 2 <= j < |r| ensures r[j].name == order[j - 2] {
      assert rows[2..][j - 2] == rows[j];
    }
  }

  /** In a well-formed table every entry is live, so the child rows name the
      order position by position. */
  lemma KidsAreOrder(t: Table, ino: Ino, order: seq<string>)
    requires Wf(t) && IsDir(t, ino) && Enumerates(order, t.inodes[ino].children)
    ensures var kids := ChildRows(t, t.inodes[ino].children, order);
      |kids| == |order| && forall j :: 0 <= j < |kids| ==> kids[j].name == order[j]
  {
    var children := t.inodes[ino].children;
    var kids := ChildRows(t, children, order);
    forall k | 0 <= k < |order| ensures order[k] in children && children[order[k]] in t.inodes {
      assert ChildOk(t, ino, order[k]);
    }
    forall j | 0 <= j < |kids| ensures kids[j].name == order[j] {
      FollowsWholeOrder(kids, order, j);
    }
  }

  /** A distinct sequence has as many elements as the set it enumerates. */
  lemma {:induction false} DistinctCard(order: seq<string>, keys: set<string>)
    requires Distinct(order) && forall n :: n in order <==> n in keys
    ensures |order| == |keys|
  {
    if |order| > 0 {
      TailIndices(order);
      var keys' := keys - {order[0]};
      DistinctCard(order[1..], keys');
      assert keys == keys' + {order[0]};
    } else {
      assert keys == {};
    }
  }

  /** Rows that follow a distinct order and are as many as it name its
      elements position by position. */
  lemma FollowsWholeOrder(rows: seq<Row>, order: seq<string>, j: nat)
    requires Distinct(order) && Follows(rows, order) && |rows| == |order| && j < |rows|
    ensures rows[j].name == order[j]
  {
    IndicesAscend(rows, order, 0);
  }

  /** In rows that follow an order, the row at position `j` sits at or past
      position `j` of the order, and as many rows as the order leave no gaps. */
  lemma {:induction false} IndicesAscend(rows: seq<Row>, order: seq<string>, from: nat)
    requires Distinct(order) && Follows(rows, order) && |rows| == |order| && from <= |rows|
    ensures forall j :: from <= j < |rows| ==> IndexOf(order, rows[j].name) == j
    decreases |rows| - from
  {
    if from < |rows| {
      IndicesAscend(rows, order, from + 1);
      // Each of the |rows| - from - 1 later rows sits strictly further on,
      // at positions from + 1 .. |rows| - 1, so this one lies below them.
      var k := IndexOf(order, rows[from].name);
      if from + 1 < |rows| {
        assert k < IndexOf(order, rows[from + 1].name) == from + 1;
      }
      IndicesFloor(rows, order, from);
    }
  }

  /** The row at position `j` sits at or past position `j` of the order. */
  lemma {:induction false} IndicesFloor(rows: seq<Row>, order: seq<string>, j: nat)
    requires Follows(rows, order) && j < |rows|
    ensures IndexOf(order, rows[j].name) >= j
  {
    if j > 0 {
      IndicesFloor(rows, order, j - 1);
    }
  }

  /** A page with room for the whole listing carries the listing's names. */
  lemma WholePageNames(t: Table, ino: Ino, order: seq<string>, room: nat)
    requires IsDir(t, ino) && Enumerates(order, t.inodes[ino].children)
    requires room >= 2 + |order|
    ensures var r := Readdir(t, ino, 0, order, room).value;
      var rows := Listing(t, ino, order);
      (set j | 0 <= j < |r| :: r[j].name) == (set j | 0 <= j < |rows| :: rows[j].name)
  {
    var r := Readdir(t, ino, 0, order, room).value;
    var rows := Listing(t, ino, order);
    assert |r| == |rows|;
    assert forall j :: 0 <= j < |r| ==> r[j].name == rows[j].name;
  }

  /** The listing's names are `.`, `..` and, in a valid table, every entry. */
  lemma ListingNames(t: Table, ino: Ino, order: seq<string>)
    requires Valid(t) && IsDir(t, ino) && Enumerates(order, t.inodes[ino].children)
    ensures RowNames(Listing(t, ino, order)) == {".", ".."} + t.inodes[ino].children.Keys
  {
    var rows := Listing(t, ino, order);
    var kids := ChildRows(t, t.inodes[ino].children, order);
    assert rows[1..][1..] == kids;
    assert RowNames(rows) == {"."} + RowNames(rows[1..]);
    assert RowNames(rows[1..]) == {".."} + RowNames(kids);
    EntriesAreLive(t, ino, order);
  }

  /** In a well-formed table every entry of a directory names a live node,
      so the live entries in iteration order are all of them. */
  lemma EntriesAreLive(t: Table, ino: Ino, order: seq<string>)
    requires Wf(t) && IsDir(t, ino) && Enumerates(order, t.inodes[ino].children)
    ensures var children := t.inodes[ino].children;
      (set n | n in order && n in children && children[n] in t.inodes) == children.Keys
  {
    var children := t.inodes[ino].children;
    forall n | n in children ensures children[n] in t.inodes {
      assert ChildOk(t, ino, n);
    }
  }

  // ---------------------------------------------------------------------------
  // Symlinks

  /** The size `getattr` reports for a symlink is the length of what
      `readlink` replies with. */
  lemma SymlinkSizeIsReadlinkLength(t: Table, ino: Ino)
    requires ino in t.inodes && t.inodes[ino].SymlinkNode?
    ensures Fuse.GetAttr(t, ino).value.size == |Readlink(t, ino).value|
  {
  }
}

=== FILE: invariants.dfy ===
/** The tree invariants the inode table is meant to keep, and which table
    steps keep them. A table is valid when
      - the root is a live directory that is its own parent;
      - every live node carries its own number, and every number handed out
        is below the allocation counter;
      - every directory entry names a live, non-root node whose parent and
        name agree with the entry (no dangling children);
      - every non-root node is registered under its name in its parent;
      - following parents from any node reaches the root (no cycles), which is
        witnessed by a rank that strictly decreases from child to parent.
    Insert, remove and rename keep validity only under preconditions the
    table itself does not check; the hazard lemmas at the end show what
    happens without them. */
module Invariants {
  import opened Common
  import opened Tree

  ghost predicate RootOk(t: Table)
  {
    IsDir(t, ROOT_INO) && t.inodes[ROOT_INO].parentIno == ROOT_INO
  }

  ghost predicate Numbered(t: Table)
  {
    && t.nextIno > ROOT_INO
    && forall i :: i in t.inodes ==> t.inodes[i].ino == i && i < t.nextIno
  }

  /** The entry `n` of directory `d` names a live non-root node that points back. */
  ghost predicate ChildOk(t: Table, d: Ino, n: string)
    requires IsDir(t, d) && n in t.inodes[d].children
  {
    var c := t.inodes[d].children[n];
    c in t.inodes && c != ROOT_INO && t.inodes[c].parentIno == d && t.inodes[c].name == n
  }

  ghost predicate ChildrenLinked(t: Table)
  {
    forall d, n :: IsDir(t, d) && n in t.inodes[d].children ==> ChildOk(t, d, n)
  }

  /** Node `x` is the entry of its own name in its parent directory. */
  ghost predicate Registered(t: Table, x: Ino)
    requires x in t.inodes
  {
    var p := t.inodes[x].parentIno;
    var n := t.inodes[x].name;
    IsDir(t, p) && n in t.inodes[p].children && t.inodes[p].children[n] == x
  }

  ghost predicate ParentsLinked(t: Table)
  {
    forall x {:trigger Registered(t, x)} :: x in t.inodes && x != ROOT_INO ==> Registered(t, x)
  }

  ghost predicate Wf(t: Table)
  {
    RootOk(t) && Numbered(t) && ChildrenLinked(t) && ParentsLinked(t)
  }

  /** `rank` strictly decreases from every non-root node to its parent. */
  ghost predicate Ranked(t: Table, rank: map<Ino, nat>)
  {
    && t.inodes.Keys <= rank.Keys
    && forall x :: x in t.inodes && x != ROOT_INO ==>
         t.inodes[x].parentIno in rank && rank[t.inodes[x].parentIno] < rank[x]
  }

  ghost predicate Valid(t: Table)
  {
    Wf(t) && exists rank :: Ranked(t, rank)
  }

  /** One rank witnessing that a valid table is acyclic. */
  ghost function Rank(t: Table): (rank: map<Ino, nat>)
    requires Valid(t)
    ensures Ranked(t, rank)
  {
    var rank :| Ranked(t, rank); rank
  }

  /** `a` is `x` or one of its ancestors, following parent numbers. The rank
      only bounds the walk; the answer does not depend on which rank is used
      (lemma UnderRankIndependent). */
  ghost predicate Under(t: Table, rank: map<Ino, nat>, x: Ino, a: Ino)
    requires Ranked(t, rank)
    decreases if x in rank then rank[x] else 0
  {
    x == a || (x != ROOT_INO && x in t.inodes && Under(t, rank, t.inodes[x].parentIno, a))
  }

  /** `x` lies in the subtree rooted at `a` (`a` itself included). */
  ghost predicate InSubtree(t: Table, x: Ino, a: Ino)
    requires Valid(t)
  {
    Under(t, Rank(t), x, a)
  }

  // ---------------------------------------------------------------------------
  // Facts about ranks and ancestry

  lemma {:induction false} UnderRankIndependent(t: Table, r1: map<Ino, nat>, r2: map<Ino, nat>, x: Ino, a: Ino)
    requires Ranked(t, r1) && Ranked(t, r2)
    ensures Under(t, r1, x, a) == Under(t, r2, x, a)
    decreases if x in r1 then r1[x] else 0
  {
    if x != a && x != ROOT_INO && x in t.inodes {
      UnderRankIndependent(t, r1, r2, t.inodes[x].parentIno, a);
    }
  }

  /** Ancestors rank strictly below their proper descendants. */
  lemma {:induction false} UnderRankBelow(t: Table, rank: map<Ino, nat>, x: Ino, a: Ino)
    requires Ranked(t, rank) && x in t.inodes && a in rank
    requires Under(t, rank, x, a)
    ensures rank[a] <= rank[x]
    ensures x != a ==> rank[a] < rank[x]
    decreases rank[x]
  {
    if x != a {
      var p := t.inodes[x].parentIno;
      if p != a {
        assert Under(t, rank, p, a);
        UnderRankBelow(t, rank, p, a);
      }
    }
  }

  // ---------------------------------------------------------------------------
  // The fresh table

  /** `InodeTable::new` followed by `init_root` (what `MemFS()` does) yields a
      valid table whose only node is the root and whose next number is 2. */
  lemma FreshTableValid(uid: U32, gid: U32, now: Time)
    ensures var t := InitRoot(New(uid, gid), now);
      Valid(t) && t.inodes.Keys == {ROOT_INO} && t.nextIno == 2
  {
    var t := InitRoot(New(uid, gid), now);
    assert t.inodes.Keys == {ROOT_INO};
    assert Ranked(t, map[ROOT_INO := 0]);
  }

  // ---------------------------------------------------------------------------
  // Allocation

  /** The number an insert hands out is fresh: not live, not the root, and
      above every number handed out before; the counter only grows. */
  lemma InsertAllocatesFresh(t: Table, parent: Ino, node: Node, now: Time)
    requires Numbered(t)
    ensures var (ino, t') := Insert(t, parent, node, now);
      && ino !in t.inodes && ino != ROOT_INO
      && (forall i :: i in t.inodes ==> i < ino)
      && Numbered(t')
  {
  }

  /** A removed number is never handed out again, because removal does not
      lower the counter. */
  lemma {:induction false} NoReuseAfterRemove(t: Table, x: Ino, parent: Ino, node: Node, now: Time)
    requires Numbered(t) && x in t.inodes
    ensures var t1 := Remove(t, x, now).1;
      var ino := Insert(t1, parent, node, now).0;
      ino != x && ino > x
  {
    assert x < t.nextIno;
  }

  // ---------------------------------------------------------------------------
  // Insert

  /** Inserting a fresh node (an empty directory, a file or a symlink) under a
      live directory that has no entry of that name keeps the table valid. */
  lemma InsertPreservesValid(t: Table, parent: Ino, node: Node, now: Time)
    requires Valid(t)
    requires IsDir(t, parent) && node.name !in t.inodes[parent].children
    requires node.DirNode? ==> node.children == map[]
    ensures Valid(Insert(t, parent, node, now).1)
  {
    var (ino, t') := Insert(t, parent, node, now);
    var rank := Rank(t);
    InsertChildrenLinked(t, parent, node, now);
    InsertParentsLinked(t, parent, node, now);
    InsertRanked(t, rank, parent, node, now);
    assert Wf(t') && Ranked(t', rank[ino := rank[parent] + 1]);
  }

  lemma InsertChildrenLinked(t: Table, parent: Ino, node: Node, now: Time)
    requires Wf(t) && IsDir(t, parent) && node.name !in t.inodes[parent].children
    requires node.DirNode? ==> node.children == map[]
    ensures ChildrenLinked(Insert(t, parent, node, now).1)
  {
    var (ino, t') := Insert(t, parent, node, now);
    assert ino !in t.inodes && parent != ino;
    forall d, n | IsDir(t', d) && n in t'.inodes[d].children ensures ChildOk(t', d, n) {
      if d == parent && n == node.name {
        assert t'.inodes[d].children[n] == ino;
      } else if d != ino {
        assert t'.inodes[d].children[n] == t.inodes[d].children[n];
        assert ChildOk(t, d, n);
        var c := t.inodes[d].children[n];
        assert c != ino;
        assert t'.inodes[c].parentIno == t.inodes[c].parentIno && t'.inodes[c].name == t.inodes[c].name;
      }
    }
  }

  lemma InsertParentsLinked(t: Table, parent: Ino, node: Node, now: Time)
    requires Wf(t) && IsDir(t, parent) && node.name !in t.inodes[parent].children
    ensures ParentsLinked(Insert(t, parent, node, now).1)
  {
    var (ino, t') := Insert(t, parent, node, now);
    assert ino !in t.inodes && parent != ino;
    forall x | x in t'.inodes && x != ROOT_INO ensures Registered(t', x) {
      if x != ino {
        assert Registered(t, x);
        var q := t.inodes[x].parentIno;
        assert t'.inodes[x].parentIno == q && t'.inodes[x].name == t.inodes[x].name;
        if q == parent {
          assert t.inodes[x].name != node.name;
        }
      }
    }
  }

  lemma InsertRanked(t: Table, rank: map<Ino, nat>, parent: Ino, node: Node, now: Time)
    requires Wf(t) && Ranked(t, rank) && parent in t.inodes
    ensures Ranked(Insert(t, parent, node, now).1, rank[t.nextIno := rank[parent] + 1])
  {
    var (ino, t') := Insert(t, parent, node, now);
    var rank' := rank[ino := rank[parent] + 1];
    assert ino !in t.inodes && parent != ino;
    forall x | x in t'.inodes && x != ROOT_INO
      ensures t'.inodes[x].parentIno in rank' && rank'[t'.inodes[x].parentIno] < rank'[x]
    {
      if x == ino {
        assert t'.inodes[x].parentIno == parent;
      } else {
        assert t'.inodes[x].parentIno == t.inodes[x].parentIno;
        assert Registered(t, x);
      }
    }
  }


  // ---------------------------------------------------------------------------
  // Remove

  /** Removing a non-root file, symlink or empty directory keeps the table valid. */
  lemma RemovePreservesValid(t: Table, x: Ino, now: Time)
    requires Valid(t)
    requires x in t.inodes && x != ROOT_INO
    requires t.inodes[x].DirNode? ==> t.inodes[x].children == map[]
    ensures Valid(Remove(t, x, now).1)
  {
    var t' := Remove(t, x, now).1;
    var rank := Rank(t);
    assert Registered(t, x);
    assert t.inodes[x].parentIno != x;
    RemoveChildrenLinked(t, x, now);
    RemoveParentsLinked(t, x, now);
    RemoveKeepsNodes(t, x, now);
    assert RootOk(t') && Numbered(t');
    RemoveRanked(t, rank, x, now);
  }

  lemma RemoveRanked(t: Table, rank: map<Ino, nat>, x: Ino, now: Time)
    requires Ranked(t, rank) && x in t.inodes
    ensures Ranked(Remove(t, x, now).1, rank)
  {
    RemoveKeepsNodes(t, x, now);
  }

  /** Remove changes no surviving node's parent, name or kind. */
  lemma RemoveKeepsNodes(t: Table, x: Ino, now: Time)
    requires x in t.inodes
    ensures var t1 := Remove(t, x, now).1;
      forall i :: i in t1.inodes ==>
        && i in t.inodes && i != x
        && t1.inodes[i].parentIno == t.inodes[i].parentIno
        && t1.inodes[i].name == t.inodes[i].name
        && t1.inodes[i].ino == t.inodes[i].ino
        && Kind(t1.inodes[i]) == Kind(t.inodes[i])
  {
  }

  lemma RemoveChildrenLinked(t: Table, x: Ino, now: Time)
    requires Wf(t) && x in t.inodes && x != ROOT_INO
    requires t.inodes[x].parentIno != x && Registered(t, x)
    ensures ChildrenLinked(Remove(t, x, now).1)
  {
    var t' := Remove(t, x, now).1;
    RemoveKeepsNodes(t, x, now);
    forall d, n | IsDir(t', d) && n in t'.inodes[d].children ensures ChildOk(t', d, n) {
      assert ChildOk(t, d, n);
      var c := t.inodes[d].children[n];
      assert t'.inodes[d].children[n] == c;
      assert c != x;
    }
  }

  lemma RemoveParentsLinked(t: Table, x: Ino, now: Time)
    requires Wf(t) && x in t.inodes && x != ROOT_INO
    requires t.inodes[x].parentIno != x && Registered(t, x)
    requires t.inodes[x].DirNode? ==> t.inodes[x].children == map[]
    ensures ParentsLinked(Remove(t, x, now).1)
  {
    var t' := Remove(t, x, now).1;
    RemoveKeepsNodes(t, x, now);
    forall y | y in t'.inodes && y != ROOT_INO ensures Registered(t', y) {
      assert Registered(t, y);
      var q := t.inodes[y].parentIno;
      assert q != x;
      if q == t.inodes[x].parentIno {
        assert t.inodes[y].name != t.inodes[x].name;
      }
    }
  }

  // ---------------------------------------------------------------------------
  // Rename

  /** Moving an entry to a free name under a live directory that is not inside
      the moved subtree keeps the table valid. */
  lemma RenamePreservesValid(t: Table, oldParent: Ino, oldName: string, newParent: Ino, newName: string, now: Time)
    requires Valid(t)
    requires Lookup(t, oldParent, oldName).Some?
    requires IsDir(t, newParent) && Lookup(t, newParent, newName).None?
    requires !InSubtree(t, newParent, Lookup(t, oldParent, oldName).value)
    ensures Valid(Rename(t, oldParent, oldName, newParent, newName, now).1)
  {
    var src := Lookup(t, oldParent, oldName).value;
    var t' := Rename(t, oldParent, oldName, newParent, newName, now).1;
    var rank := Rank(t);
    assert ChildOk(t, oldParent, oldName);
    assert src != newParent;
    assert src != oldParent;
    assert MoveReady(t, oldParent, oldName, newParent, newName);
    RenameNodes(t, oldParent, oldName, newParent, newName, now);
    RenameChildrenLinked(t, oldParent, oldName, newParent, newName, now);
    RenameParentsLinked(t, oldParent, oldName, newParent, newName, now);
    ParentsLive(t);
    RenameRanked(t, rank, src, newParent, t');
  }

  lemma RenameChildrenLinked(t: Table, oldParent: Ino, oldName: string, newParent: Ino, newName: string, now: Time)
    requires Wf(t) && MoveReady(t, oldParent, oldName, newParent, newName)
    ensures ChildrenLinked(Rename(t, oldParent, oldName, newParent, newName, now).1)
  {
    var src := Lookup(t, oldParent, oldName).value;
    var t' := Rename(t, oldParent, oldName, newParent, newName, now).1;
    assert ChildOk(t, oldParent, oldName);
    RenameNodes(t, oldParent, oldName, newParent, newName, now);
    RenameEntries(t, oldParent, oldName, newParent, newName, now);
    forall d, n | IsDir(t', d) && n in t'.inodes[d].children ensures ChildOk(t', d, n) {
      if (d, n) != (newParent, newName) {
        assert ChildOk(t, d, n);
      }
    }
  }

  lemma RenameParentsLinked(t: Table, oldParent: Ino, oldName: string, newParent: Ino, newName: string, now: Time)
    requires Wf(t) && MoveReady(t, oldParent, oldName, newParent, newName)
    ensures ParentsLinked(Rename(t, oldParent, oldName, newParent, newName, now).1)
  {
    var src := Lookup(t, oldParent, oldName).value;
    var t' := Rename(t, oldParent, oldName, newParent, newName, now).1;
    RenameNodes(t, oldParent, oldName, newParent, newName, now);
    RenameEntries(t, oldParent, oldName, newParent, newName, now);
    forall y | y in t'.inodes && y != ROOT_INO ensures Registered(t', y) {
      if y != src {
        assert Registered(t, y);
        var p, n := t.inodes[y].parentIno, t.inodes[y].name;
        assert (p, n) != (oldParent, oldName);
        assert t'.inodes[p].children[n] == y;
      }
    }
  }

  /** In a well-formed table every non-root node's parent is live. */
  lemma ParentsLive(t: Table)
    requires Wf(t)
    ensures forall x :: x in t.inodes && x != ROOT_INO ==> t.inodes[x].parentIno in t.inodes
  {
    forall x | x in t.inodes && x != ROOT_INO ensures t.inodes[x].parentIno in t.inodes {
      assert Registered(t, x);
    }
  }

  /** The conditions under which rename is a plain move: the source entry
      names a live node other than both parents, and the destination is a
      free name in a live directory. */
  ghost predicate MoveReady(t: Table, oldParent: Ino, oldName: string, newParent: Ino, newName: string)
  {
    && Lookup(t, oldParent, oldName).Some?
    && Lookup(t, oldParent, oldName).value in t.inodes
    && Lookup(t, oldParent, oldName).value != oldParent
    && Lookup(t, oldParent, oldName).value != newParent
    && IsDir(t, newParent) && Lookup(t, newParent, newName).None?
  }

  /** Rename as one map update per touched node. */
  lemma RenameAsUpdates(t: Table, oldParent: Ino, oldName: string, newParent: Ino, newName: string, now: Time)
    requires MoveReady(t, oldParent, oldName, newParent, newName)
    ensures var src := Lookup(t, oldParent, oldName).value;
      var m1 := t.inodes[oldParent := DropChild(t.inodes[oldParent], oldName, now)];
      var m2 := m1[src := Relocate(t.inodes[src], newName, newParent, now)];
      Rename(t, oldParent, oldName, newParent, newName, now).1
        == t.(inodes := m2[newParent := AddChild(m2[newParent], newName, src, now)])
  {
  }

  /** Rename touches nodes only as a move: every node keeps its number and kind,
      and only the moved node changes parent or name. */
  lemma RenameNodes(t: Table, oldParent: Ino, oldName: string, newParent: Ino, newName: string, now: Time)
    requires MoveReady(t, oldParent, oldName, newParent, newName)
    ensures var src := Lookup(t, oldParent, oldName).value;
      var t' := Rename(t, oldParent, oldName, newParent, newName, now).1;
      && t'.inodes.Keys == t.inodes.Keys
      && t'.inodes[src].parentIno == newParent && t'.inodes[src].name == newName
      && (forall i :: i in t.inodes ==>
            Kind(t'.inodes[i]) == Kind(t.inodes[i]) && t'.inodes[i].ino == t.inodes[i].ino)
      && (forall i :: i in t.inodes && i != src ==>
            t'.inodes[i].parentIno == t.inodes[i].parentIno && t'.inodes[i].name == t.inodes[i].name)
  {
    RenameAsUpdates(t, oldParent, oldName, newParent, newName, now);
  }

  /** Rename touches entries only as a move: `(oldParent, oldName)` goes,
      `(newParent, newName)` arrives, every other entry stays as it was. */
  lemma RenameEntries(t: Table, oldParent: Ino, oldName: string, newParent: Ino, newName: string, now: Time)
    requires MoveReady(t, oldParent, oldName, newParent, newName)
    ensures var src := Lookup(t, oldParent, oldName).value;
      var t' := Rename(t, oldParent, oldName, newParent, newName, now).1;
      && IsDir(t', newParent) && newName in t'.inodes[newParent].children
      && t'.inodes[newParent].children[newName] == src
      && (forall d, n :: IsDir(t', d) && n in t'.inodes[d].children && (d, n) != (newParent, newName) ==>
            (d, n) != (oldParent, oldName) && IsDir(t, d) && n in t.inodes[d].children
            && t'.inodes[d].children[n] == t.inodes[d].children[n])
      && (forall d, n :: IsDir(t, d) && n in t.inodes[d].children && (d, n) != (oldParent, oldName) ==>
            IsDir(t', d) && n in t'.inodes[d].children
            && t'.inodes[d].children[n] == t.inodes[d].children[n])
  {
    RenameAsUpdates(t, oldParent, oldName, newParent, newName, now);
  }

  /** The rank after moving `src` under `newParent`: the moved subtree is
      shifted so that `src` sits one above its new parent. */
  ghost function ShiftedRank(t: Table, rank: map<Ino, nat>, src: Ino, newParent: Ino): map<Ino, nat>
    requires Ranked(t, rank) && src in t.inodes && newParent in rank
  {
    map x | x in t.inodes ::
      if Under(t, rank, x, src) then ShiftOne(t, rank, x, src, newParent) else rank[x]
  }

  ghost function ShiftOne(t: Table, rank: map<Ino, nat>, x: Ino, src: Ino, newParent: Ino): nat
    requires Ranked(t, rank) && x in t.inodes && src in t.inodes && newParent in rank
    requires Under(t, rank, x, src)
  {
    UnderRankBelow(t, rank, x, src);
    rank[x] - rank[src] + rank[newParent] + 1
  }

  lemma RenameRanked(t: Table, rank: map<Ino, nat>, src: Ino, newParent: Ino, t': Table)
    requires Ranked(t, rank) && src in t.inodes && src != ROOT_INO && newParent in t.inodes
    requires !Under(t, rank, newParent, src)
    requires forall x :: x in t.inodes && x != ROOT_INO ==> t.inodes[x].parentIno in t.inodes
    requires t'.inodes.Keys == t.inodes.Keys
    requires t'.inodes[src].parentIno == newParent
    requires forall i :: i in t.inodes && i != src ==> t'.inodes[i].parentIno == t.inodes[i].parentIno
    ensures Ranked(t', ShiftedRank(t, rank, src, newParent))
  {
    var rank' := ShiftedRank(t, rank, src, newParent);
    forall x | x in t'.inodes && x != ROOT_INO
      ensures t'.inodes[x].parentIno in rank' && rank'[t'.inodes[x].parentIno] < rank'[x]
    {
      if x == src {
        assert Under(t, rank, src, src);
      } else {
        var p := t.inodes[x].parentIno;
        assert Under(t, rank, x, src) == Under(t, rank, p, src);
      }
    }
  }

  // ---------------------------------------------------------------------------
  // In-place node updates (write, truncate, chmod, utimens)

  /** Replacing a node by one of the same kind, number, name and parent (and,
      for a directory, the same entries) keeps the table valid. */
  lemma ReplaceNodePreservesValid(t: Table, i: Ino, n: Node)
    requires Valid(t) && i in t.inodes
    requires Kind(n) == Kind(t.inodes[i]) && n.ino == t.inodes[i].ino
    requires n.name == t.inodes[i].name && n.parentIno == t.inodes[i].parentIno
    requires n.DirNode? ==> n.children == t.inodes[i].children
    ensures Valid(t.(inodes := t.inodes[i := n]))
  {
    var t' := t.(inodes := t.inodes[i := n]);
    var rank := Rank(t);
    ReplaceNodeLinks(t, i, n);
    assert Ranked(t', rank);
  }

  lemma ReplaceNodeLinks(t: Table, i: Ino, n: Node)
    requires Wf(t) && i in t.inodes
    requires Kind(n) == Kind(t.inodes[i]) && n.ino == t.inodes[i].ino
    requires n.name == t.inodes[i].name && n.parentIno == t.inodes[i].parentIno
    requires n.DirNode? ==> n.children == t.inodes[i].children
    ensures Wf(t.(inodes := t.inodes[i := n]))
  {
    var t' := t.(inodes := t.inodes[i := n]);
    forall j | j in t.inodes
      ensures t'.inodes[j].DirNode? == t.inodes[j].DirNode? && t'.inodes[j].ino == t.inodes[j].ino
      ensures t'.inodes[j].parentIno == t.inodes[j].parentIno && t'.inodes[j].name == t.inodes[j].name
      ensures t.inodes[j].DirNode? ==> t'.inodes[j].children == t.inodes[j].children
    {
      if j == i {
        assert n.DirNode? == t.inodes[i].DirNode?;
      }
    }
    SameLinksWf(t, t');
  }

  /** Two tables with the same live numbers, the same kinds, parents, names
      and directory entries are equally well formed. */
  lemma SameLinksWf(t: Table, t': Table)
    requires Wf(t)
    requires t'.inodes.Keys == t.inodes.Keys && t'.nextIno == t.nextIno
    requires forall j :: j in t.inodes ==>
      && t'.inodes[j].DirNode? == t.inodes[j].DirNode?
      && t'.inodes[j].ino == t.inodes[j].ino
      && t'.inodes[j].parentIno == t.inodes[j].parentIno
      && t'.inodes[j].name == t.inodes[j].name
      && (t.inodes[j].DirNode? ==> t'.inodes[j].children == t.inodes[j].children)
    ensures Wf(t')
  {
    forall d, c | IsDir(t', d) && c in t'.inodes[d].children ensures ChildOk(t', d, c) {
      assert ChildOk(t, d, c);
    }
    forall y | y in t'.inodes && y != ROOT_INO ensures Registered(t', y) {
      assert Registered(t, y);
    }
  }

  // ---------------------------------------------------------------------------
  // Hazards the table does not guard against

  /** Inserting under a number that is not a live directory still stores the
      node, but no directory lists it: the table is no longer valid. */
  lemma InsertUnderNonDirOrphans(t: Table, parent: Ino, node: Node, now: Time)
    requires Wf(t) && !IsDir(t, parent)
    requires node.DirNode? ==> node.children == map[]
    ensures var (ino, t') := Insert(t, parent, node, now);
      && ino in t'.inodes
      && (forall d, n :: IsDir(t', d) && n in t'.inodes[d].children ==> t'.inodes[d].children[n] != ino)
      && !Wf(t')
  {
    var (ino, t') := Insert(t, parent, node, now);
    forall d, n | IsDir(t', d) && n in t'.inodes[d].children ensures t'.inodes[d].children[n] != ino {
      if d != ino {
        assert ChildOk(t, d, n);
      }
    }
    assert ino != ROOT_INO && !Registered(t', ino);
  }

  /** Parents stay fixed outside the moved node, so under any rank of the new
      table every node inside the moved subtree ranks above its top. */
  lemma {:induction false} SubtreeRanksAboveTop(t: Table, rank: map<Ino, nat>, t': Table, rank': map<Ino, nat>, x: Ino, src: Ino)
    requires Ranked(t, rank) && Ranked(t', rank')
    requires t'.inodes.Keys == t.inodes.Keys
    requires forall i :: i in t.inodes && i != src ==> t'.inodes[i].parentIno == t.inodes[i].parentIno
    requires x in t.inodes && src in t.inodes && x != src && Under(t, rank, x, src)
    ensures rank'[src] < rank'[x]
    decreases rank[x]
  {
    var p := t.inodes[x].parentIno;
    if p != src {
      assert Under(t, rank, p, src);
      SubtreeRanksAboveTop(t, rank, t', rank', p, src);
    }
  }

  /** Renaming a directory into its own subtree is not rejected: the rename
      succeeds and the result has a cycle of parents, so no rank exists and
      the table is no longer valid. */
  lemma RenameIntoOwnSubtreeBreaksValid(t: Table, oldParent: Ino, oldName: string, newParent: Ino, newName: string, now: Time)
    requires Valid(t)
    requires Lookup(t, oldParent, oldName).Some?
    requires IsDir(t, newParent) && Lookup(t, newParent, newName).None?
    requires InSubtree(t, newParent, Lookup(t, oldParent, oldName).value)
    ensures Rename(t, oldParent, oldName, newParent, newName, now).0 == Ok(())
    ensures !Valid(Rename(t, oldParent, oldName, newParent, newName, now).1)
  {
    var src := Lookup(t, oldParent, oldName).value;
    var t' := Rename(t, oldParent, oldName, newParent, newName, now).1;
    var rank := Rank(t);
    assert ChildOk(t, oldParent, oldName);
    assert src != oldParent;
    if src == newParent {
      assert t'.inodes[src].parentIno == src;
      forall rank' | Ranked(t', rank') ensures false {
      }
    } else {
      RenameNodes(t, oldParent, oldName, newParent, newName, now);
      forall rank' | Ranked(t', rank') ensures false {
        SubtreeRanksAboveTop(t, rank, t', rank', newParent, src);
      }
    }
  }
}

=== FILE: path_props.dfy ===
/** Properties of the path layer: normalisation, resolution, `makedirs`, the
    creation, removal, listing and rename policies, and the removal of the
    root by `remove_dir`. */
module PathProps {
  import opened Common
  import opened Tree
  import opened Invariants
  import opened Paths
  import Fuse
  import FuseProps

  // ---------------------------------------------------------------------------
  // Normalisation

  /** A string that does not start with a slash splits into a non-empty
      first piece. */
  lemma SplitFirstPieceNonEmpty(s: string)
    requires |s| > 0 && s[0] != '/'
    ensures Split(s)[0] != ""
  {
  }

  /** A path has no components exactly when it is all slashes (or empty). */
  lemma ComponentsEmptyIffTrimmedEmpty(path: string)
    ensures |Components(path)| == 0 <==> Trim(path) == ""
  {
    var trimmed := Trim(path);
    if trimmed == "" {
      ComponentsOfEmpty();
      assert Components("") == DropEmpty(Split(""));
    } else {
      SplitFirstPieceNonEmpty(trimmed);
      var pieces := Split(trimmed);
      assert DropEmpty(pieces) == [pieces[0]] + DropEmpty(pieces[1..]);
    }
  }

  /** `resolve_parent` never reports "Invalid path": a path that survives the
      root check always has a final component. */
  lemma ResolveParentNeverInvalid(t: Table, path: string)
    ensures ResolveParent(t, path) != Err(InvalidPath)
  {
    ComponentsEmptyIffTrimmedEmpty(path);
  }

  // ---------------------------------------------------------------------------
  // Resolution

  /** Resolving a concatenation resolves the first part, then the second from
      where the first ended. */
  lemma {:induction false} ResolveAppend(t: Table, c: Ino, a: seq<string>, b: seq<string>)
    ensures ResolveFrom(t, c, a + b) ==
      match ResolveFrom(t, c, a)
      case None => None
      case Some(x) => ResolveFrom(t, x, b)
    decreases |a|
  {
    if |a| > 0 {
      assert (a + b)[0] == a[0];
      assert (a + b)[1..] == a[1..] + b;
      match Tree.Lookup(t, c, a[0])
      case None =>
      case Some(d) => ResolveAppend(t, d, a[1..], b);
    } else {
      assert a + b == b;
    }
  }

  /** Resolving a non-empty sequence resolves all but the last component,
      then looks the last one up. */
  lemma ResolveLast(t: Table, c: Ino, parts: seq<string>)
    requires |parts| >= 1
    ensures ResolveFrom(t, c, parts) ==
      match ResolveFrom(t, c, parts[..|parts| - 1])
      case None => None
      case Some(p) => Tree.Lookup(t, p, parts[|parts| - 1])
  {
    var n := |parts|;
    assert parts == parts[..n - 1] + [parts[n - 1]];
    ResolveAppend(t, c, parts[..n - 1], [parts[n - 1]]);
  }

  /** The parent `resolve_parent` returns is where all but the last
      component lead, and the name it returns is the last component. */
  lemma ParentResolves(t: Table, path: string)
    requires ResolveParent(t, path).Ok?
    ensures var parts := Components(path);
      && |parts| >= 1
      && ResolveFrom(t, ROOT_INO, parts[..|parts| - 1]) == Some(ResolveParent(t, path).value.0)
      && ResolveParent(t, path).value.1 == parts[|parts| - 1]
  {
    var parts := Components(path);
    if |parts| == 1 {
      assert parts[..0] == [];
    }
  }

  /** What `resolve_parent` returns and what `resolve_path` finds agree:
      the full path resolves to the parent's entry for the final name. */
  lemma ResolveParentThenLookup(t: Table, path: string)
    requires ResolveParent(t, path).Ok?
    ensures var (p, name) := ResolveParent(t, path).value;
      ResolveFrom(t, ROOT_INO, Components(path)) == Tree.Lookup(t, p, name)
  {
    ResolveThroughParent(t, t, path);
  }

  /** In a well-formed table, a path with at least one component resolves to
      a live node that is not the root, sitting in the parent the prefix
      resolves to under the final name. */
  lemma ResolvesToChild(t: Table, path: string)
    requires Wf(t) && |Components(path)| > 0 && ResolvePath(t, path).Ok?
    ensures var parts := Components(path);
      var x := ResolvePath(t, path).value;
      var prefix := ResolveFrom(t, ROOT_INO, parts[..|parts| - 1]);
      && prefix.Some? && Tree.Lookup(t, prefix.value, parts[|parts| - 1]) == Some(x)
      && x in t.inodes && x != ROOT_INO
      && t.inodes[x].parentIno == prefix.value && t.inodes[x].name == parts[|parts| - 1]
  {
    var parts := Components(path);
    var n := |parts|;
    ResolveLast(t, ROOT_INO, parts);
    var p := ResolveFrom(t, ROOT_INO, parts[..n - 1]).value;
    assert ChildOk(t, p, parts[n - 1]);
  }

  /** In a well-formed table, whatever a path resolves to is live. */
  lemma ResolvesToLive(t: Table, path: string)
    requires Wf(t) && ResolvePath(t, path).Ok?
    ensures ResolvePath(t, path).value in t.inodes
  {
    if |Components(path)| > 0 {
      ResolvesToChild(t, path);
    }
  }

  /** Every directory entry of `t` is still there, unchanged, in `t'`. */
  ghost predicate KeepsEntries(t: Table, t': Table)
  {
    forall d, n :: Tree.Lookup(t, d, n).Some? ==> Tree.Lookup(t', d, n) == Tree.Lookup(t, d, n)
  }

  /** A path that resolves in `t` resolves to the same node in any table
      that keeps `t`'s entries. */
  lemma {:induction false} ResolveKept(t: Table, t': Table, c: Ino, parts: seq<string>)
    requires KeepsEntries(t, t') && ResolveFrom(t, c, parts).Some?
    ensures ResolveFrom(t', c, parts) == ResolveFrom(t, c, parts)
    decreases |parts|
  {
    if |parts| > 0 {
      ResolveKept(t, t', Tree.Lookup(t, c, parts[0]).value, parts[1..]);
    }
  }

  /** Inserting under a free name with a fresh number keeps every entry. */
  lemma InsertKeepsEntries(t: Table, parent: Ino, node: Node, now: Time)
    requires Numbered(t) && Tree.Lookup(t, parent, node.name).None?
    ensures KeepsEntries(t, Insert(t, parent, node, now).1)
  {
    InsertAllocatesFresh(t, parent, node, now);
  }

  /** Removing a node only ever drops entries. */
  lemma RemoveDropsEntries(t: Table, x: Ino, now: Time)
    ensures KeepsEntries(Remove(t, x, now).1, t)
  {
  }

  // ---------------------------------------------------------------------------
  // makedirs

  /** The walk from an empty directory creates the rest and cannot fail. */
  lemma {:induction false} MakedirsWalkFromEmpty(t: Table, cur: Ino, parts: seq<string>, mode: U16, now: Time)
    requires IsDir(t, cur) && t.inodes[cur].children == map[]
    ensures MakedirsWalk(t, cur, parts, mode, now).result.Ok?
    decreases |parts|
  {
    if |parts| > 1 {
      var (ino, t1) := Insert(t, cur, NewDir(parts[0], mode, now), now);
      MakedirsWalkFromEmpty(t1, ino, parts[1..], mode, now);
    }
  }

  /** A failing walk has created nothing: every failure happens while still
      walking existing entries, before the first directory is created. */
  lemma {:induction false} MakedirsWalkErrorUnchanged(t: Table, cur: Ino, parts: seq<string>, mode: U16, now: Time)
    ensures MakedirsWalk(t, cur, parts, mode, now).result.Err? ==>
      MakedirsWalk(t, cur, parts, mode, now).table == t
    decreases |parts|
  {
    if |parts| > 0 {
      match Tree.Lookup(t, cur, parts[0])
      case Some(c) =>
        if IsDir(t, c) {
          MakedirsWalkErrorUnchanged(t, c, parts[1..], mode, now);
        }
      case None =>
        if |parts| > 1 {
          var (ino, t1) := Insert(t, cur, NewDir(parts[0], mode, now), now);
          MakedirsWalkFromEmpty(t1, ino, parts[1..], mode, now);
        }
    }
  }

  /** The walk from `cur` is blocked at depth `k`: the first `k - 1`
      components lead through directories, and the `k`-th names an entry
      that is not a live directory (a file, a symlink or a vanished inode). */
  ghost predicate BlockedAt(t: Table, cur: Ino, parts: seq<string>, k: nat)
    requires 1 <= k <= |parts|
  {
    && AllPrefixesDirs(t, cur, parts[..k - 1])
    && ResolveFrom(t, cur, parts[..k]).Some?
    && !IsDir(t, ResolveFrom(t, cur, parts[..k]).value)
  }

  ghost predicate Blocked(t: Table, cur: Ino, parts: seq<string>)
  {
    exists k :: 1 <= k <= |parts| && BlockedAt(t, cur, parts, k)
  }

  /** The prefixes of `q` are all directories exactly when its first step is
      a directory and the prefixes of the rest, from there, are too. */
  lemma PrefixesDirsStep(t: Table, cur: Ino, q: seq<string>)
    requires |q| > 0 && Tree.Lookup(t, cur, q[0]).Some? && IsDir(t, Tree.Lookup(t, cur, q[0]).value)
    ensures AllPrefixesDirs(t, cur, q) <==> AllPrefixesDirs(t, Tree.Lookup(t, cur, q[0]).value, q[1..])
  {
    var c := Tree.Lookup(t, cur, q[0]).value;
    if AllPrefixesDirs(t, cur, q) {
      forall j | 1 <= j <= |q[1..]|
        ensures ResolveFrom(t, c, q[1..][..j]).Some? && IsDir(t, ResolveFrom(t, c, q[1..][..j]).value)
      {
        PrefixStep(t, cur, q, j + 1);
        assert ResolveFrom(t, cur, q[..j + 1]).Some?;
      }
    } else if AllPrefixesDirs(t, c, q[1..]) {
      PrefixesAfterStep(t, cur, q);
    }
  }

  /** Past a first step into a directory, being blocked at depth `k` is being
      blocked at depth `k - 1` from that directory. */
  lemma BlockedAtStep(t: Table, cur: Ino, parts: seq<string>, k: nat)
    requires 2 <= k <= |parts| && Tree.Lookup(t, cur, parts[0]).Some?
    requires IsDir(t, Tree.Lookup(t, cur, parts[0]).value)
    ensures BlockedAt(t, cur, parts, k) <==> BlockedAt(t, Tree.Lookup(t, cur, parts[0]).value, parts[1..], k - 1)
  {
    var c := Tree.Lookup(t, cur, parts[0]).value;
    PrefixStep(t, cur, parts, k);
    var q := parts[..k - 1];
    assert q[0] == parts[0];
    assert q[1..] == parts[1..][..k - 2];
    PrefixesDirsStep(t, cur, q);
  }

  /** A step into an entry that is not a directory blocks the walk at once;
      a missing entry cannot block it at any depth. */
  lemma BlockedFirst(t: Table, cur: Ino, parts: seq<string>)
    requires |parts| > 0
    ensures Tree.Lookup(t, cur, parts[0]).Some? && !IsDir(t, Tree.Lookup(t, cur, parts[0]).value) ==>
      BlockedAt(t, cur, parts, 1)
    ensures Tree.Lookup(t, cur, parts[0]).None? ==> !Blocked(t, cur, parts)
  {
    assert parts[..1][0] == parts[0] && parts[..1][1..] == [];
    assert AllPrefixesDirs(t, cur, parts[..0]);
    if Tree.Lookup(t, cur, parts[0]).None? {
      forall k | 1 <= k <= |parts| ensures !BlockedAt(t, cur, parts, k) {
        if k > 1 {
          assert parts[..k - 1][..1] == parts[..1];
        }
      }
    }
  }

  /** The walk fails exactly when it is blocked: some component, reached
      through directories only, names a file, a symlink or a vanished inode.
      Missing components never cause a failure; they are created. */
  lemma {:induction false} MakedirsWalkFailsIffBlocked(t: Table, cur: Ino, parts: seq<string>, mode: U16, now: Time)
    requires IsDir(t, cur)
    ensures MakedirsWalk(t, cur, parts, mode, now).result.Err? <==> Blocked(t, cur, parts)
    decreases |parts|
  {
    if |parts| > 0 {
      BlockedFirst(t, cur, parts);
      match Tree.Lookup(t, cur, parts[0])
      case Some(c) =>
        if IsDir(t, c) {
          assert MakedirsWalk(t, cur, parts, mode, now) == MakedirsWalk(t, c, parts[1..], mode, now);
          MakedirsWalkFailsIffBlocked(t, c, parts[1..], mode, now);
          BlockedAfterStep(t, cur, parts);
        }
      case None =>
        if |parts| > 1 {
          var (ino, t1) := Insert(t, cur, NewDir(parts[0], mode, now), now);
          MakedirsWalkFromEmpty(t1, ino, parts[1..], mode, now);
        }
    }
  }

  lemma BlockedAfterStep(t: Table, cur: Ino, parts: seq<string>)
    requires |parts| > 0 && Tree.Lookup(t, cur, parts[0]).Some?
    requires IsDir(t, Tree.Lookup(t, cur, parts[0]).value)
    ensures Blocked(t, cur, parts) <==> Blocked(t, Tree.Lookup(t, cur, parts[0]).value, parts[1..])
  {
    var c := Tree.Lookup(t, cur, parts[0]).value;
    if Blocked(t, cur, parts) {
      var k :| 1 <= k <= |parts| && BlockedAt(t, cur, parts, k);
      assert parts[..1][0] == parts[0] && parts[..1][1..] == [];
      assert ResolveFrom(t, c, []) == Some(c);
      assert ResolveFrom(t, cur, parts[..1]) == Some(c);
      BlockedAtStep(t, cur, parts, k);
    }
    if Blocked(t, c, parts[1..]) {
      var k :| 1 <= k <= |parts[1..]| && BlockedAt(t, c, parts[1..], k);
      BlockedAtStep(t, cur, parts, k + 1);
    }
  }

  /** `makedirs` fails exactly when some component of the path, reached
      through directories from the root, names a file, a symlink or a
      vanished inode. */
  lemma MakedirsFailsIffBlocked(t: Table, path: string, mode: U16, now: Time)
    requires IsDir(t, ROOT_INO)
    ensures Makedirs(t, path, mode, now).result.Err? <==> Blocked(t, ROOT_INO, Components(path))
  {
    if |Components(path)| > 0 {
      MakedirsWalkFailsIffBlocked(t, ROOT_INO, Components(path), mode, now);
    }
  }

  /** `makedirs` that fails leaves the table as it was. */
  lemma MakedirsErrorLeavesTableUnchanged(t: Table, path: string, mode: U16, now: Time)
    ensures Makedirs(t, path, mode, now).result.Err? ==> Makedirs(t, path, mode, now).table == t
  {
    if |Components(path)| > 0 {
      MakedirsWalkErrorUnchanged(t, ROOT_INO, Components(path), mode, now);
    }
  }

  /** The walk keeps numbering, every existing entry and every directory. */
  lemma {:induction false} MakedirsWalkKeeps(t: Table, cur: Ino, parts: seq<string>, mode: U16, now: Time)
    requires Numbered(t)
    ensures var t' := MakedirsWalk(t, cur, parts, mode, now).table;
      && Numbered(t') && KeepsEntries(t, t')
      && forall d :: IsDir(t, d) ==> IsDir(t', d)
    decreases |parts|
  {
    if |parts| > 0 {
      match Tree.Lookup(t, cur, parts[0])
      case Some(c) =>
        if IsDir(t, c) {
          MakedirsWalkKeeps(t, c, parts[1..], mode, now);
        }
      case None =>
        var (ino, t1) := Insert(t, cur, NewDir(parts[0], mode, now), now);
        InsertKeepsEntries(t, cur, NewDir(parts[0], mode, now), now);
        InsertAllocatesFresh(t, cur, NewDir(parts[0], mode, now), now);
        if |parts| > 1 {
          MakedirsWalkKeeps(t1, ino, parts[1..], mode, now);
        }
    }
  }

  /** Every prefix of `parts`, resolved from `cur`, is a directory. */
  ghost predicate AllPrefixesDirs(t: Table, cur: Ino, parts: seq<string>)
  {
    forall k :: 1 <= k <= |parts| ==>
      ResolveFrom(t, cur, parts[..k]).Some? && IsDir(t, ResolveFrom(t, cur, parts[..k]).value)
  }

  /** Resolving a non-empty prefix takes the first step, then the rest. */
  lemma PrefixStep(t: Table, cur: Ino, parts: seq<string>, k: nat)
    requires 1 <= k <= |parts| && Tree.Lookup(t, cur, parts[0]).Some?
    ensures ResolveFrom(t, cur, parts[..k]) ==
      ResolveFrom(t, Tree.Lookup(t, cur, parts[0]).value, parts[1..][..k - 1])
  {
    assert parts[..k][0] == parts[0];
    assert parts[..k][1..] == parts[1..][..k - 1];
  }

  /** After the first step, the prefixes from the next directory being all
      directories makes the prefixes from `cur` all directories. */
  lemma PrefixesAfterStep(t: Table, cur: Ino, parts: seq<string>)
    requires |parts| > 0 && Tree.Lookup(t, cur, parts[0]).Some?
    requires IsDir(t, Tree.Lookup(t, cur, parts[0]).value)
    requires AllPrefixesDirs(t, Tree.Lookup(t, cur, parts[0]).value, parts[1..])
    ensures AllPrefixesDirs(t, cur, parts)
  {
    forall k | 1 <= k <= |parts|
      ensures ResolveFrom(t, cur, parts[..k]).Some? && IsDir(t, ResolveFrom(t, cur, parts[..k]).value)
    {
      PrefixStep(t, cur, parts, k);
    }
  }

  /** A successful walk leaves every prefix of the path resolving to a
      directory, and the whole path resolving to the directory returned. */
  lemma {:induction false} MakedirsWalkResolves(t: Table, cur: Ino, parts: seq<string>, mode: U16, now: Time)
    requires Numbered(t) && IsDir(t, cur)
    ensures var r := MakedirsWalk(t, cur, parts, mode, now);
      r.result.Ok? ==>
        && AllPrefixesDirs(r.table, cur, parts)
        && ResolveFrom(r.table, cur, parts) == Some(r.result.value)
        && IsDir(r.table, r.result.value)
    decreases |parts|
  {
    var r := MakedirsWalk(t, cur, parts, mode, now);
    if |parts| > 0 && r.result.Ok? {
      assert parts == parts[..|parts|];
      match Tree.Lookup(t, cur, parts[0])
      case Some(c) =>
        MakedirsWalkResolves(t, c, parts[1..], mode, now);
        MakedirsWalkKeeps(t, c, parts[1..], mode, now);
        PrefixesAfterStep(r.table, cur, parts);
      case None =>
        var node := NewDir(parts[0], mode, now);
        var (ino, t1) := Insert(t, cur, node, now);
        InsertAllocatesFresh(t, cur, node, now);
        if |parts| == 1 {
          PrefixesAfterStep(r.table, cur, parts);
        } else {
          MakedirsWalkResolves(t1, ino, parts[1..], mode, now);
          MakedirsWalkKeeps(t1, ino, parts[1..], mode, now);
          PrefixesAfterStep(r.table, cur, parts);
        }
    }
  }

  /** `makedirs` that succeeds leaves every prefix of the path existing as a
      directory, and the path itself resolving to the directory returned. */
  lemma MakedirsCreatesEveryPrefix(t: Table, path: string, mode: U16, now: Time)
    requires Numbered(t) && IsDir(t, ROOT_INO)
    ensures var r := Makedirs(t, path, mode, now);
      r.result.Ok? ==>
        && AllPrefixesDirs(r.table, ROOT_INO, Components(path))
        && ResolvePath(r.table, path) == Ok(r.result.value)
        && IsDir(r.table, r.result.value)
  {
    if |Components(path)| > 0 {
      MakedirsWalkResolves(t, ROOT_INO, Components(path), mode, now);
    }
  }

  /** When every prefix already is a directory, the walk creates nothing and
      returns the directory the path names. */
  lemma {:induction false} MakedirsWalkExisting(t: Table, cur: Ino, parts: seq<string>, mode: U16, now: Time)
    requires IsDir(t, cur) && AllPrefixesDirs(t, cur, parts)
    ensures ResolveFrom(t, cur, parts).Some?
    ensures MakedirsWalk(t, cur, parts, mode, now) == Outcome(Ok(ResolveFrom(t, cur, parts).value), t)
    decreases |parts|
  {
    if |parts| > 0 {
      assert ResolveFrom(t, cur, parts[..1]).Some?;
      assert parts[..1][0] == parts[0];
      PrefixStep(t, cur, parts, 1);
      var c := Tree.Lookup(t, cur, parts[0]).value;
      assert IsDir(t, c);
      forall k | 1 <= k <= |parts[1..]|
        ensures ResolveFrom(t, c, parts[1..][..k]).Some? && IsDir(t, ResolveFrom(t, c, parts[1..][..k]).value)
      {
        PrefixStep(t, cur, parts, k + 1);
        assert parts[1..][..k] == parts[1..][..k + 1 - 1];
      }
      PrefixStep(t, cur, parts, |parts|);
      assert parts[..|parts|] == parts;
      assert parts[1..][..|parts| - 1] == parts[1..];
      MakedirsWalkExisting(t, c, parts[1..], mode, now);
    }
  }

  /** `makedirs` is idempotent: repeating a successful call creates nothing
      and returns the same directory. */
  lemma MakedirsIdempotent(t: Table, path: string, mode: U16, now: Time, later: Time)
    requires Numbered(t) && IsDir(t, ROOT_INO)
    requires Makedirs(t, path, mode, now).result.Ok?
    ensures var r := Makedirs(t, path, mode, now);
      Makedirs(r.table, path, mode, later) == r
  {
    var r := Makedirs(t, path, mode, now);
    var parts := Components(path);
    if |parts| > 0 {
      MakedirsWalkResolves(t, ROOT_INO, parts, mode, now);
      MakedirsWalkKeeps(t, ROOT_INO, parts, mode, now);
      MakedirsWalkExisting(r.table, ROOT_INO, parts, mode, later);
    }
  }

  /** The walk keeps a valid table valid: it only ever inserts an empty
      directory under a directory that lacks that name. */
  lemma {:induction false} MakedirsWalkPreservesValid(t: Table, cur: Ino, parts: seq<string>, mode: U16, now: Time)
    requires Valid(t) && IsDir(t, cur)
    ensures Valid(MakedirsWalk(t, cur, parts, mode, now).table)
    decreases |parts|
  {
    if |parts| > 0 {
      match Tree.Lookup(t, cur, parts[0])
      case Some(c) =>
        if IsDir(t, c) {
          assert MakedirsWalk(t, cur, parts, mode, now) == MakedirsWalk(t, c, parts[1..], mode, now);
          MakedirsWalkPreservesValid(t, c, parts[1..], mode, now);
        }
      case None =>
        var (ino, t1) := Insert(t, cur, NewDir(parts[0], mode, now), now);
        MakedirsStepValid(t, cur, parts[0], mode, now);
        if |parts| > 1 {
          assert MakedirsWalk(t, cur, parts, mode, now) == MakedirsWalk(t1, ino, parts[1..], mode, now);
          MakedirsWalkPreservesValid(t1, ino, parts[1..], mode, now);
        }
    }
  }

  /** The directory one `makedirs` step creates keeps the table valid. */
  lemma MakedirsStepValid(t: Table, cur: Ino, name: string, mode: U16, now: Time)
    requires Valid(t) && IsDir(t, cur) && Tree.Lookup(t, cur, name).None?
    ensures var (ino, t1) := Insert(t, cur, NewDir(name, mode, now), now);
      Valid(t1) && IsDir(t1, ino)
  {
    InsertPreservesValid(t, cur, NewDir(name, mode, now), now);
  }

  /** `makedirs` keeps a valid table valid. */
  lemma MakedirsPreservesValid(t: Table, path: string, mode: U16, now: Time)
    requires Valid(t)
    ensures Valid(Makedirs(t, path, mode, now).table)
  {
    if |Components(path)| > 0 {
      MakedirsWalkPreservesValid(t, ROOT_INO, Components(path), mode, now);
    }
  }

  // ---------------------------------------------------------------------------
  // Creation

  /** A node builder that names the node it builds and builds no entries. */
  ghost predicate Builds(node: string -> Node)
  {
    forall n :: node(n).name == n && (node(n).DirNode? ==> node(n).children == map[])
  }

  /** In a table whose root is a directory, the parent `resolve_parent`
      returns is a directory. */
  lemma ResolvedParentIsDir(t: Table, path: string)
    requires IsDir(t, ROOT_INO) && ResolveParent(t, path).Ok?
    ensures IsDir(t, ResolveParent(t, path).value.0)
  {
  }

  /** Creating at a path keeps a valid table valid: the parent is always a
      directory, because `resolve_parent` checks it or it is the root. */
  lemma CreateAtPreservesValid(t: Table, path: string, node: string -> Node, now: Time)
    requires Valid(t) && Builds(node)
    ensures Valid(CreateAt(t, path, node, now).table)
  {
    if ResolveParent(t, path).Ok? {
      var (p, name) := ResolveParent(t, path).value;
      ResolvedParentIsDir(t, path);
      if Tree.Lookup(t, p, name).None? {
        InsertPreservesValid(t, p, node(name), now);
      }
    }
  }

  /** In any table that keeps the entries of `t`, a path whose parent
      resolves in `t` resolves to the parent's entry for the final name. */
  lemma ResolveThroughParent(t: Table, t': Table, path: string)
    requires KeepsEntries(t, t') && ResolveParent(t, path).Ok?
    ensures var (p, name) := ResolveParent(t, path).value;
      ResolveFrom(t', ROOT_INO, Components(path)) == Tree.Lookup(t', p, name)
  {
    ParentResolves(t, path);
    ResolveThroughPrefix(t, t', Components(path), ResolveParent(t, path).value.0);
  }

  lemma ResolveThroughPrefix(t: Table, t': Table, parts: seq<string>, p: Ino)
    requires KeepsEntries(t, t') && |parts| >= 1
    requires ResolveFrom(t, ROOT_INO, parts[..|parts| - 1]) == Some(p)
    ensures ResolveFrom(t', ROOT_INO, parts) == Tree.Lookup(t', p, parts[|parts| - 1])
  {
    ResolveKept(t, t', ROOT_INO, parts[..|parts| - 1]);
    ResolveLast(t', ROOT_INO, parts);
  }

  /** Inserting a node under the final name of a path whose parent resolves
      to a directory without that name makes the path resolve to it. */
  lemma InsertedResolves(t: Table, path: string, node: Node, now: Time)
    requires Numbered(t) && IsDir(t, ROOT_INO) && ResolveParent(t, path).Ok?
    requires var (p, name) := ResolveParent(t, path).value;
      node.name == name && Tree.Lookup(t, p, name).None?
    ensures ResolvePath(Insert(t, ResolveParent(t, path).value.0, node, now).1, path) == Ok(t.nextIno)
  {
    var p := ResolveParent(t, path).value.0;
    ResolvedParentIsDir(t, path);
    InsertKeepsEntries(t, p, node, now);
    ResolveThroughParent(t, Insert(t, p, node, now).1, path);
  }

  /** `create_file` keeps a valid table valid. */
  lemma CreateFilePreservesValid(t: Table, path: string, content: seq<byte>, mode: U16, now: Time)
    requires Valid(t)
    ensures Valid(CreateFile(t, path, content, mode, now).table)
  {
    CreateAtPreservesValid(t, path, name => NewFile(name, content, mode, now), now);
  }

  /** `create_dir` keeps a valid table valid. */
  lemma CreateDirPreservesValid(t: Table, path: string, mode: U16, now: Time)
    requires Valid(t)
    ensures Valid(CreateDir(t, path, mode, now).table)
  {
    CreateAtPreservesValid(t, path, name => NewDir(name, mode, now), now);
  }

  /** `symlink` keeps a valid table valid. */
  lemma SymlinkPreservesValid(t: Table, target: string, path: string, now: Time)
    requires Valid(t)
    ensures Valid(Paths.Symlink(t, target, path, now).table)
  {
    CreateAtPreservesValid(t, path, name => NewSymlink(name, target, now), now);
  }

  /** A file created at a path is found there, with the content given. */
  lemma CreateFileThenGet(t: Table, path: string, content: seq<byte>, mode: U16, now: Time)
    requires Numbered(t) && IsDir(t, ROOT_INO)
    requires CreateFile(t, path, content, mode, now).result.Ok?
    ensures var t' := CreateFile(t, path, content, mode, now).table;
      GetPath(t', path).Ok? && GetPath(t', path).value.FileNode? && GetPath(t', path).value.content == content
  {
    var (p, name) := ResolveParent(t, path).value;
    InsertedResolves(t, path, NewFile(name, content, mode, now), now);
  }

  /** A directory created at a path is a directory there, and empty. */
  lemma CreateDirThenListdir(t: Table, path: string, mode: U16, now: Time)
    requires Numbered(t) && IsDir(t, ROOT_INO)
    requires CreateDir(t, path, mode, now).result.Ok?
    ensures Listdir(CreateDir(t, path, mode, now).table, path) == Ok({})
  {
    var (p, name) := ResolveParent(t, path).value;
    var t' := CreateDir(t, path, mode, now).table;
    InsertedResolves(t, path, NewDir(name, mode, now), now);
    assert t' == Insert(t, p, NewDir(name, mode, now), now).1;
    assert IsDir(t', t.nextIno);
    assert t'.inodes[t.nextIno].children.Keys == {};
  }

  /** `readlink` of a symlink just created returns its target verbatim. */
  lemma SymlinkThenReadlink(t: Table, target: string, path: string, now: Time)
    requires Numbered(t) && IsDir(t, ROOT_INO)
    requires Paths.Symlink(t, target, path, now).result.Ok?
    ensures Paths.Readlink(Paths.Symlink(t, target, path, now).table, path) == Ok(target)
    ensures IsSymlink(Paths.Symlink(t, target, path, now).table, path)
  {
    var (p, name) := ResolveParent(t, path).value;
    InsertedResolves(t, path, NewSymlink(name, target, now), now);
  }

  // ---------------------------------------------------------------------------
  // Listing

  /** Every name `listdir` reports is an entry of the listed directory:
      following it from there reaches a live node of that name whose parent
      is the directory. */
  lemma ListedNameIsChild(t: Table, path: string, name: string)
    requires Wf(t) && Listdir(t, path).Ok? && name in Listdir(t, path).value
    ensures var d := ResolvePath(t, path).value;
      var x := ResolveFrom(t, ROOT_INO, Components(path) + [name]);
      x.Some? && x.value in t.inodes && t.inodes[x.value].name == name && t.inodes[x.value].parentIno == d
  {
    var d := ResolvePath(t, path).value;
    ResolveAppend(t, ROOT_INO, Components(path), [name]);
    assert ChildOk(t, d, name);
  }

  /** Appending a component to components gives components. */
  lemma AppendComponent(parts: seq<string>, name: string)
    requires IsComponent(name) && forall i :: 0 <= i < |parts| ==> IsComponent(parts[i])
    ensures forall i :: 0 <= i < |parts + [name]| ==> IsComponent((parts + [name])[i])
  {
    forall i | 0 <= i < |parts + [name]| ensures IsComponent((parts + [name])[i]) {
      if i < |parts| {
        assert (parts + [name])[i] == parts[i];
      }
    }
  }

  /** For a path written as joined components, every name `listdir` reports
      can be appended to the path, and the longer path resolves to a live
      node of that name inside the listed directory. */
  lemma ListdirNamesResolve(t: Table, parts: seq<string>, name: string)
    requires Wf(t) && IsComponent(name) && forall i :: 0 <= i < |parts| ==> IsComponent(parts[i])
    requires Listdir(t, Join(parts)).Ok? && name in Listdir(t, Join(parts)).value
    ensures var d := ResolvePath(t, Join(parts)).value;
      var x := ResolvePath(t, Join(parts + [name]));
      x.Ok? && x.value in t.inodes && t.inodes[x.value].name == name && t.inodes[x.value].parentIno == d
  {
    ComponentsOfJoin(parts);
    AppendComponent(parts, name);
    ComponentsOfJoin(parts + [name]);
    ListedNameIsChild(t, Join(parts), name);
  }

  // ---------------------------------------------------------------------------
  // Removal

  /** Removing the node a non-root path resolves to (a file, a symlink or an
      empty directory) makes the path stop resolving. */
  lemma RemoveResolvedGone(t: Table, path: string, now: Time)
    requires Wf(t) && |Components(path)| > 0 && ResolvePath(t, path).Ok?
    requires var x := ResolvePath(t, path).value;
      x in t.inodes && (t.inodes[x].DirNode? ==> t.inodes[x].children == map[])
    ensures !Exists(Remove(t, ResolvePath(t, path).value, now).1, path)
  {
    var x := ResolvePath(t, path).value;
    var t' := Remove(t, x, now).1;
    var parts := Components(path);
    var n := |parts|;
    ResolvesToChild(t, path);
    var p := ResolveFrom(t, ROOT_INO, parts[..n - 1]).value;
    EntryGoneAfterRemove(t, p, parts[n - 1], now);
    ResolveLast(t', ROOT_INO, parts);
    if ResolveFrom(t', ROOT_INO, parts[..n - 1]).Some? {
      RemoveDropsEntries(t, x, now);
      ResolveKept(t', t, ROOT_INO, parts[..n - 1]);
    }
  }

  /** Removing the node an entry names (a file, a symlink or an empty
      directory) drops that entry. */
  lemma EntryGoneAfterRemove(t: Table, p: Ino, name: string, now: Time)
    requires Wf(t) && Tree.Lookup(t, p, name).Some?
    requires var x := Tree.Lookup(t, p, name).value;
      x in t.inodes && (t.inodes[x].DirNode? ==> t.inodes[x].children == map[])
    ensures Tree.Lookup(Remove(t, Tree.Lookup(t, p, name).value, now).1, p, name).None?
  {
    var x := Tree.Lookup(t, p, name).value;
    assert ChildOk(t, p, name);
    assert p != x;
  }

  /** `remove_file` keeps a valid table valid. */
  lemma RemoveFilePreservesValid(t: Table, path: string, now: Time)
    requires Valid(t)
    ensures Valid(RemoveFile(t, path, now).table)
  {
    if RemoveFile(t, path, now).result.Ok? {
      RemovePreservesValid(t, ResolvePath(t, path).value, now);
    }
  }

  /** A successful `remove_file` makes the path stop existing. */
  lemma RemoveFileThenGone(t: Table, path: string, now: Time)
    requires Wf(t) && RemoveFile(t, path, now).result.Ok?
    ensures !Exists(RemoveFile(t, path, now).table, path)
  {
    ComponentsEmptyIffTrimmedEmpty(path);
    RemoveResolvedGone(t, path, now);
  }

  /** `remove_dir` of a path with at least one component keeps a valid table
      valid. */
  lemma RemoveDirPreservesValid(t: Table, path: string, now: Time)
    requires Valid(t) && |Components(path)| > 0
    ensures Valid(RemoveDir(t, path, now).table)
  {
    if RemoveDir(t, path, now).result.Ok? {
      ResolvesToChild(t, path);
      RemovePreservesValid(t, ResolvePath(t, path).value, now);
    }
  }

  /** A successful `remove_dir` of a path with at least one component makes
      the path stop existing. */
  lemma RemoveDirThenGone(t: Table, path: string, now: Time)
    requires Wf(t) && |Components(path)| > 0 && RemoveDir(t, path, now).result.Ok?
    ensures !Exists(RemoveDir(t, path, now).table, path)
  {
    RemoveResolvedGone(t, path, now);
  }

  /** `remove_dir` on the root path of a table whose root is empty succeeds
      and deletes the root itself: afterwards the table is no longer well
      formed, yet the root path still "exists", since an empty path resolves
      to the root number without looking. */
  lemma RemoveDirOfRootRemovesRoot(t: Table, path: string, now: Time)
    requires Wf(t) && Trim(path) == "" && t.inodes[ROOT_INO].children == map[]
    ensures var t' := RemoveDir(t, path, now).table;
      && RemoveDir(t, path, now).result == Ok(())
      && ROOT_INO !in t'.inodes
      && !Wf(t')
      && Exists(t', path)
  {
    ComponentsEmptyIffTrimmedEmpty(path);
  }

  // ---------------------------------------------------------------------------
  // Rename

  /** Once both parents resolve, the path rename makes the same decisions
      as the FUSE rename on the resolved parents and names: the same table
      afterwards, and success exactly when the FUSE call replies Ok. */
  lemma RenameAgreesWithFuse(t: Table, oldPath: string, newPath: string, now: Time)
    requires ResolveParent(t, oldPath).Ok? && ResolveParent(t, newPath).Ok?
    ensures var (op, on) := ResolveParent(t, oldPath).value;
      var (np, nn) := ResolveParent(t, newPath).value;
      var r := Paths.Rename(t, oldPath, newPath, now);
      var f := Fuse.Rename(t, op, Fuse.Text(on), np, Fuse.Text(nn), now);
      && r.table == f.table
      && (r.result.Ok? <==> f.reply.Ok?)
  {
  }

  /** Path rename keeps a valid table valid when the destination parent is
      not inside the moved subtree. */
  lemma RenamePreservesValid(t: Table, oldPath: string, newPath: string, now: Time)
    requires Valid(t) && ResolveParent(t, oldPath).Ok? && ResolveParent(t, newPath).Ok?
    requires var (op, on) := ResolveParent(t, oldPath).value;
      var (np, nn) := ResolveParent(t, newPath).value;
      Tree.Lookup(t, op, on).Some? ==> !InSubtree(t, np, Tree.Lookup(t, op, on).value)
    ensures Valid(Paths.Rename(t, oldPath, newPath, now).table)
  {
    var (op, on) := ResolveParent(t, oldPath).value;
    var (np, nn) := ResolveParent(t, newPath).value;
    RenameAgreesWithFuse(t, oldPath, newPath, now);
    if Tree.Lookup(t, op, on).Some? {
      ResolvedParentIsDir(t, newPath);
      FuseProps.RenamePreservesValid(t, op, on, np, nn, now);
    }
  }

  /** A successful path rename to a free destination name moves the node:
      the new parent's entry for the new name is the node, it keeps its kind
      and content, and the old entry is gone. */
  lemma RenameMovesNode(t: Table, oldPath: string, newPath: string, now: Time)
    requires Valid(t) && ResolveParent(t, oldPath).Ok? && ResolveParent(t, newPath).Ok?
    requires var (np, nn) := ResolveParent(t, newPath).value;
      Tree.Lookup(t, np, nn).None?
    requires Paths.Rename(t, oldPath, newPath, now).result.Ok?
    ensures var (op, on) := ResolveParent(t, oldPath).value;
      var src := Tree.Lookup(t, op, on).value;
      var t' := Paths.Rename(t, oldPath, newPath, now).table;
      && Tree.Lookup(t', ResolveParent(t, newPath).value.0, ResolveParent(t, newPath).value.1) == Some(src)
      && Tree.Lookup(t', op, on).None?
      && Kind(t'.inodes[src]) == Kind(t.inodes[src])
      && (t.inodes[src].FileNode? ==> t'.inodes[src].content == t.inodes[src].content)
  {
    var (op, on) := ResolveParent(t, oldPath).value;
    var (np, nn) := ResolveParent(t, newPath).value;
    var src := Tree.Lookup(t, op, on).value;
    var t' := Paths.Rename(t, oldPath, newPath, now).table;
    ResolvedParentIsDir(t, newPath);
    FuseProps.EntryIsLiveChild(t, op, on);
    RenameAgreesWithFuse(t, oldPath, newPath, now);
  }

  /** Renaming a path onto itself loses the node, as the FUSE rename does:
      the destination (the source itself) is removed, then the table's rename
      finds no source. */
  lemma RenameOntoItselfLosesNode(t: Table, path: string, now: Time)
    requires Wf(t) && ResolveParent(t, path).Ok?
    requires var (p, name) := ResolveParent(t, path).value;
      && Tree.Lookup(t, p, name).Some?
      && var x := Tree.Lookup(t, p, name).value;
      (IsDir(t, x) ==> t.inodes[x].children == map[])
    ensures var r := Paths.Rename(t, path, path, now);
      var (p, name) := ResolveParent(t, path).value;
      && r.result == Err(MoveFailed(TreeError.SourceNotFound))
      && Tree.Lookup(t, p, name).value !in r.table.inodes
      && !Exists(r.table, path)
  {
    var (p, name) := ResolveParent(t, path).value;
    FuseProps.EntryIsLiveChild(t, p, name);
    var x := Tree.Lookup(t, p, name).value;
    assert p != x;
    ResolveParentThenLookup(t, path);
    ComponentsEmptyIffTrimmedEmpty(path);
    RemoveResolvedGone(t, path, now);
  }
}

=== FILE: paths.dfy ===
/** The path layer of `src/pytypes.rs` (`PyFilesystem`, without mounting):
    slash-separated paths are normalised into components and resolved from
    the root one `lookup` at a time, and each path-keyed operation is a step
    on the inode table that either succeeds or reports an error. */
module Paths {
  import opened Common
  import opened Tree

  // ---------------------------------------------------------------------------
  // Normalisation

  /** `str::trim_start_matches('/')`: drop leading slashes. */
  function TrimStart(s: string): (r: string)
    ensures |r| <= |s| && r == s[|s| - |r|..]
    ensures forall k :: 0 <= k < |s| - |r| ==> s[k] == '/'
    ensures |r| > 0 ==> r[0] != '/'
  {
    if |s| > 0 && s[0] == '/' then TrimStart(s[1..]) else s
  }

  /** `str::trim_end_matches('/')`: drop trailing slashes. */
  function TrimEnd(s: string): (r: string)
    ensures |r| <= |s| && r == s[..|r|]
    ensures forall k :: |r| <= k < |s| ==> s[k] == '/'
    ensures |r| > 0 ==> r[|r| - 1] != '/'
  {
    if |s| > 0 && s[|s| - 1] == '/' then TrimEnd(s[..|s| - 1]) else s
  }

  /** `str::trim_matches('/')`: the middle of `s` once the leading and the
      trailing slashes are cut off. */
  function Trim(s: string): (r: string)
    ensures |r| > 0 ==> r[0] != '/' && r[|r| - 1] != '/'
    ensures SlashPadded(s, |s| - |TrimStart(s)|, r)
  {
    var a := TrimStart(s);
    var r := TrimEnd(a);
    TrimSlice(s, a, r);
    r
  }

  /** `r` is the slice of `s` from position `k` on, and every character of
      `s` outside that slice is a slash. */
  ghost predicate SlashPadded(s: string, k: nat, r: string)
  {
    && k + |r| <= |s| && r == s[k..k + |r|]
    && (forall i :: 0 <= i < k ==> s[i] == '/')
    && (forall i :: k + |r| <= i < |s| ==> s[i] == '/')
  }

  /** Cutting slashes off the front and then off the back leaves a slice of
      the original with only slashes around it. */
  lemma TrimSlice(s: string, a: string, r: string)
    requires |a| <= |s| && a == s[|s| - |a|..] && forall k :: 0 <= k < |s| - |a| ==> s[k] == '/'
    requires |a| > 0 ==> a[0] != '/'
    requires |r| <= |a| && r == a[..|r|] && forall k :: |r| <= k < |a| ==> a[k] == '/'
    requires |r| > 0 ==> r[|r| - 1] != '/'
    ensures |r| > 0 ==> r[0] != '/' && r[|r| - 1] != '/'
    ensures SlashPadded(s, |s| - |a|, r)
  {
    var k := |s| - |a|;
    assert forall i :: k + |r| <= i < |s| ==> s[i] == a[i - k];
    if |r| > 0 {
      assert r[0] == a[0];
    }
  }

  /** `str::split('/')`: the pieces between slashes, empty ones included;
      the empty string splits into one empty piece. */
  function Split(s: string): (parts: seq<string>)
    ensures |parts| >= 1
    ensures forall i :: 0 <= i < |parts| ==> '/' !in parts[i]
    ensures Join(parts) == s
  {
    if |s| == 0 then [""]
    else
      var rest := Split(s[1..]);
      if s[0] == '/' then
        var parts := [""] + rest;
        assert parts[1..] == rest;
        assert s == "/" + s[1..];
        parts
      else
        var parts := [[s[0]] + rest[0]] + rest[1..];
        assert parts[1..] == rest[1..];
        assert s == [s[0]] + s[1..];
        parts
  }

  /** `filter(|s| !s.is_empty())`. */
  function DropEmpty(parts: seq<string>): (r: seq<string>)
    ensures |r| <= |parts|
    ensures forall i :: 0 <= i < |r| ==> r[i] != "" && r[i] in parts
    ensures forall i :: 0 <= i < |parts| && parts[i] != "" ==> parts[i] in r
  {
    if |parts| == 0 then []
    else if parts[0] == "" then DropEmpty(parts[1..])
    else [parts[0]] + DropEmpty(parts[1..])
  }

  /** A component: a non-empty name without a slash. */
  predicate IsComponent(c: string)
  {
    c != "" && '/' !in c
  }

  /** The components of a path: trim slashes, split, drop empty pieces. */
  function Components(path: string): (parts: seq<string>)
    ensures forall i :: 0 <= i < |parts| ==> IsComponent(parts[i])
  {
    DropEmpty(Split(Trim(path)))
  }

  /** The trim only removes slashes, which split into empty pieces, so the
      components are exactly the non-empty pieces between the path's slashes. */
  lemma ComponentsArePieces(path: string)
    ensures Components(path) == DropEmpty(Split(path))
  {
    DropEmptySplitTrimStart(path);
    DropEmptySplitTrimEnd(TrimStart(path));
  }

  /** Filtering distributes over concatenation. */
  lemma {:induction false} DropEmptyAppend(a: seq<string>, b: seq<string>)
    ensures DropEmpty(a + b) == DropEmpty(a) + DropEmpty(b)
  {
    if |a| > 0 {
      DropEmptyAppend(a[1..], b);
      assert (a + b)[1..] == a[1..] + b;
    } else {
      assert a + b == b;
    }
  }

  /** A trailing slash splits off one more, empty, piece. */
  lemma {:induction false} SplitSnocSlash(x: string)
    ensures Split(x + "/") == Split(x) + [""]
  {
    if |x| > 0 {
      SplitSnocSlash(x[1..]);
      assert (x + "/")[1..] == x[1..] + "/";
    } else {
      assert Split("/"[1..]) == [""];
    }
  }

  /** Leading slashes only contribute empty pieces. */
  lemma {:induction false} DropEmptySplitTrimStart(s: string)
    ensures DropEmpty(Split(TrimStart(s))) == DropEmpty(Split(s))
  {
    if |s| > 0 && s[0] == '/' {
      DropEmptySplitTrimStart(s[1..]);
      assert Split(s)[1..] == Split(s[1..]);
    }
  }

  /** Trailing slashes only contribute empty pieces. */
  lemma {:induction false} DropEmptySplitTrimEnd(s: string)
    ensures DropEmpty(Split(TrimEnd(s))) == DropEmpty(Split(s))
  {
    if |s| > 0 && s[|s| - 1] == '/' {
      var x := s[..|s| - 1];
      assert s == x + "/";
      assert TrimEnd(s) == TrimEnd(x);
      DropEmptySplitTrimEnd(x);
      DropEmptySplitSnocSlash(x);
    }
  }

  lemma DropEmptySplitSnocSlash(x: string)
    ensures DropEmpty(Split(x + "/")) == DropEmpty(Split(x))
  {
    SplitSnocSlash(x);
    DropEmptyAppend(Split(x), [""]);
    assert DropEmpty([""]) == [];
  }

  /** `[..].join("/")`. */
  function Join(parts: seq<string>): string
  {
    if |parts| == 0 then ""
    else if |parts| == 1 then parts[0]
    else parts[0] + "/" + Join(parts[1..])
  }

  // ---------------------------------------------------------------------------
  // Resolution

  /** The errors of the path layer, one per message the source raises. */
  datatype PathError =
    | CannotOperateOnRoot     // resolve_parent on "/" or ""
    | InvalidPath             // resolve_parent with no final component
    | PathNotFound            // a component is missing, or the node is gone
    | ParentNotDirectory      // resolve_parent's prefix is not a directory
    | AlreadyExists           // create_file, create_dir, symlink
    | ComponentNotDirectory   // makedirs meets a file or symlink
    | DanglingInode           // makedirs meets an entry whose inode is gone
    | DirectoryNotFound       // makedirs ends on something not a directory
    | NotASymlink             // readlink
    | IsADirectory            // remove_file
    | NotADirectory           // remove_dir, listdir
    | DirectoryNotEmpty       // remove_dir
    | SourceNotFound          // rename: no source entry
    | KindMismatch            // rename: file over directory or vice versa
    | DestinationNotEmpty     // rename: non-empty destination directory
    | MoveFailed(e: TreeError) // rename: the table's own rename failed

  /** An outcome of a mutating path operation and the table after it. */
  datatype Outcome<+T> = Outcome(result: Result<T, PathError>, table: Table)

  /** Follow `parts` from `cur` through `InodeTable::lookup`: a missing
      entry, or a step through something that is not a directory, fails. */
  function ResolveFrom(t: Table, cur: Ino, parts: seq<string>): Option<Ino>
    decreases |parts|
  {
    if |parts| == 0 then Some(cur)
    else
      match Tree.Lookup(t, cur, parts[0])
      case None => None
      case Some(c) => ResolveFrom(t, c, parts[1..])
  }

  /** `resolve_path`: a path without components is the root; otherwise each
      component is looked up in turn from the root. */
  function ResolvePath(t: Table, path: string): (r: Result<Ino, PathError>)
    ensures r.Err? ==> r.error == PathNotFound
    ensures |Components(path)| == 0 ==> r == Ok(ROOT_INO)
    ensures r.Ok? <==> ResolveFrom(t, ROOT_INO, Components(path)).Some?
    ensures r.Ok? ==> Some(r.value) == ResolveFrom(t, ROOT_INO, Components(path))
  {
    var parts := Components(path);
    if |parts| == 0 then Ok(ROOT_INO)
    else
      match ResolveFrom(t, ROOT_INO, parts)
      case Some(ino) => Ok(ino)
      case None => Err(PathNotFound)
  }

  /** Splitting a joined sequence of components gives the sequence back. */
  lemma {:induction false} SplitJoin(parts: seq<string>)
    requires |parts| >= 1 && forall i :: 0 <= i < |parts| ==> IsComponent(parts[i])
    ensures Split(Join(parts)) == parts
  {
    if |parts| == 1 {
      SplitSlashFree(parts[0]);
    } else {
      SplitJoin(parts[1..]);
      SplitAfterSlashFree(parts[0], Join(parts[1..]));
    }
  }

  lemma {:induction false} SplitSlashFree(s: string)
    requires '/' !in s
    ensures Split(s) == [s]
  {
    if |s| > 0 {
      SplitSlashFree(s[1..]);
      assert s == [s[0]] + s[1..];
    }
  }

  lemma {:induction false} SplitAfterSlashFree(a: string, b: string)
    requires '/' !in a
    ensures Split(a + "/" + b) == [a] + Split(b)
  {
    if |a| == 0 {
      assert a + "/" + b == ['/'] + b;
      assert (['/'] + b)[1..] == b;
    } else {
      SplitAfterSlashFree(a[1..], b);
      assert (a + "/" + b)[1..] == a[1..] + "/" + b;
      assert a == [a[0]] + a[1..];
    }
  }

  /** A joined sequence of components neither starts nor ends with a slash. */
  lemma {:induction false} JoinEnds(parts: seq<string>)
    requires |parts| >= 1 && forall i :: 0 <= i < |parts| ==> IsComponent(parts[i])
    ensures |Join(parts)| > 0 && Join(parts)[0] != '/' && Join(parts)[|Join(parts)| - 1] != '/'
  {
    if |parts| > 1 {
      JoinEnds(parts[1..]);
      var j := Join(parts);
      assert j == parts[0] + "/" + Join(parts[1..]);
      assert j[0] == parts[0][0];
      assert j[|j| - 1] == Join(parts[1..])[|Join(parts[1..])| - 1];
    }
  }

  lemma TrimNoSlashEnds(s: string)
    requires |s| > 0 && s[0] != '/' && s[|s| - 1] != '/'
    ensures Trim(s) == s
  {
  }

  lemma {:induction false} DropEmptyKeepsComponents(parts: seq<string>)
    requires forall i :: 0 <= i < |parts| ==> IsComponent(parts[i])
    ensures DropEmpty(parts) == parts
  {
    if |parts| > 0 {
      DropEmptyKeepsComponents(parts[1..]);
    }
  }

  /** Normalising the join of components gives the components back: this is
      why `resolve_parent` may resolve its prefix by joining it and handing it
      to `resolve_path`. */
  lemma {:induction false} ComponentsOfJoin(parts: seq<string>)
    requires forall i :: 0 <= i < |parts| ==> IsComponent(parts[i])
    ensures Components(Join(parts)) == parts
  {
    if |parts| > 0 {
      ComponentsOfNonEmptyJoin(parts);
    } else {
      ComponentsOfEmpty();
    }
  }

  lemma ComponentsOfNonEmptyJoin(parts: seq<string>)
    requires |parts| > 0 && forall i :: 0 <= i < |parts| ==> IsComponent(parts[i])
    ensures Components(Join(parts)) == parts
  {
    JoinTrimmed(parts);
    SplitJoin(parts);
    DropEmptyKeepsComponents(parts);
    ComponentsChain(Join(parts), parts);
  }

  lemma JoinTrimmed(parts: seq<string>)
    requires |parts| > 0 && forall i :: 0 <= i < |parts| ==> IsComponent(parts[i])
    ensures Trim(Join(parts)) == Join(parts)
  {
    JoinEnds(parts);
    TrimNoSlashEnds(Join(parts));
  }

  lemma ComponentsChain(j: string, parts: seq<string>)
    requires Trim(j) == j && Split(j) == parts && DropEmpty(parts) == parts
    ensures Components(j) == parts
  {
  }

  lemma ComponentsOfEmpty()
    ensures Components("") == []
  {
    assert Trim("") == "";
    assert [""][1..] == [];
    assert DropEmpty(Split("")) == [];
  }

  /** `resolve_parent`: the root path is refused; a one-component path has
      the root as parent, unchecked; otherwise the prefix is resolved and must
      be a directory. The result names the parent and the final component. */
  function ResolveParent(t: Table, path: string): (r: Result<(Ino, string), PathError>)
    ensures Trim(path) == "" ==> r == Err(CannotOperateOnRoot)
    ensures r.Ok? ==>
      var parts := Components(path);
      && |parts| >= 1 && r.value.1 == parts[|parts| - 1]
      && (|parts| == 1 ==> r.value.0 == ROOT_INO)
      && (|parts| > 1 ==>
            ResolveFrom(t, ROOT_INO, parts[..|parts| - 1]) == Some(r.value.0) && IsDir(t, r.value.0))
    ensures |Components(path)| > 1 && ResolveFrom(t, ROOT_INO, Components(path)[..|Components(path)| - 1]).None? ==>
      r == Err(PathNotFound)
    ensures |Components(path)| > 1 && ResolveFrom(t, ROOT_INO, Components(path)[..|Components(path)| - 1]).Some? ==>
      var p := ResolveFrom(t, ROOT_INO, Components(path)[..|Components(path)| - 1]).value;
      !IsDir(t, p) ==> r == Err(ParentNotDirectory)
    ensures |Components(path)| == 1 ==> r == Ok((ROOT_INO, Components(path)[0]))
    ensures |Components(path)| > 1 && ResolveFrom(t, ROOT_INO, Components(path)[..|Components(path)| - 1]).Some? ==>
      var p := ResolveFrom(t, ROOT_INO, Components(path)[..|Components(path)| - 1]).value;
      IsDir(t, p) ==> r == Ok((p, Components(path)[|Components(path)| - 1]))
  {
    if Trim(path) == "" then
      ComponentsOfEmpty();
      assert Components(path) == DropEmpty(Split(""));
      Err(CannotOperateOnRoot)
    else
      var parts := Components(path);
      if |parts| == 0 then Err(InvalidPath)
      else
        var name := parts[|parts| - 1];
        if |parts| == 1 then Ok((ROOT_INO, name))
        else
          var prefix := parts[..|parts| - 1];
          ComponentsOfJoin(prefix);
          match ResolvePath(t, Join(prefix))
          case Err(e) => Err(e)
          case Ok(p) => if IsDir(t, p) then Ok((p, name)) else Err(ParentNotDirectory)
  }

  // ---------------------------------------------------------------------------
  // Creation

  /** The common shape of `create_file`, `create_dir` and `symlink`: resolve
      the parent, refuse an existing name, insert. The table is unchanged on
      every error; on success the new node has the next inode number and is
      registered under the final component when the parent is a directory. */
  function CreateAt(t: Table, path: string, node: string -> Node, now: Time): (r: Outcome<Ino>)
    ensures r.result.Err? ==> r.table == t
    ensures ResolveParent(t, path).Err? ==> r.result == Err(ResolveParent(t, path).error)
    ensures ResolveParent(t, path).Ok? ==>
      var (parent, name) := ResolveParent(t, path).value;
      && (Tree.Lookup(t, parent, name).Some? ==> r.result == Err(AlreadyExists))
      && (Tree.Lookup(t, parent, name).None? ==>
            && r.result == Ok(t.nextIno)
            && r.table == Insert(t, parent, node(name), now).1)
  {
    match ResolveParent(t, path)
    case Err(e) => Outcome(Err(e), t)
    case Ok((parent, name)) =>
      if Tree.Lookup(t, parent, name).Some? then Outcome(Err(AlreadyExists), t)
      else
        var (ino, t') := Insert(t, parent, node(name), now);
        Outcome(Ok(ino), t')
  }

  /** `create_file`: a file with the given content (`None` in the source is
      the empty content) and mode, stored as given. */
  function CreateFile(t: Table, path: string, content: seq<byte>, mode: U16, now: Time): (r: Outcome<Ino>)
    ensures r.result.Err? ==> r.table == t
    ensures r.result.Ok? ==>
      && ResolveParent(t, path).Ok? && |Components(path)| >= 1
      && r.result.value == t.nextIno && t.nextIno in r.table.inodes
      && r.table.inodes[t.nextIno] == FileNode(Components(path)[|Components(path)| - 1], content, mode,
                                                t.nextIno, ResolveParent(t, path).value.0, Times(now, now, now))
  {
    CreateAt(t, path, name => NewFile(name, content, mode, now), now)
  }

  /** `create_dir`: an empty directory with the given mode. */
  function CreateDir(t: Table, path: string, mode: U16, now: Time): (r: Outcome<Ino>)
    ensures r.result.Err? ==> r.table == t
    ensures r.result.Ok? ==>
      && ResolveParent(t, path).Ok? && |Components(path)| >= 1
      && r.result.value == t.nextIno && t.nextIno in r.table.inodes
      && r.table.inodes[t.nextIno] == DirNode(Components(path)[|Components(path)| - 1], mode, t.nextIno,
                                               ResolveParent(t, path).value.0, map[], Times(now, now, now))
  {
    CreateAt(t, path, name => NewDir(name, mode, now), now)
  }

  /** `symlink(target, path)`: a symlink storing `target` verbatim. */
  function Symlink(t: Table, target: string, path: string, now: Time): (r: Outcome<Ino>)
    ensures r.result.Err? ==> r.table == t
    ensures r.result.Ok? ==>
      && ResolveParent(t, path).Ok? && |Components(path)| >= 1
      && r.result.value == t.nextIno && t.nextIno in r.table.inodes
      && r.table.inodes[t.nextIno] == SymlinkNode(Components(path)[|Components(path)| - 1], target, t.nextIno,
                                                   ResolveParent(t, path).value.0, Times(now, now, now))
  {
    CreateAt(t, path, name => NewSymlink(name, target, now), now)
  }

  /** The loop of `makedirs` from directory `cur`: reuse an existing
      directory, fail on a file, symlink or dangling entry, create a missing
      directory (and return it at once when it is the last component). At
      the end, `cur` must be a directory. */
  function MakedirsWalk(t: Table, cur: Ino, parts: seq<string>, mode: U16, now: Time): (r: Outcome<Ino>)
    ensures |parts| > 0 && Tree.Lookup(t, cur, parts[0]).Some? ==>
      var c := Tree.Lookup(t, cur, parts[0]).value;
      && (c !in t.inodes ==> r == Outcome(Err(DanglingInode), t))
      && (c in t.inodes && !t.inodes[c].DirNode? ==> r == Outcome(Err(ComponentNotDirectory), t))
    decreases |parts|
  {
    if |parts| == 0 then
      if IsDir(t, cur) then Outcome(Ok(cur), t) else Outcome(Err(DirectoryNotFound), t)
    else
      match Tree.Lookup(t, cur, parts[0])
      case Some(c) =>
        (match Get(t, c)
         case Some(DirNode(_, _, _, _, _, _)) => MakedirsWalk(t, c, parts[1..], mode, now)
         case Some(_) => Outcome(Err(ComponentNotDirectory), t)
         case None => Outcome(Err(DanglingInode), t))
      case None =>
        var (ino, t1) := Insert(t, cur, NewDir(parts[0], mode, now), now);
        if |parts| == 1 then Outcome(Ok(ino), t1)
        else MakedirsWalk(t1, ino, parts[1..], mode, now)
  }

  /** `makedirs` (`mkdir -p`): a path without components is the root, with
      nothing created; otherwise walk from the root. */
  function Makedirs(t: Table, path: string, mode: U16, now: Time): (r: Outcome<Ino>)
    ensures |Components(path)| == 0 ==> r == Outcome(Ok(ROOT_INO), t)
  {
    var parts := Components(path);
    if |parts| == 0 then Outcome(Ok(ROOT_INO), t)
    else MakedirsWalk(t, ROOT_INO, parts, mode, now)
  }

  // ---------------------------------------------------------------------------
  // Queries

  /** `get`: the node a path names; a dangling final entry is "not found". */
  function GetPath(t: Table, path: string): (r: Result<Node, PathError>)
    ensures r.Err? ==> r.error == PathNotFound
    ensures r.Ok? <==> ResolvePath(t, path).Ok? && ResolvePath(t, path).value in t.inodes
    ensures r.Ok? ==> r.value == t.inodes[ResolvePath(t, path).value]
  {
    match ResolvePath(t, path)
    case Err(e) => Err(e)
    case Ok(ino) =>
      match Get(t, ino)
      case Some(n) => Ok(n)
      case None => Err(PathNotFound)
  }

  /** `exists`: the path resolves. A final entry whose inode is gone still
      counts, since only the resolution is checked. */
  function Exists(t: Table, path: string): (b: bool)
    ensures b <==> ResolveFrom(t, ROOT_INO, Components(path)).Some?
  {
    ResolvePath(t, path).Ok?
  }

  /** `readlink`: the stored target of the symlink a path names. */
  function Readlink(t: Table, path: string): (r: Result<string, PathError>)
    ensures ResolvePath(t, path).Err? ==> r == Err(PathNotFound)
    ensures ResolvePath(t, path).Ok? ==>
      var ino := ResolvePath(t, path).value;
      && (ino in t.inodes && t.inodes[ino].SymlinkNode? ==> r == Ok(t.inodes[ino].target))
      && (!(ino in t.inodes && t.inodes[ino].SymlinkNode?) ==> r == Err(NotASymlink))
  {
    match ResolvePath(t, path)
    case Err(e) => Err(e)
    case Ok(ino) =>
      match GetSymlink(t, ino)
      case Some(s) => Ok(s.target)
      case None => Err(NotASymlink)
  }

  /** `is_symlink`: the path resolves to a live symlink; never an error. */
  function IsSymlink(t: Table, path: string): (b: bool)
    ensures b <==> GetPath(t, path).Ok? && GetPath(t, path).value.SymlinkNode?
    ensures b ==> Readlink(t, path).Ok?
  {
    match ResolvePath(t, path)
    case Err(_) => false
    case Ok(ino) => Get(t, ino).Some? && Get(t, ino).value.SymlinkNode?
  }

  /** `listdir`: the names of a directory's entries, in the hash map's order
      in the source and as a set here. */
  function Listdir(t: Table, path: string): (r: Result<set<string>, PathError>)
    ensures ResolvePath(t, path).Err? ==> r == Err(PathNotFound)
    ensures ResolvePath(t, path).Ok? ==>
      var ino := ResolvePath(t, path).value;
      && (IsDir(t, ino) ==> r == Ok(t.inodes[ino].children.Keys))
      && (!IsDir(t, ino) ==> r == Err(NotADirectory))
  {
    match ResolvePath(t, path)
    case Err(e) => Err(e)
    case Ok(ino) =>
      match GetDir(t, ino)
      case Some(d) => Ok(d.children.Keys)
      case None => Err(NotADirectory)
  }

  // ---------------------------------------------------------------------------
  // Removal and rename

  /** `remove_file`: removes a file or symlink; a directory is refused. */
  function RemoveFile(t: Table, path: string, now: Time): (r: Outcome<()>)
    ensures r.result.Err? ==> r.table == t
    ensures ResolvePath(t, path).Err? ==> r.result == Err(PathNotFound)
    ensures ResolvePath(t, path).Ok? ==>
      var ino := ResolvePath(t, path).value;
      && (ino !in t.inodes ==> r.result == Err(PathNotFound))
      && (ino in t.inodes && t.inodes[ino].DirNode? ==> r.result == Err(IsADirectory))
      && (ino in t.inodes && !t.inodes[ino].DirNode? ==>
            r.result == Ok(()) && r.table == Remove(t, ino, now).1 && ino !in r.table.inodes)
  {
    match ResolvePath(t, path)
    case Err(e) => Outcome(Err(e), t)
    case Ok(ino) =>
      match Get(t, ino)
      case Some(DirNode(_, _, _, _, _, _)) => Outcome(Err(IsADirectory), t)
      case Some(_) => Outcome(Ok(()), Remove(t, ino, now).1)
      case None => Outcome(Err(PathNotFound), t)
  }

  /** `remove_dir`: removes an empty directory; a file, a symlink or a
      non-empty directory is refused. Nothing prevents removing the root
      when it is empty. */
  function RemoveDir(t: Table, path: string, now: Time): (r: Outcome<()>)
    ensures r.result.Err? ==> r.table == t
    ensures ResolvePath(t, path).Err? ==> r.result == Err(PathNotFound)
    ensures ResolvePath(t, path).Ok? ==>
      var ino := ResolvePath(t, path).value;
      && (ino !in t.inodes ==> r.result == Err(PathNotFound))
      && (ino in t.inodes && !t.inodes[ino].DirNode? ==> r.result == Err(NotADirectory))
      && (ino in t.inodes && t.inodes[ino].DirNode? && t.inodes[ino].children != map[] ==>
            r.result == Err(DirectoryNotEmpty))
      && (ino in t.inodes && t.inodes[ino].DirNode? && t.inodes[ino].children == map[] ==>
            r.result == Ok(()) && r.table == Remove(t, ino, now).1 && ino !in r.table.inodes)
  {
    match ResolvePath(t, path)
    case Err(e) => Outcome(Err(e), t)
    case Ok(ino) =>
      match Get(t, ino)
      case Some(DirNode(_, _, _, _, children, _)) =>
        if children != map[] then Outcome(Err(DirectoryNotEmpty), t)
        else Outcome(Ok(()), Remove(t, ino, now).1)
      case Some(_) => Outcome(Err(NotADirectory), t)
      case None => Outcome(Err(PathNotFound), t)
  }

  /** `rename(old_path, new_path)`: the same policy as the FUSE `rename`.
      Both parents are resolved first; then a missing source, a kind
      mismatch or a non-empty destination directory is refused with the
      table unchanged. Otherwise an existing destination is removed and the
      table's rename moves the entry; when that fails (the source entry was
      the destination itself) the removal stays. */
  function Rename(t: Table, oldPath: string, newPath: string, now: Time): (r: Outcome<()>)
    ensures ResolveParent(t, oldPath).Err? ==> r == Outcome(Err(ResolveParent(t, oldPath).error), t)
    ensures ResolveParent(t, oldPath).Ok? && ResolveParent(t, newPath).Err? ==>
      r == Outcome(Err(ResolveParent(t, newPath).error), t)
    ensures ResolveParent(t, oldPath).Ok? && ResolveParent(t, newPath).Ok? ==>
      var (op, on) := ResolveParent(t, oldPath).value;
      var (np, nn) := ResolveParent(t, newPath).value;
      var src := Tree.Lookup(t, op, on);
      var dst := Tree.Lookup(t, np, nn);
      && (src.None? ==> r == Outcome(Err(PathError.SourceNotFound), t))
      && (src.Some? && dst.Some? && IsDir(t, src.value) != IsDir(t, dst.value) ==>
            r == Outcome(Err(KindMismatch), t))
      && (src.Some? && dst.Some? && IsDir(t, src.value) && IsDir(t, dst.value)
            && t.inodes[dst.value].children != map[] ==>
            r == Outcome(Err(DestinationNotEmpty), t))
      && (src.Some? && dst.None? ==>
            var mv := Tree.Rename(t, op, on, np, nn, now);
            r == Outcome(if mv.0.Ok? then Ok(()) else Err(MoveFailed(mv.0.error)), mv.1))
      && (src.Some? && dst.Some? && IsDir(t, src.value) == IsDir(t, dst.value)
            && !(IsDir(t, dst.value) && t.inodes[dst.value].children != map[]) ==>
            var mv := Tree.Rename(Remove(t, dst.value, now).1, op, on, np, nn, now);
            r == Outcome(if mv.0.Ok? then Ok(()) else Err(MoveFailed(mv.0.error)), mv.1))
  {
    match ResolveParent(t, oldPath)
    case Err(e) => Outcome(Err(e), t)
    case Ok((op, on)) =>
      match ResolveParent(t, newPath)
      case Err(e) => Outcome(Err(e), t)
      case Ok((np, nn)) =>
        match Tree.Lookup(t, op, on)
        case None => Outcome(Err(PathError.SourceNotFound), t)
        case Some(src) =>
          match Tree.Lookup(t, np, nn)
          case None => Move(t, op, on, np, nn, now)
          case Some(existing) =>
            var srcIsDir := IsDir(t, src);
            var dstIsDir := IsDir(t, existing);
            if srcIsDir != dstIsDir then Outcome(Err(KindMismatch), t)
            else if dstIsDir && t.inodes[existing].children != map[] then Outcome(Err(DestinationNotEmpty), t)
            else Move(Remove(t, existing, now).1, op, on, np, nn, now)
  }

  /** The table's rename as the final step of a path rename. */
  function Move(t: Table, op: Ino, on: string, np: Ino, nn: string, now: Time): Outcome<()>
  {
    var (res, t') := Tree.Rename(t, op, on, np, nn, now);
    match res
    case Ok(_) => Outcome(Ok(()), t')
    case Err(e) => Outcome(Err(MoveFailed(e)), t')
  }
}

=== FILE: scenario.dfy ===
/** A worked session against the FUSE callbacks: make a directory, create
    and write a file, extend it past a gap, rename it, and remove it and its
    directory, checking each reply and the attributes along the way. */
module Scenario {
  import opened Common
  import opened Tree
  import opened Fuse

  const HI: seq<byte> := [0x68, 0x69]
  const BANG: seq<byte> := [0x21, 0x21, 0x21]

  /** A fresh mount: the table with its root directory. */
  function Mounted(uid: U32, gid: U32, now: Time): (t: Table)
    ensures IsDir(t, ROOT_INO) && t.inodes[ROOT_INO].children == map[]
    ensures t.inodes.Keys == {ROOT_INO} && t.nextIno == 2
  {
    InitRoot(New(uid, gid), now)
  }

  /** `mkdir /a`, then `create /a/b.txt` and write "hi": the file is inode 3
      in directory 2, of size 2 in one block. */
  lemma CreateAndWrite(uid: U32, gid: U32, now: Time)
    ensures var t0 := Mounted(uid, gid, now);
      var s1 := Mkdir(t0, ROOT_INO, Text("a"), 0x1ED, now);
      var s2 := Create(s1.table, 2, Text("b.txt"), 0x1A4, now);
      var s3 := Write(s2.table, 3, 0, HI, now);
      && s1.reply.Ok? && s1.reply.value.ino == 2 && s1.reply.value.kind == Directory
      && s2.reply.Ok? && s2.reply.value.ino == 3
      && s3.reply == Ok(2)
      && Fuse.GetAttr(s3.table, 3).Ok?
      && Fuse.GetAttr(s3.table, 3).value.size == 2
      && Fuse.GetAttr(s3.table, 3).value.blocks == 1
      && Fuse.GetAttr(s3.table, 3).value.kind == File
  {
    var t0 := Mounted(uid, gid, now);
    var s1 := Mkdir(t0, ROOT_INO, Text("a"), 0x1ED, now);
    assert IsDir(s1.table, 2);
    var s2 := Create(s1.table, 2, Text("b.txt"), 0x1A4, now);
    assert s2.table.inodes[3].content == [];
    var s3 := Write(s2.table, 3, 0, HI, now);
    assert s3.table.inodes[3].content == HI;
  }

  /** Writing "!!!" at offset 5 of a two-byte file: the reply is 3, the size
      becomes 8, bytes 2 to 4 read as zeros and bytes 5 to 7 as the data. */
  lemma WritePastEnd(t: Table, ino: Ino, now: Time)
    requires GetFile(t, ino).Some? && t.inodes[ino].content == HI
    ensures var s := Write(t, ino, 5, BANG, now);
      && s.reply == Ok(3)
      && Fuse.GetAttr(s.table, ino).Ok? && Fuse.GetAttr(s.table, ino).value.size == 8
      && Read(s.table, ino, 2, 3) == Ok(Zeros(3))
      && Read(s.table, ino, 5, 3) == Ok(BANG)
  {
    var s := Write(t, ino, 5, BANG, now);
    var c := s.table.inodes[ino].content;
    assert |c| == 8;
    assert c[2..5] == Zeros(3);
    assert c[5..8] == BANG;
  }

  /** Renaming `b.txt` to `c.txt` within one directory keeps the inode
      number: the old name no longer resolves, the new one gives the same
      node. */
  lemma RenameWithinDirectory(t: Table, d: Ino, ino: Ino, now: Time)
    requires IsDir(t, d) && Tree.Lookup(t, d, "b.txt") == Some(ino) && ino in t.inodes && ino != d
    requires Tree.Lookup(t, d, "c.txt").None?
    ensures var s := Fuse.Rename(t, d, Text("b.txt"), d, Text("c.txt"), now);
      && s.reply == Ok(())
      && Fuse.Lookup(s.table, d, Text("b.txt")) == Err(ENOENT)
      && Fuse.Lookup(s.table, d, Text("c.txt")).Ok?
      && Fuse.Lookup(s.table, d, Text("c.txt")).value.ino == ino
  {
    var s := Fuse.Rename(t, d, Text("b.txt"), d, Text("c.txt"), now);
    assert ("b.txt", "c.txt") != ("c.txt", "b.txt");
    assert Tree.Lookup(s.table, d, "c.txt") == Some(ino);
  }

  /** `rmdir` of a directory holding one file fails with ENOTEMPTY and
      changes nothing; once the file is unlinked, `rmdir` succeeds. */
  lemma RmdirAfterUnlink(t: Table, p: Ino, d: Ino, f: Ino, now: Time)
    requires IsDir(t, p) && Tree.Lookup(t, p, "a") == Some(d) && IsDir(t, d) && d != p
    requires t.inodes[d].children == map["c.txt" := f] && GetFile(t, f).Some?
    requires t.inodes[f].parentIno == d && t.inodes[f].name == "c.txt" && f != p
    ensures Rmdir(t, p, Text("a"), now) == Step(Err(ENOTEMPTY), t)
    ensures var u := Unlink(t, d, Text("c.txt"), now);
      && u.reply == Ok(())
      && Rmdir(u.table, p, Text("a"), now).reply == Ok(())
  {
    var u := Unlink(t, d, Text("c.txt"), now);
    assert u.table == Remove(t, f, now).1;
    assert Tree.Lookup(u.table, p, "a") == Some(d);
    assert u.table.inodes[d].children == map[];
  }
}

=== FILE: tree.dfy ===
/** The inode table of `src/tree.rs`: a map from inode number to node, an
    allocation counter, and the primitive tree operations on them. Every
    operation is a pure function from the old table to its result and the
    new table; the mutex that serialises them in the source is not modelled. */
module Tree {
  import opened Common
  import Bytes
  import Utf8

  /** An inode number (`u64` in the source; see README for the width). */
  type Ino = nat

  /** The root directory's inode number. */
  const ROOT_INO: Ino := 1

  /** Octal 0o755, the default directory mode. */
  const DIR_MODE: U16 := 0x1ED

  /** Octal 0o777, the permission every symlink reports. */
  const SYMLINK_PERM: U16 := 0x1FF

  /** A point in time, kept abstract: operations that stamp a time take it as `now`. */
  type Time = int

  datatype Times = Times(atime: Time, mtime: Time, ctime: Time)

  /** A node of the tree. `ino` and `parentIno` are 0 until the node is inserted. */
  datatype Node =
    | FileNode(name: string, content: seq<byte>, mode: U16, ino: Ino, parentIno: Ino, times: Times)
    | DirNode(name: string, mode: U16, ino: Ino, parentIno: Ino, children: map<string, Ino>, times: Times)
    | SymlinkNode(name: string, target: string, ino: Ino, parentIno: Ino, times: Times)

  datatype FileKind = File | Directory | Symlink

  /** The attribute record `getattr` synthesises, mirroring stat(2). */
  datatype FileAttr = FileAttr(
    ino: Ino, size: nat, blocks: nat,
    atime: Time, mtime: Time, ctime: Time, crtime: Time,
    kind: FileKind, perm: U16, nlink: nat, uid: U32, gid: U32)

  /** The table: live nodes, the next inode number to hand out, and the owner
      reported for every node. */
  datatype Table = Table(inodes: map<Ino, Node>, nextIno: Ino, uid: U32, gid: U32)

  /** The two failures of `InodeTable::rename`. */
  datatype TreeError = SourceNotFound | NodeNotFound

  function Kind(n: Node): FileKind
  {
    match n
    case FileNode(_, _, _, _, _, _) => File
    case DirNode(_, _, _, _, _, _) => Directory
    case SymlinkNode(_, _, _, _, _) => Symlink
  }

  predicate IsDir(t: Table, i: Ino)
  {
    i in t.inodes && t.inodes[i].DirNode?
  }

  // ---------------------------------------------------------------------------
  // Node constructors and the file byte-buffer operations (PyFile, PyDirectory,
  // PySymlink)

  /** `PyFile::new`: a detached file holding `content`. */
  function NewFile(name: string, content: seq<byte>, mode: U16, now: Time): Node
  {
    FileNode(name, content, mode, 0, 0, Times(now, now, now))
  }

  /** `PyDirectory::new`: a detached, empty directory. */
  function NewDir(name: string, mode: U16, now: Time): Node
  {
    DirNode(name, mode, 0, 0, map[], Times(now, now, now))
  }

  /** `PySymlink::new`: a detached symlink; the target is kept verbatim. */
  function NewSymlink(name: string, target: string, now: Time): Node
  {
    SymlinkNode(name, target, 0, 0, Times(now, now, now))
  }

  /** `PyFile::size`: the number of content bytes. */
  function FileSize(f: Node): nat
    requires f.FileNode?
  {
    |f.content|
  }

  /** `PyFile::write`: replace the whole content and stamp mtime and ctime. */
  function FileWrite(f: Node, data: seq<byte>, now: Time): (r: Node)
    requires f.FileNode?
    ensures r.FileNode? && r.content == data && FileSize(r) == |data|
    ensures r.name == f.name && r.mode == f.mode && r.ino == f.ino && r.parentIno == f.parentIno
    ensures r.times == Times(f.times.atime, now, now)
  {
    f.(content := data, times := f.times.(mtime := now, ctime := now))
  }

  /** `PyFile::truncate`: resize to exactly `size` bytes, keeping the prefix
      and zero-filling any growth, and stamp mtime and ctime. */
  function FileTruncate(f: Node, size: nat, now: Time): (r: Node)
    requires f.FileNode?
    ensures r.FileNode? && FileSize(r) == size
    ensures size <= FileSize(f) ==> r.content == f.content[..size]
    ensures size > FileSize(f) ==> r.content == f.content + Zeros(size - FileSize(f))
    ensures r.name == f.name && r.mode == f.mode && r.ino == f.ino && r.parentIno == f.parentIno
    ensures r.times == Times(f.times.atime, now, now)
  {
    f.(content := Bytes.Truncate(f.content, size), times := f.times.(mtime := now, ctime := now))
  }

  // ---------------------------------------------------------------------------
  // Directory entry edits used by insert, remove and rename

  /** Register `name -> ino` in a directory and stamp its mtime and ctime. */
  function AddChild(d: Node, name: string, ino: Ino, now: Time): (r: Node)
    requires d.DirNode?
    ensures r.DirNode? && r.children.Keys == d.children.Keys + {name} && r.children[name] == ino
    ensures forall n :: n in d.children && n != name ==> r.children[n] == d.children[n]
    ensures r.name == d.name && r.mode == d.mode && r.ino == d.ino && r.parentIno == d.parentIno
    ensures r.times == Times(d.times.atime, now, now)
  {
    d.(children := d.children[name := ino], times := d.times.(mtime := now, ctime := now))
  }

  /** Drop `name` from a directory and stamp its mtime and ctime. */
  function DropChild(d: Node, name: string, now: Time): (r: Node)
    requires d.DirNode?
    ensures r.DirNode? && r.children.Keys == d.children.Keys - {name}
    ensures forall n :: n in r.children ==> r.children[n] == d.children[n]
    ensures r.name == d.name && r.mode == d.mode && r.ino == d.ino && r.parentIno == d.parentIno
    ensures r.times == Times(d.times.atime, now, now)
  {
    d.(children := d.children - {name}, times := d.times.(mtime := now, ctime := now))
  }

  // ---------------------------------------------------------------------------
  // InodeTable

  /** `InodeTable::new`: no nodes yet; the first number handed out is 2,
      because 1 is reserved for the root. */
  function New(uid: U32, gid: U32): (t: Table)
    ensures t.inodes == map[]
    ensures t.nextIno == ROOT_INO + 1
  {
    Table(map[], ROOT_INO + 1, uid, gid)
  }

  /** `InodeTable::init_root`: an empty directory with an empty name at the
      root number, which is its own parent. The counter is not touched. */
  function InitRoot(t: Table, now: Time): (r: Table)
    ensures IsDir(r, ROOT_INO)
    ensures r.inodes[ROOT_INO].parentIno == ROOT_INO && r.inodes[ROOT_INO].ino == ROOT_INO
    ensures r.inodes[ROOT_INO].children == map[] && r.inodes[ROOT_INO].name == ""
    ensures r.inodes[ROOT_INO].mode == DIR_MODE && r.inodes[ROOT_INO].times == Times(now, now, now)
    ensures r.nextIno == t.nextIno && r.uid == t.uid && r.gid == t.gid
    ensures forall i :: i in t.inodes && i != ROOT_INO ==> i in r.inodes && r.inodes[i] == t.inodes[i]
  {
    var root := DirNode("", DIR_MODE, ROOT_INO, ROOT_INO, map[], Times(now, now, now));
    t.(inodes := t.inodes[ROOT_INO := root])
  }

  /** `InodeTable::alloc_ino`: hand out the counter, then advance it. */
  function AllocIno(t: Table): (r: (Ino, Table))
    ensures r.0 == t.nextIno && r.1.nextIno == t.nextIno + 1
    ensures r.1.inodes == t.inodes && r.1.uid == t.uid && r.1.gid == t.gid
  {
    (t.nextIno, t.(nextIno := t.nextIno + 1))
  }

  /** `InodeTable::get`. */
  function Get(t: Table, ino: Ino): (r: Option<Node>)
    ensures r.Some? <==> ino in t.inodes
    ensures r.Some? ==> r.value == t.inodes[ino]
  {
    if ino in t.inodes then Some(t.inodes[ino]) else None
  }

  /** `InodeTable::get_file`: the node, only when it is a file. */
  function GetFile(t: Table, ino: Ino): (r: Option<Node>)
    ensures r.Some? <==> ino in t.inodes && t.inodes[ino].FileNode?
    ensures r.Some? ==> r.value == t.inodes[ino]
  {
    match Get(t, ino)
    case Some(n) => if n.FileNode? then Some(n) else None
    case None => None
  }

  /** `InodeTable::get_dir`: the node, only when it is a directory. */
  function GetDir(t: Table, ino: Ino): (r: Option<Node>)
    ensures r.Some? <==> IsDir(t, ino)
    ensures r.Some? ==> r.value == t.inodes[ino]
  {
    match Get(t, ino)
    case Some(n) => if n.DirNode? then Some(n) else None
    case None => None
  }

  /** `InodeTable::get_symlink`: the node, only when it is a symlink. */
  function GetSymlink(t: Table, ino: Ino): (r: Option<Node>)
    ensures r.Some? <==> ino in t.inodes && t.inodes[ino].SymlinkNode?
    ensures r.Some? ==> r.value == t.inodes[ino]
  {
    match Get(t, ino)
    case Some(n) => if n.SymlinkNode? then Some(n) else None
    case None => None
  }

  /** `InodeTable::lookup`: the child entry `name` of directory `parent`; absent
      when the parent is missing or is not a directory. The entry is returned
      as stored, whether or not that inode is still live. */
  function Lookup(t: Table, parent: Ino, name: string): (r: Option<Ino>)
    ensures r.Some? <==> IsDir(t, parent) && name in t.inodes[parent].children
    ensures r.Some? ==> r.value == t.inodes[parent].children[name]
  {
    match GetDir(t, parent)
    case Some(d) => if name in d.children then Some(d.children[name]) else None
    case None => None
  }

  /** `InodeTable::insert_file`, `insert_dir` and `insert_symlink`, which differ
      only in the node variant: allocate a number, stamp it and `parent` into the
      node, register the name in the parent when the parent is a directory,
      and store the node. When the parent is missing or not a directory the
      registration is skipped and the node is stored anyway, reachable from no
      directory. An existing entry of the same name is overwritten. */
  function Insert(t: Table, parent: Ino, node: Node, now: Time): (r: (Ino, Table))
    ensures r.0 == t.nextIno && r.1.nextIno == t.nextIno + 1
    ensures r.1.uid == t.uid && r.1.gid == t.gid
    ensures r.1.inodes.Keys == t.inodes.Keys + {r.0}
    ensures r.1.inodes[r.0] == node.(ino := r.0, parentIno := parent)
    ensures IsDir(t, parent) && parent != r.0 ==>
      && IsDir(r.1, parent)
      && Lookup(r.1, parent, node.name) == Some(r.0)
      && (forall n :: n != node.name ==> Lookup(r.1, parent, n) == Lookup(t, parent, n))
      && r.1.inodes[parent] == AddChild(t.inodes[parent], node.name, r.0, now)
    ensures forall i :: i in t.inodes && i != parent && i != r.0 ==> r.1.inodes[i] == t.inodes[i]
    ensures !IsDir(t, parent) ==> r.1.inodes == t.inodes[r.0 := node.(ino := r.0, parentIno := parent)]
  {
    var (ino, t1) := AllocIno(t);
    var placed := node.(ino := ino, parentIno := parent);
    var inodes := if IsDir(t1, parent)
      then t1.inodes[parent := AddChild(t1.inodes[parent], node.name, ino, now)]
      else t1.inodes;
    (ino, t1.(inodes := inodes[ino := placed]))
  }

  /** `InodeTable::remove`: delete the node and drop its name from its parent's
      entries (when the parent is a live directory). No emptiness or kind check
      is made here. An absent number is reported as `None` and changes nothing. */
  function Remove(t: Table, ino: Ino, now: Time): (r: (Option<Node>, Table))
    ensures ino !in t.inodes ==> r == (None, t)
    ensures ino in t.inodes ==>
      && r.0 == Some(t.inodes[ino])
      && r.1.inodes.Keys == t.inodes.Keys - {ino}
      && r.1.nextIno == t.nextIno && r.1.uid == t.uid && r.1.gid == t.gid
    ensures ino in t.inodes && t.inodes[ino].parentIno != ino && IsDir(t, t.inodes[ino].parentIno) ==>
      var p := t.inodes[ino].parentIno;
      && IsDir(r.1, p)
      && r.1.inodes[p].children == t.inodes[p].children - {t.inodes[ino].name}
    ensures ino in t.inodes && t.inodes[ino].parentIno != ino && IsDir(t, t.inodes[ino].parentIno) ==>
      var p := t.inodes[ino].parentIno;
      r.1.inodes[p] == DropChild(t.inodes[p], t.inodes[ino].name, now)
    ensures ino in t.inodes && !(t.inodes[ino].parentIno != ino && IsDir(t, t.inodes[ino].parentIno)) ==>
      r.1.inodes == t.inodes - {ino}
    ensures ino in t.inodes ==>
      forall i :: i in t.inodes && i != ino && i != t.inodes[ino].parentIno ==> r.1.inodes[i] == t.inodes[i]
  {
    if ino !in t.inodes then (None, t)
    else
      var node := t.inodes[ino];
      var rest := t.inodes - {ino};
      var p := node.parentIno;
      var inodes := if p in rest && rest[p].DirNode?
        then rest[p := DropChild(rest[p], node.name, now)]
        else rest;
      (Some(node), t.(inodes := inodes))
  }

  /** The number of 512-byte blocks `size` bytes occupy: `u64::div_ceil(size, 512)`. */
  function Blocks(size: nat): (b: nat)
    ensures b * 512 >= size && (b == 0 || (b - 1) * 512 < size)
  {
    (size + 511) / 512
  }

  /** `InodeTable::getattr`: synthesise the attribute record from the live
      node. Files report their content length and its block count, one link,
      and their stored mode; directories report size 0 and two links plus one
      per entry; symlinks report the UTF-8 length of their target and
      permission 0o777 whatever their mode. Creation time mirrors ctime, and
      the owner is the table's. */
  function GetAttr(t: Table, ino: Ino): (r: Option<FileAttr>)
    ensures r.Some? <==> ino in t.inodes
    ensures r.Some? ==>
      var n := t.inodes[ino];
      && r.value.ino == ino && r.value.kind == Kind(n)
      && r.value.atime == n.times.atime && r.value.mtime == n.times.mtime
      && r.value.ctime == n.times.ctime && r.value.crtime == n.times.ctime
      && r.value.uid == t.uid && r.value.gid == t.gid
      && (n.FileNode? ==>
            r.value.size == |n.content| && r.value.nlink == 1 && r.value.perm == n.mode
            && r.value.blocks * 512 >= r.value.size
            && (r.value.blocks == 0 || (r.value.blocks - 1) * 512 < r.value.size))
      && (n.DirNode? ==>
            r.value.size == 0 && r.value.blocks == 0 && r.value.perm == n.mode
            && r.value.nlink == 2 + |n.children|)
      && (n.SymlinkNode? ==>
            r.value.size == |Utf8.Encode(n.target)| && r.value.blocks == 0
            && r.value.perm == SYMLINK_PERM && r.value.nlink == 1)
  {
    match Get(t, ino)
    case None => None
    case Some(n) =>
      Some(match n
        case FileNode(_, content, mode, _, _, tm) =>
          FileAttr(ino, |content|, Blocks(|content|), tm.atime, tm.mtime, tm.ctime, tm.ctime,
                   File, mode, 1, t.uid, t.gid)
        case DirNode(_, mode, _, _, children, tm) =>
          FileAttr(ino, 0, 0, tm.atime, tm.mtime, tm.ctime, tm.ctime,
                   Directory, mode, 2 + |children|, t.uid, t.gid)
        case SymlinkNode(_, target, _, _, tm) =>
          FileAttr(ino, Utf8.ByteLen(target), 0, tm.atime, tm.mtime, tm.ctime, tm.ctime,
                   Symlink, SYMLINK_PERM, 1, t.uid, t.gid))
  }

  /** Give a node a new name and parent, stamping its ctime. */
  function Relocate(n: Node, name: string, parent: Ino, now: Time): (r: Node)
    ensures r.name == name && r.parentIno == parent && r.ino == n.ino && Kind(r) == Kind(n)
    ensures r.FileNode? ==> r.content == n.content && r.mode == n.mode
    ensures r.DirNode? ==> r.children == n.children && r.mode == n.mode
    ensures r.SymlinkNode? ==> r.target == n.target
    ensures r.times == Times(n.times.atime, n.times.mtime, now)
  {
    n.(name := name, parentIno := parent, times := n.times.(ctime := now))
  }

  /** `InodeTable::rename`: move the entry `oldName` of `oldParent` to
      `newName` under `newParent`, keeping the inode number. The steps run in
      the source's order on the evolving table: drop the old entry, relocate
      the node, register the new entry (when `newParent` is a directory). No
      destination check is made: an existing `newName` entry is overwritten.
      If the entry names an inode that is no longer live, the old entry has
      already been dropped when the failure is reported. */
  function Rename(t: Table, oldParent: Ino, oldName: string, newParent: Ino, newName: string, now: Time)
    : (r: (Result<(), TreeError>, Table))
    ensures Lookup(t, oldParent, oldName).None? ==> r == (Err(SourceNotFound), t)
    ensures Lookup(t, oldParent, oldName).Some? ==>
      var ino := Lookup(t, oldParent, oldName).value;
      && r.1.inodes.Keys == t.inodes.Keys && r.1.nextIno == t.nextIno
      && r.1.uid == t.uid && r.1.gid == t.gid
      && ((oldParent, oldName) != (newParent, newName) ==> Lookup(r.1, oldParent, oldName).None?)
      && (ino !in t.inodes ==> r.0 == Err(NodeNotFound))
      && (ino in t.inodes ==> r.0 == Ok(()))
      && (ino in t.inodes ==>
            r.1.inodes[ino].name == newName && r.1.inodes[ino].parentIno == newParent)
      && (ino in t.inodes && ino != oldParent && ino != newParent ==>
            r.1.inodes[ino] == Relocate(t.inodes[ino], newName, newParent, now))
      && (oldParent != newParent && oldParent != ino ==>
            r.1.inodes[oldParent] == DropChild(t.inodes[oldParent], oldName, now))
      && (ino in t.inodes && IsDir(t, newParent) && newParent != oldParent && newParent != ino ==>
            r.1.inodes[newParent] == AddChild(t.inodes[newParent], newName, ino, now))
      && (ino in t.inodes && oldParent == newParent && oldParent != ino ==>
            r.1.inodes[oldParent] == AddChild(DropChild(t.inodes[oldParent], oldName, now), newName, ino, now))
      && (ino in t.inodes ==> Kind(r.1.inodes[ino]) == Kind(t.inodes[ino]))
      && (ino in t.inodes && t.inodes[ino].FileNode? ==> r.1.inodes[ino].content == t.inodes[ino].content)
      && (ino in t.inodes && t.inodes[ino].SymlinkNode? ==> r.1.inodes[ino].target == t.inodes[ino].target)
      && (ino in t.inodes && IsDir(t, newParent) ==> Lookup(r.1, newParent, newName) == Some(ino))
      && (forall i :: i in t.inodes && i != oldParent && i != newParent && i != ino ==>
            r.1.inodes[i] == t.inodes[i])
      && (forall n :: n != oldName && n != newName ==>
            && Lookup(r.1, oldParent, n) == Lookup(t, oldParent, n)
            && Lookup(r.1, newParent, n) == Lookup(t, newParent, n))
  {
    match Lookup(t, oldParent, oldName)
    case None => (Err(SourceNotFound), t)
    case Some(ino) =>
      var t1 := t.(inodes := t.inodes[oldParent := DropChild(t.inodes[oldParent], oldName, now)]);
      if ino !in t1.inodes then (Err(NodeNotFound), t1)
      else (Ok(()), Attach(t1, ino, newParent, newName, now))
  }

  /** The second half of a rename: the node takes its new name and parent,
    * and the new parent, when it is a directory, gains the entry. */
  function Attach(t: Table, ino: Ino, newParent: Ino, newName: string, now: Time): (r: Table)
    requires ino in t.inodes
    ensures r.inodes.Keys == t.inodes.Keys && r.nextIno == t.nextIno && r.uid == t.uid && r.gid == t.gid
    ensures r.inodes[ino].name == newName && r.inodes[ino].parentIno == newParent
    ensures Kind(r.inodes[ino]) == Kind(t.inodes[ino])
    ensures t.inodes[ino].FileNode? ==> r.inodes[ino].content == t.inodes[ino].content
    ensures t.inodes[ino].SymlinkNode? ==> r.inodes[ino].target == t.inodes[ino].target
    ensures ino != newParent ==> r.inodes[ino] == Relocate(t.inodes[ino], newName, newParent, now)
    ensures IsDir(t, newParent) && newParent != ino ==>
      r.inodes[newParent] == AddChild(t.inodes[newParent], newName, ino, now)
    ensures IsDir(t, newParent) ==> Lookup(r, newParent, newName) == Some(ino)
    ensures forall i :: i in t.inodes && i != ino && i != newParent ==> r.inodes[i] == t.inodes[i]
    ensures forall p, n :: p != newParent || n != newName ==> Lookup(r, p, n) == Lookup(t, p, n)
  {
    var t2 := t.(inodes := t.inodes[ino := Relocate(t.inodes[ino], newName, newParent, now)]);
    if IsDir(t2, newParent)
    then t2.(inodes := t2.inodes[newParent := AddChild(t2.inodes[newParent], newName, ino, now)])
    else t2
  }
}

=== FILE: utf8.dfy ===
/** UTF-8, as far as the source relies on it: Rust's `String::len` counts the
    bytes of the UTF-8 encoding (a symlink's reported size), and
    `str::as_bytes` is what `readlink` replies with. */
module Utf8 {
  import opened Common

  /** Number of bytes UTF-8 spends on one scalar value. */
  function Width(c: char): (w: nat)
    ensures 1 <= w <= 4
  {
    var cp := c as int;
    if cp < 0x80 then 1 else if cp < 0x800 then 2 else if cp < 0x1_0000 then 3 else 4
  }

  /** Rust's `String::len`: the length of the UTF-8 encoding in bytes. */
  function ByteLen(s: string): nat
  {
    if |s| == 0 then 0 else Width(s[0]) + ByteLen(s[1..])
  }

  /** The UTF-8 encoding of one scalar value: a lead byte marking the width,
      then six payload bits per continuation byte. */
  function EncodeChar(c: char): (r: seq<byte>)
    ensures |r| == Width(c)
    ensures |r| == 1 ==> r[0] as int == c as int
    ensures |r| == 2 ==> 0xC0 <= r[0] < 0xE0
    ensures |r| == 3 ==> 0xE0 <= r[0] < 0xF0
    ensures |r| == 4 ==> 0xF0 <= r[0] < 0xF8
    ensures forall i :: 1 <= i < |r| ==> 0x80 <= r[i] < 0xC0
  {
    var cp := c as int;
    if cp < 0x80 then [cp as byte]
    else if cp < 0x800 then Lead(0xC0, cp / 64, 32) + Tail(cp, 1)
    else if cp < 0x1_0000 then Lead(0xE0, cp / 4096, 16) + Tail(cp, 2)
    else Lead(0xF0, cp / 262144, 8) + Tail(cp, 3)
  }

  /** A lead byte: the width marker `tag` with the top payload bits `bits < limit`. */
  function Lead(tag: int, bits: int, limit: int): (r: seq<byte>)
    requires tag == 0x100 - 2 * limit && 0 <= bits < limit && 8 <= limit <= 32
    ensures |r| == 1 && r[0] as int == tag + bits
  {
    [(tag + bits) as byte]
  }

  /** The `n` continuation bytes carrying the low `6 * n` bits of `cp`. */
  function Tail(cp: nat, n: nat): (r: seq<byte>)
    ensures |r| == n
    ensures forall i :: 0 <= i < n ==> 0x80 <= r[i] < 0xC0
    decreases n
  {
    if n == 0 then [] else Tail(cp / 64, n - 1) + [(0x80 + cp % 64) as byte]
  }

  /** `str::as_bytes`: the concatenated encodings of the characters. */
  function Encode(s: string): (r: seq<byte>)
    ensures |r| == ByteLen(s)
  {
    if |s| == 0 then [] else EncodeChar(s[0]) + Encode(s[1..])
  }

  /** ASCII text is one byte per character. */
  lemma {:induction false} AsciiByteLen(s: string)
    requires forall i :: 0 <= i < |s| ==> s[i] as int < 0x80
    ensures ByteLen(s) == |s|
  {
    if |s| > 0 {
      AsciiByteLen(s[1..]);
    }
  }
}
